=== FILE: README.md ===
# kmal interpreter core in Dafny

This project models the core of **kmal**, a Kotlin implementation of the
"make a lisp" interpreter. It covers:

- the value types and their printing (`kmal_types.kt`);
- the token reader and the atom coercions (`reader.kt`, `type_coercion.kt`);
- the builtin functions (`kmal_core.kt`, and the older `kmal_library.kt`);
- three evaluator stages:
  - stage 2 (`step2_eval.kt`): a fixed map of builtins;
  - stage 3 (`step3_env.kt`): `def!`, `let*` and nested environments;
  - stage 4 (`step4_if_fn_do.kt`): `do`, `if` and closures made by `fn*`.

Every evaluator and builtin is a pure function. A thrown exception becomes a
`Failure` carrying an `Error` value. Kotlin `Long` arithmetic is written out:
results wrap modulo 2^64 and division truncates toward zero.

The mutable environments of stages 3 and 4 are an arena of frames:

- each frame is a variable map plus an optional parent index;
- "set in the current frame" replaces one frame;
- "a new child environment" appends a frame.

The evaluators return the arena they leave behind. Their contracts state
which frames may have changed. Stage 4 also threads a counter that gives
every closure a fresh identity. A fuel parameter bounds the recursion; it
stands in for the JVM stack.

Modules:

- `Wrappers`, `Errors`: results and error values;
- `Numbers`: `Long` wrap-around, truncating division, decimal text;
- `Types`: values, equality, truthiness, map building and flattening, printing;
- `Coercion`: `type_coercion.kt`;
- `Reader`: `reader.kt`;
- `ReadBack`: the reader turns an idealised token layout of a value (one token per atom,
  delimiters around elements) back into the value, and keeps forms in order across comments;
- `Core`, `Library`: the builtins;
- `Env`: the frame arena;
- `SpecialForms`: the checks `def!`, `let*` and `fn*` make, and parameter binding;
- `Step2`, `Step3`, `Step4`: the evaluator stages.

## Model

All source paths are under `impls/kmal/src/mal/`.

| member | source | states |
|---|---|---|
| Numbers.Wrap | impls/kmal/src/mal/kmal_core.kt:43-45 | the result is congruent to the exact value modulo 2^64, and equals it whenever the exact value fits in a Long |
| Numbers.WrapShift | impls/kmal/src/mal/kmal_core.kt:43-45 | wrapping ignores multiples of 2^64 |
| Numbers.WrapAdd | impls/kmal/src/mal/kmal_core.kt:43-44 | wrapping after every addition gives the same Long as wrapping once at the end |
| Numbers.WrapMul | impls/kmal/src/mal/kmal_core.kt:45 | wrapping after every multiplication gives the same Long as wrapping once at the end |
| Numbers.TruncDiv | impls/kmal/src/mal/kmal_core.kt:46 | quotient and remainder recompose the dividend (JVM division rounds toward zero) |
| Numbers.TruncRem | impls/kmal/src/mal/kmal_core.kt:46 | the remainder is smaller than the divisor in magnitude and has the dividend's sign |
| Numbers.NatToDigits | impls/kmal/src/mal/kmal_types.kt:31 | decimal text of a natural: non-empty, all digits, no leading zero |
| Numbers.IntToString | impls/kmal/src/mal/kmal_types.kt:31 | Long.toString begins with a minus sign or a digit |
| Numbers.ParseLong | impls/kmal/src/mal/type_coercion.kt:36 | toLongOrNull accepts only text beginning with a sign or a digit |
| Numbers.DigitsRoundTrip | impls/kmal/src/mal/kmal_types.kt:31 | the value of the printed digits of n is n |
| Numbers.ParseRendered | impls/kmal/src/mal/type_coercion.kt:36 | parsing a printed Long gives back the same Long |
| Types.MakeKeyword | impls/kmal/src/mal/kmal_types.kt:109-114 | a keyword stores its name behind a one-character marker |
| Types.EqualReflexive | impls/kmal/src/mal/kmal_types.kt:78-133 | every value equals itself under the source's `equals` |
| Types.EqualSymmetric | impls/kmal/src/mal/kmal_types.kt:78-133 | value equality is symmetric |
| Types.EqualTransitive | impls/kmal/src/mal/kmal_types.kt:78-133 | value equality is transitive |
| Types.SequenceKindsEqual | impls/kmal/src/mal/kmal_types.kt:80 | a list equals a vector exactly when their elements are pairwise equal, in either order and as if both were lists |
| Types.MapIsNotSequence | impls/kmal/src/mal/kmal_types.kt:80-96 | a map never equals a list or vector |
| Types.First | impls/kmal/src/mal/kmal_types.kt:81 | `first` is absent exactly for an empty sequence, else the first element |
| Types.Rest | impls/kmal/src/mal/kmal_types.kt:82 | `rest` is absent below two elements, else the elements after the first |
| Types.Size | impls/kmal/src/mal/kmal_types.kt:83 | `size` is the number of elements |
| Types.TruthinessCases | impls/kmal/src/mal/kmal_types.kt:64-70 | exactly nil and false are falsy |
| Types.FindKey | impls/kmal/src/mal/kmal_types.kt:150 | finds the first entry whose key equals the given key, or reports that none does |
| Types.Put | impls/kmal/src/mal/kmal_types.kt:150 | after a put the key looks up to the new value; the map grows by at most one entry |
| Types.ToMap | impls/kmal/src/mal/kmal_types.kt:146-153 | an odd number of forms fails with the map error; otherwise the result is a map with distinct keys |
| Types.ToList | impls/kmal/src/mal/kmal_types.kt:164-171 | the flattened list holds each entry's key then its value, in entry order |
| Types.PutDistinct | impls/kmal/src/mal/kmal_types.kt:150 | a put keeps keys distinct |
| Types.PutPairsDistinct | impls/kmal/src/mal/kmal_types.kt:149-151 | the put loop keeps keys distinct |
| Types.MapRoundTrip | impls/kmal/src/mal/kmal_types.kt:146-171 | building a map from the flattened list of a map gives the same map |
| Types.LookupPut | impls/kmal/src/mal/kmal_types.kt:150 | after a put, the key put gives the new value and every other key gives what it gave before |
| Types.ToMapLookup | impls/kmal/src/mal/kmal_types.kt:146-153 | a key of the built map gives the value of its last binding in the form list |
| Types.StringPrinting | impls/kmal/src/mal/kmal_types.kt:22-28 | a string prints in quotes readably and bare otherwise |
| Types.KeywordPrinting | impls/kmal/src/mal/kmal_types.kt:30 | a keyword prints as a colon and its name, the same either way |
| Coercion.CoerceToNil | impls/kmal/src/mal/type_coercion.kt:44-47 | gives nil exactly for the token `nil` |
| Coercion.CoerceToBoolean | impls/kmal/src/mal/type_coercion.kt:42 | gives a boolean exactly for `true` or `false`, with that value |
| Coercion.CoerceToInt | impls/kmal/src/mal/type_coercion.kt:36 | a number results only from a token beginning with a sign or a digit |
| Coercion.CoerceToKeyword | impls/kmal/src/mal/type_coercion.kt:19-23 | gives a keyword exactly for a token starting with a colon; that keyword prints back as the token |
| Coercion.CoerceToString | impls/kmal/src/mal/type_coercion.kt:25-34 | declines tokens without a leading quote; fails exactly on an unclosed quote; otherwise gives the contents, which print back as the token |
| Coercion.CoerceToSymbol | impls/kmal/src/mal/type_coercion.kt:40 | any token is a symbol of that name and prints back as the token |
| Coercion.CoerceToMap | impls/kmal/src/mal/type_coercion.kt:49-56 | declines an odd list; otherwise a map with distinct keys, each giving its last binding in the list |
| Coercion.CoerceToList | impls/kmal/src/mal/type_coercion.kt:58-64 | key then value of each entry, in entry order |
| Coercion.MapListRoundTrip | impls/kmal/src/mal/type_coercion.kt:49-64 | turning a map into a list and back gives the same map |
| Reader.TokenReader.Peek | impls/kmal/src/mal/reader.kt:17-20 | the current token, and an end-of-input error exactly when none is left |
| Reader.TokenReader.Next | impls/kmal/src/mal/reader.kt:22 | the current token and a cursor one further on, or end of input |
| Reader.Build | impls/kmal/src/mal/reader.kt:61-63 | lists and vectors keep the forms; a map needs an even number of forms and gets distinct keys |
| Reader.Close | impls/kmal/src/mal/reader.kt:47-48 | the sequence factory's value, with the cursor left on the closing delimiter |
| Reader.ReadAtomToken | impls/kmal/src/mal/reader.kt:65-84 | the coercers give an atom; only an unclosed string fails; a symbol keeps the token as its name |
| Reader.ReadAtom | impls/kmal/src/mal/reader.kt:75-84 | end of input fails; otherwise the coercion of the current token |
| Reader.ReadForm | impls/kmal/src/mal/reader.kt:86-95 | the current token picks a comment, a list, a vector, a map or an atom; a delimited form ends on its closing delimiter |
| Reader.ReadSequence | impls/kmal/src/mal/reader.kt:39-59 | a wrong opening delimiter fails; success ends on the closing delimiter and gives the right kind, with comments dropped and map keys distinct |
| Reader.ReadElements | impls/kmal/src/mal/reader.kt:44-58 | the loop ends on the closing delimiter or fails at end of input; it keeps the kind and drops comments |
| Reader.ReadTokens | impls/kmal/src/mal/reader.kt:97-101 | an empty token list is end of input |
| ReadBack.Tokens | impls/kmal/src/mal/kmal_types.kt:16-37 | the idealised token layout of a value (one token per atom, delimiters around elements) is never empty |
| ReadBack.AtomText | impls/kmal/src/mal/kmal_types.kt:22-33 | an atom's token is its readable printing |
| ReadBack.AtomBack | impls/kmal/src/mal/reader.kt:65-84 | the coercers read a readable atom's printed token back to the atom |
| ReadBack.MapCloses | impls/kmal/src/mal/reader.kt:63 | closing a map with its own flattened entries rebuilds it |
| ReadBack.ReadFormBack | impls/kmal/src/mal/reader.kt:86-95 | reading the tokens of a readable value gives the value and stops on its last token |
| ReadBack.SequenceBack | impls/kmal/src/mal/reader.kt:39-62 | a printed list or vector reads back to its elements |
| ReadBack.MapBack | impls/kmal/src/mal/reader.kt:39-63 | a printed map reads back to its flattened entries |
| ReadBack.ReadElementsBack | impls/kmal/src/mal/reader.kt:44-56 | the element loop consumes the tokens of each readable element in turn |
| ReadBack.OneBack | impls/kmal/src/mal/reader.kt:50-55 | one loop step consumes one element's tokens and gathers the element |
| ReadBack.ReadTokensBack | impls/kmal/src/mal/reader.kt:97-101 | reading the idealised token layout of a readable value gives the value, whatever follows |
| ReadBack.CommentStep | impls/kmal/src/mal/reader.kt:50-54 | a comment token inside a delimited form is dropped and the loop moves to the next token |
| ReadBack.ItemBack | impls/kmal/src/mal/reader.kt:48-55 | one loop step skips a comment or reads and keeps one readable form |
| ReadBack.ItemsBack | impls/kmal/src/mal/reader.kt:44-56 | the loop over comments and readable forms, in any order, gathers exactly the forms in source order |
| ReadBack.CommentedFormBack | impls/kmal/src/mal/reader.kt:39-63 | a delimited form of comments and readable forms reads as the forms, in order, built into the delimiters' kind |
| ReadBack.CommentedSequenceBack | impls/kmal/src/mal/reader.kt:44-62 | a list or vector keeps its forms in source order whatever comments sit between them |
| ReadBack.OddMapFails | impls/kmal/src/mal/reader.kt:63 | a map literal with an odd number of forms fails with the odd-forms error, comments or not |
| Core.ForceParity | impls/kmal/src/mal/kmal_core.kt:21-24 | passes exactly when the count is at least the minimum and, unless the maximum is -1, at most the maximum; otherwise an arity error with the count |
| Core.ParityWindows | impls/kmal/src/mal/kmal_core.kt:21-24 | the window (k, k) admits exactly k; the window (k, -1) admits k or more |
| Core.Combine | impls/kmal/src/mal/kmal_core.kt:43-46 | an operator fails only on division by zero |
| Core.ArithStep | impls/kmal/src/mal/kmal_core.kt:36-41 | two numbers give a number; any other pair fails with the operation's name and both type names |
| Core.Fold | impls/kmal/src/mal/kmal_core.kt:32 | the reduce fails only with a type or division error, and gives a number otherwise |
| Core.Arithmetic | impls/kmal/src/mal/kmal_core.kt:29-34 | fewer than two arguments is an arity error; otherwise a number, a type error or a division error |
| Core.FoldSnoc | impls/kmal/src/mal/kmal_core.kt:32 | reducing one more element is one more step on the reduced prefix |
| Core.FoldSum | impls/kmal/src/mal/kmal_core.kt:32-43 | the addition reduce is the wrapped sum |
| Core.FoldDifference | impls/kmal/src/mal/kmal_core.kt:32-44 | the subtraction reduce is the wrapped start minus the sum of the rest |
| Core.FoldProduct | impls/kmal/src/mal/kmal_core.kt:32-45 | the multiplication reduce is the wrapped product |
| Core.ArithmeticSum | impls/kmal/src/mal/kmal_core.kt:43 | `+` on two or more numbers is their sum modulo 2^64 |
| Core.ArithmeticDifference | impls/kmal/src/mal/kmal_core.kt:44 | `-` is the first number minus all the others, wrapped |
| Core.ArithmeticProduct | impls/kmal/src/mal/kmal_core.kt:45 | `*` is the product, wrapped |
| Core.SubtractExample | impls/kmal/src/mal/kmal_core.kt:44 | `(- 10 1 2)` is 7 |
| Core.FoldQuotient | impls/kmal/src/mal/kmal_core.kt:32-46 | the division reduce fails exactly when some divisor is zero |
| Core.ArithmeticQuotient | impls/kmal/src/mal/kmal_core.kt:46 | `/` fails with division by zero exactly when some argument after the first is zero |
| Core.FoldTypeError | impls/kmal/src/mal/kmal_core.kt:32-39 | the first non-number ends the reduce, with the accumulated Number named first |
| Core.ArithmeticTypeError | impls/kmal/src/mal/kmal_core.kt:29-39 | the error names the first non-number, with the first two arguments' types when it is one of them |
| Core.Equals | impls/kmal/src/mal/kmal_core.kt:48-57 | fails exactly below two arguments, and gives a boolean otherwise |
| Core.EqualsPairwise | impls/kmal/src/mal/kmal_core.kt:48-57 | `=` is true exactly when all arguments are pairwise equal |
| Core.CompareAsWritten | impls/kmal/src/mal/kmal_core.kt:134-144 | the comparison as written: fewer than two arguments is an arity error, all-number arguments give a boolean, any other failure is an expected-number error |
| Core.CompareFromAsWritten | impls/kmal/src/mal/kmal_core.kt:136-142 | the loop as written gives a boolean or an expected-number error, and fails only when some argument from the current pair on is not a number |
| Core.CompareFrom | impls/kmal/src/mal/kmal_core.kt:136-143 | the comparison loop gives a boolean or an expected-number error |
| Core.Compare | impls/kmal/src/mal/kmal_core.kt:134-152 | fewer than two arguments is an arity error; otherwise a boolean or an expected-number error |
| Core.CompareFromNumbers | impls/kmal/src/mal/kmal_core.kt:136-143 | on numbers the loop is true exactly when every adjacent pair is ordered |
| Core.CompareChained | impls/kmal/src/mal/kmal_core.kt:134-152 | `<`, `<=`, `>`, `>=` on numbers hold exactly when every adjacent pair is ordered |
| Core.CompareFromTypeError | impls/kmal/src/mal/kmal_core.kt:136-141 | the loop reaches the first non-number and reports its type |
| Core.CompareTypeError | impls/kmal/src/mal/kmal_core.kt:134-141 | a comparison whose prefix stays ordered fails at the first non-number, naming its type |
| Core.CompareMessageNamesWrongArgument | impls/kmal/src/mal/kmal_core.kt:137-138 | `(< 1 2 "a")` reports Number as written but String when corrected |
| Core.CompareAgreesOnOutcome | impls/kmal/src/mal/kmal_core.kt:134-144 | the written and corrected comparisons succeed on the same inputs with the same value |
| Core.Not | impls/kmal/src/mal/kmal_core.kt:154-158 | fails unless given one argument; otherwise the negated truthiness |
| Core.AndPicks | impls/kmal/src/mal/kmal_core.kt:160-166 | `and` returns one of its arguments: the first falsy one, else the last; it is truthy exactly when all are |
| Core.OrPicks | impls/kmal/src/mal/kmal_core.kt:168-174 | `or` returns the first truthy argument, else the last; it is falsy exactly when all are |
| Core.IsListOf | impls/kmal/src/mal/kmal_core.kt:108-114 | fails unless given one argument; true exactly for a list |
| Core.IsEmptyOf | impls/kmal/src/mal/kmal_core.kt:116-123 | fails unless given one argument |
| Core.CountOf | impls/kmal/src/mal/kmal_core.kt:125-132 | fails unless given one argument |
| Core.EmptyIsCountZero | impls/kmal/src/mal/kmal_core.kt:116-132 | `empty?` is true exactly for a sequence whose `count` is 0; `count` of a non-sequence is 0 |
| Core.Escape | impls/kmal/src/mal/kmal_core.kt:88-90 | escaping never shortens the text |
| Core.PrStrSingle | impls/kmal/src/mal/kmal_core.kt:86-91 | the readable printing, escaped |
| Core.EscapeByReplacing | impls/kmal/src/mal/kmal_core.kt:88-90 | the three replacements in the source's order escape each character once |
| Core.UnescapeEscape | impls/kmal/src/mal/kmal_core.kt:86-91 | unescaping the escaped text gives the original back |
| Core.Str | impls/kmal/src/mal/kmal_core.kt:100-102 | `str` gives a string |
| Core.PrStr | impls/kmal/src/mal/kmal_core.kt:93-98 | `pr-str` gives a string |
| Core.StringBuilders | impls/kmal/src/mal/kmal_core.kt:86-102 | `str` of one string is that string; `pr-str` of it is its quoted, escaped form, which unescapes to the quoted string |
| Core.ConsoleLine | impls/kmal/src/mal/kmal_core.kt:59-84 | only `println` and `prn` write a line; with no arguments it is empty |
| Core.ConsoleLines | impls/kmal/src/mal/kmal_core.kt:59-84 | without backslashes, `println` writes a string bare and `prn` writes it quoted |
| Core.PrintlnUnescapes | impls/kmal/src/mal/kmal_core.kt:64-67 | `println` turns the two characters `\n` into a newline |
| Core.Apply | impls/kmal/src/mal/kmal_core.kt:176-197 | the comparison builtins run the comparison as written; the printing, list and logic builtins never fail; the others fail only with arity (naming the count), type, division or expected-number errors |
| Core.NameIdentifies | impls/kmal/src/mal/kmal_core.kt:176-197 | no two builtins share a namespace name |
| Core.Namespace | impls/kmal/src/mal/kmal_core.kt:176-197 | every builtin is bound under its name, and every bound name is that builtin |
| Library.ForceParity | impls/kmal/src/mal/kmal_library.kt:12-15 | the same window check as the core's |
| Library.Arithmetic | impls/kmal/src/mal/kmal_library.kt:17-22 | the library's arithmetic agrees with the core's on every input |
| Library.ArithmeticOperation | impls/kmal/src/mal/kmal_library.kt:24-29 | one step agrees with the core's; a non-number pair is a type error |
| Library.Equals | impls/kmal/src/mal/kmal_library.kt:36-45 | the library's `=` agrees with the core's |
| Env.Root | impls/kmal/src/mal/step4_if_fn_do.kt:177-178 | a well-formed arena holding only the global frame |
| Env.Outer | impls/kmal/src/mal/step4_if_fn_do.kt:82 | an enclosing frame always comes earlier in the arena |
| Env.Chain | impls/kmal/src/mal/step3_env.kt:23 | the frames searched start at the current frame and stay within the arena |
| Env.Get | impls/kmal/src/mal/step3_env.kt:23 | a lookup fails only as unbound, naming the symbol |
| Env.GetFirstBinder | impls/kmal/src/mal/step3_env.kt:23 | a lookup fails exactly when no frame on the chain binds the name; otherwise it gives the nearest binding |
| Env.Set | impls/kmal/src/mal/step3_env.kt:35 | setting changes the current frame's map at one name and nothing else |
| Env.NewChild | impls/kmal/src/mal/step3_env.kt:41 | a child frame is appended, empty, pointing to its parent |
| Env.NewChildWellFormed | impls/kmal/src/mal/step3_env.kt:41 | adding a child keeps the arena well formed |
| Env.SetWellFormed | impls/kmal/src/mal/step3_env.kt:35 | setting keeps the arena well formed |
| Env.OuterIsParent | impls/kmal/src/mal/step3_env.kt:41 | in a well-formed arena the enclosing frame is the recorded parent |
| Env.GetSetSame | impls/kmal/src/mal/step3_env.kt:35 | after a set, the name looks up to the new value in that frame |
| Env.ChainSet | impls/kmal/src/mal/step3_env.kt:35 | a set never changes which frames are searched |
| Env.GetSetOther | impls/kmal/src/mal/step3_env.kt:35 | a set leaves every other name's lookup unchanged |
| Env.GetSetElsewhere | impls/kmal/src/mal/step3_env.kt:35 | a set in a frame off the chain is invisible |
| Env.SetAboveInvisible | impls/kmal/src/mal/step3_env.kt:41-48 | a set in a child is invisible from the enclosing frames |
| Env.GetExtend | impls/kmal/src/mal/step3_env.kt:41 | adding frames leaves lookups from old frames unchanged |
| Env.GetNewChild | impls/kmal/src/mal/step3_env.kt:41 | a fresh child sees what its parent sees |
| Env.ChangesOnlyNew | impls/kmal/src/mal/step3_env.kt:41-51 | changes confined to new frames leave the old arena as a prefix |
| Env.ChangesOnlySet | impls/kmal/src/mal/step3_env.kt:35 | a set changes only its own frame |
| Env.Bind | impls/kmal/src/mal/step4_if_fn_do.kt:137-153 | a run of sets changes only the target frame |
| Env.BindLast | impls/kmal/src/mal/step4_if_fn_do.kt:144-151 | a name set once more in a run ends bound to its last value |
| Env.BindKeeps | impls/kmal/src/mal/step4_if_fn_do.kt:137-153 | names not in the run keep their binding |
| SpecialForms.DefShapeAsWritten | impls/kmal/src/mal/step4_if_fn_do.kt:72-75 | succeeds exactly for three or more elements with a symbol name; fewer than two is an arity error, a non-symbol name is an error naming its type, a symbol with no value form is an index error at 2 |
| SpecialForms.DefShape | impls/kmal/src/mal/step4_if_fn_do.kt:72-75 | succeeds exactly for three or more elements with a symbol name; fewer is an arity error, a non-symbol names its type |
| SpecialForms.DefMissingValue | impls/kmal/src/mal/step4_if_fn_do.kt:73-75 | `(def! x)` reads past the end as written, and is an arity error when corrected |
| SpecialForms.DefShapesAgree | impls/kmal/src/mal/step3_env.kt:32-34 | the written and corrected checks agree on every form whose length is not two |
| SpecialForms.LetBindings | impls/kmal/src/mal/step4_if_fn_do.kt:83-84 | the bindings must be a list or vector of even length; otherwise the matching error |
| SpecialForms.SymbolNames | impls/kmal/src/mal/step4_if_fn_do.kt:130 | succeeds exactly when every parameter is a symbol, giving their names; otherwise names the type of the first non-symbol |
| SpecialForms.LambdaShape | impls/kmal/src/mal/step4_if_fn_do.kt:126-130 | three elements with a list or vector of symbols; otherwise arity or sequence errors |
| SpecialForms.ValidateFrom | impls/kmal/src/mal/step4_if_fn_do.kt:117-124 | passes exactly when `&` appears only second-last from the given position on; a failure reports the first other position |
| SpecialForms.ValidateVariadic | impls/kmal/src/mal/step4_if_fn_do.kt:117-124 | passes exactly when `&` appears only second-last; otherwise reports the first misplaced `&` |
| SpecialForms.VariadicPairs | impls/kmal/src/mal/step4_if_fn_do.kt:137-146 | only parameter names are bound |
| SpecialForms.VariadicPairsShape | impls/kmal/src/mal/step4_if_fn_do.kt:137-146 | each parameter before `&` gets its own argument; the one after gets the rest as a list |
| SpecialForms.ParamBindings | impls/kmal/src/mal/step4_if_fn_do.kt:133-153 | fixed parameters need exactly as many arguments and pair them up; variadic ones need at least as many as come before `&`, and `&` nowhere else; the matching error otherwise |
| SpecialForms.VariadicBindings | impls/kmal/src/mal/step4_if_fn_do.kt:134-147 | a variadic binding pairs the leading parameters with their arguments and the last parameter with the rest |
| SpecialForms.VariadicExample | impls/kmal/src/mal/step4_if_fn_do.kt:134-147 | `(a & more)` with 1 2 3 binds a to 1 and more to (2 3) |
| Step2.ReplEnv | impls/kmal/src/mal/step2_eval.kt:51-58 | the stage-2 environment names the six builtins |
| Step2.Eval | impls/kmal/src/mal/step2_eval.kt:31-43 | the empty list is its own value; a non-list is handled by evalAST; the call step is stated by Step2.CallApplies, Step2.CallFails, Step2.HeadNotAFunction and Step2.BuiltinCall |
| Step2.EvalAst | impls/kmal/src/mal/step2_eval.kt:21-29 | a symbol fails exactly when unbound; lists and vectors keep their kind and length; a map becomes a map with distinct keys; other values are their own value |
| Step2.EvalAll | impls/kmal/src/mal/step2_eval.kt:24 | success gives one value per element |
| Step2.EvalEntries | impls/kmal/src/mal/step2_eval.kt:26 | success gives two values per entry |
| Step2.EvalEntry | impls/kmal/src/mal/step2_eval.kt:26 | success gives the key's and the value's values |
| Step2.Apply | impls/kmal/src/mal/step2_eval.kt:37-40 | a non-function head is an error naming its type; a builtin runs on the arguments |
| Step2.Print | impls/kmal/src/mal/step2_eval.kt:45 | prints nothing exactly for a comment |
| Step2.Rep | impls/kmal/src/mal/step2_eval.kt:47 | an empty token list is end of input |
| Step2.EvalAllPointwise | impls/kmal/src/mal/step2_eval.kt:24 | evaluating a sequence succeeds exactly when each element does, giving their values in order, else the first element's error |
| Step2.CallApplies | impls/kmal/src/mal/step2_eval.kt:36-40 | when every element of a non-empty list evaluates, the list's value is the head's value applied to the other elements' values, in order |
| Step2.CallFails | impls/kmal/src/mal/step2_eval.kt:36 | a call whose k-th element is the first to fail fails with that element's error |
| Step2.HeadNotAFunction | impls/kmal/src/mal/step2_eval.kt:36-38 | a call whose elements all evaluate but whose head is not a function fails, naming the head's type |
| Step2.BuiltinCall | impls/kmal/src/mal/step2_eval.kt:36-40 | a call headed by a bound symbol runs that builtin of the core library on the arguments' values |
| Step2.EvalEntriesFlat | impls/kmal/src/mal/step2_eval.kt:26 | evaluating a map entry by entry is evaluating its flattened list |
| Step2.ConstantEval | impls/kmal/src/mal/step2_eval.kt:21-29 | a value without symbols or calls evaluates to itself |
| Step2.AddExample | impls/kmal/src/mal/step2_eval.kt:31-43 | `(+ 1 2)` is 3 |
| Step2.NotAFunctionExample | impls/kmal/src/mal/step2_eval.kt:38 | `(1 2)` fails, naming Number |
| Step3.ReplEnvs | impls/kmal/src/mal/step3_env.kt:78-87 | one well-formed frame binding the six builtins |
| Step3.Eval | impls/kmal/src/mal/step3_env.kt:54-70 | changes only the current frame; the empty list is its own value; the call step is stated by Step3.CallApplies |
| Step3.EvalAst | impls/kmal/src/mal/step3_env.kt:21-29 | a symbol is looked up along the chain without changes; lists and vectors keep kind and length; a map becomes a map with distinct keys |
| Step3.EvalAll | impls/kmal/src/mal/step3_env.kt:24 | changes only the current frame; one value per element |
| Step3.EvalEntries | impls/kmal/src/mal/step3_env.kt:26 | changes only the current frame; two values per entry |
| Step3.EvalEntry | impls/kmal/src/mal/step3_env.kt:26 | changes only the current frame; two values |
| Step3.Def | impls/kmal/src/mal/step3_env.kt:31-37 | changes only the current frame; a form the checks as written reject fails with their error before anything changes |
| Step3.Let | impls/kmal/src/mal/step3_env.kt:39-52 | no existing frame changes; a form of other than three elements is an arity error |
| Step3.LetPairs | impls/kmal/src/mal/step3_env.kt:44-49 | the binding loop changes only the new child frame |
| Step3.Rep | impls/kmal/src/mal/step3_env.kt:74 | changes only the current frame; empty input is end of input |
| Step3.DefBinds | impls/kmal/src/mal/step3_env.kt:31-37 | `def!` returns the value and binds the name to it in the current frame |
| Step3.DefNeedsSymbol | impls/kmal/src/mal/step3_env.kt:32-33 | a `def!` of two or more elements whose name is not a symbol fails with its type and changes nothing |
| Step3.LetLeavesParent | impls/kmal/src/mal/step3_env.kt:41-51 | `let*` leaves every existing frame as it was |
| Step3.LetShapeErrors | impls/kmal/src/mal/step3_env.kt:40-46 | arity, sequence, odd-binding and non-symbol first name errors, in the source's order |
| Step3.LetPairsSplit | impls/kmal/src/mal/step3_env.kt:44-49 | the binding loop takes its pairs in order: binding a + b is binding a, then b in the frames a left, unless a failed |
| Step3.LetPairAt | impls/kmal/src/mal/step3_env.kt:44-49 | once the earlier pairs are bound, a non-symbol name at pair k fails naming its type; otherwise its value form is evaluated in the child holding the earlier pairs and bound there |
| Step3.LetSequential | impls/kmal/src/mal/step3_env.kt:44-51 | each binding is evaluated in the child holding the bindings before it |
| Step3.LetExample | impls/kmal/src/mal/step3_env.kt:39-52 | `(let* (a 1 b a) b)` is 1 |
| Step3.CallApplies | impls/kmal/src/mal/step3_env.kt:61-67 | a list not headed by def! or let* evaluates its elements in order; the first error is the result, otherwise the head is applied to the rest (a builtin through the core library), in the frames the elements left |
| Step3.HeadNotAFunction | impls/kmal/src/mal/step3_env.kt:62-64 | a non-function head fails, naming its type |
| Step4.Start | impls/kmal/src/mal/step4_if_fn_do.kt:177-178 | one well-formed frame where every builtin is bound under its name |
| Step4.Eval | impls/kmal/src/mal/step4_if_fn_do.kt:58-64 | changes only the current frame and never reuses a closure id; the empty list is its own value; the call step is stated by Step4.CallApplies and Step4.CallRunsClosure |
| Step4.EvalAst | impls/kmal/src/mal/step4_if_fn_do.kt:28-36 | a symbol is looked up without changes; lists and vectors keep kind and length; a map becomes a map with distinct keys |
| Step4.EvalAll | impls/kmal/src/mal/step4_if_fn_do.kt:31 | changes only the current frame; one value per element |
| Step4.EvalEntries | impls/kmal/src/mal/step4_if_fn_do.kt:33 | changes only the current frame; two values per entry |
| Step4.SpecialForm | impls/kmal/src/mal/step4_if_fn_do.kt:38-48 | a special form changes only the current frame |
| Step4.EvalFunction | impls/kmal/src/mal/step4_if_fn_do.kt:50-56 | a call changes only the current frame; what it computes is stated by Step4.CallApplies |
| Step4.ApplyFn | impls/kmal/src/mal/step4_if_fn_do.kt:131-156 | a call leaves every existing frame unchanged; a builtin call is the builtin on the arguments |
| Step4.Def | impls/kmal/src/mal/step4_if_fn_do.kt:72-78 | changes only the current frame; a form the checks as written reject fails with their error before anything changes |
| Step4.Let | impls/kmal/src/mal/step4_if_fn_do.kt:80-93 | no existing frame changes; a form of other than three elements is an arity error; the rest is stated by Step4.LetShapeErrors, Step4.LetEvaluatesBody, Step4.LetPairAt and Step4.LetSequential |
| Step4.LetPairs | impls/kmal/src/mal/step4_if_fn_do.kt:85-90 | the binding loop changes only the child frame; what it binds is stated by Step4.LetPairsSplit and Step4.LetPairAt |
| Step4.Do | impls/kmal/src/mal/step4_if_fn_do.kt:95-98 | `(do)` is nil without change; otherwise the last element's value, or the error of evaluating the elements |
| Step4.If | impls/kmal/src/mal/step4_if_fn_do.kt:100-109 | changes only the current frame; other than three or four elements is an arity error |
| Step4.Lambda | impls/kmal/src/mal/step4_if_fn_do.kt:126-131 | succeeds exactly when the form is well shaped, giving a fresh closure over the current frame holding the form's parameter names and body, and changes no frame |
| Step4.Rep | impls/kmal/src/mal/step4_if_fn_do.kt:68 | changes only the current frame; empty input is end of input |
| Step4.DefBinds | impls/kmal/src/mal/step4_if_fn_do.kt:72-78 | `def!` returns the value and binds the name to it in the current frame |
| Step4.CallApplies | impls/kmal/src/mal/step4_if_fn_do.kt:50-56 | a list not headed by a special form evaluates its elements in order; the first error is the result, otherwise the head's function is applied to the rest in the state the elements left (a builtin through the core library) |
| Step4.CallRunsClosure | impls/kmal/src/mal/step4_if_fn_do.kt:50-56 | calling a closure whose parameters bind evaluates its body with one less fuel in a new frame under the defining frame, holding the parameter bindings |
| Step4.SymbolErrorsDiffer | impls/kmal/src/mal/step4_if_fn_do.kt:74 | `(def! 1 2)` and `(fn* (1) 2)` fail with the two different messages for a non-symbol name |
| Step4.LetShapeErrors | impls/kmal/src/mal/step4_if_fn_do.kt:81-87 | arity, sequence, odd-binding and non-symbol first name errors, in the source's order |
| Step4.LetEvaluatesBody | impls/kmal/src/mal/step4_if_fn_do.kt:82-92 | a well-shaped let* binds its pairs in a new child of the current frame and evaluates the body there, or gives the first binding error |
| Step4.LetPairsSplit | impls/kmal/src/mal/step4_if_fn_do.kt:85-90 | the binding loop takes its pairs in order: binding a + b is binding a, then b in the state a left, unless a failed |
| Step4.LetPairAt | impls/kmal/src/mal/step4_if_fn_do.kt:85-90 | once the earlier pairs are bound, a non-symbol name at pair k fails naming its type; otherwise its value form is evaluated in the child holding the earlier pairs and bound there |
| Step4.LetSequential | impls/kmal/src/mal/step4_if_fn_do.kt:85-92 | the second binding's value is evaluated with the first bound in the child, and the body with both |
| Step4.HeadNotAFunction | impls/kmal/src/mal/step4_if_fn_do.kt:50-53 | a call whose head is not a function fails, naming the head's type |
| Step4.IfSelects | impls/kmal/src/mal/step4_if_fn_do.kt:100-109 | a truthy test evaluates the then-branch; a falsy one evaluates the else-branch, or gives nil without one |
| Step4.ClosureIdsFresh | impls/kmal/src/mal/step4_if_fn_do.kt:131 | a closure made in any later state, whatever was evaluated in between, differs from an earlier one |
| Step4.ClosureCall | impls/kmal/src/mal/step4_if_fn_do.kt:131-156 | a call evaluates the body in a new frame under the defining frame, holding the parameter bindings |
| Step4.ClosureArity | impls/kmal/src/mal/step4_if_fn_do.kt:148-149 | a fixed-parameter closure called with the wrong number of arguments is an arity error |
| Step4.ClosureSeesArguments | impls/kmal/src/mal/step4_if_fn_do.kt:148-153 | in the call frame each distinct parameter names its argument |
| Step4.ClosureSeesRest | impls/kmal/src/mal/step4_if_fn_do.kt:134-147 | in the call frame the last variadic parameter names the list of remaining arguments |
| Step4.ClosureSeesDefiningFrame | impls/kmal/src/mal/step4_if_fn_do.kt:132 | a non-parameter name in the call frame looks up as in the defining frame (lexical scope) |
| Step4.EmptyDo | impls/kmal/src/mal/step4_if_fn_do.kt:96 | `(do)` is nil |
| Step4.IdentityExample | impls/kmal/src/mal/step4_if_fn_do.kt:126-156 | `((fn* (a) a) 7)` is 7 |

## Left out

- The tokenizer (`reader.kt:28-37`), a regular-expression scan: the reader starts from a token list.
- Floats: `coerceToFloat` and the float conversions are not modelled. Every number is a Long, and a token such as `1.5` reads as a symbol.
- Comments compare equal to each other; the source's `KMalComment` has no `equals`, so two comment objects differ there. A comment can be evaluated (a lone `;` token reads as a comment, evaluates to itself and prints nothing), but the reader drops comments from every list, vector and map, so a comment is never an argument of `=` nor a map key and the difference is not observable.
- `KMalInt`, `toKMalInt`, `KMalFloat` and `toKMalFloat` are used by `type_coercion.kt` but defined nowhere in these files. A parsed integer is taken to be the Number of the same Long.
- Console I/O: the REPL loops, `runStatement`, `main` and the output of `println` and `prn`. The line those two would write is modelled by `Core.ConsoleLine`, and their value (nil) by `Core.Apply`.
- `Library.kmalPrintln` (`kmal_library.kt:47-60`): it prints the JVM `toString` of non-string values, which is not defined for these types.
- `kmal_library.kt:27` calls `toTypeString()`, which is not defined in these files. It is modelled as the type string of `kmal_types.kt:39-54`.
- Exception classes: EOF, IllegalState and IllegalArgument errors all become one `Error` datatype with one constructor per distinct message text (a message thrown from several places, such as the arity check, has one constructor, and `EndOfInput` stands for both the message-less EOF of `peek` and "EOF reached before sequence ended", which the REPL prints alike); the class only decides whether the REPL prints "EOF" or the message, and that console output is not modelled.
- The `KMalEnvironment(parent = …)` class with `get` and `set` is not in these files. `kmal_env.kt` defines only a flat map. The frame arena is modelled from its uses: `get` searches the parent chain and fails on an unbound name, and `set` writes the current frame.
- Env.Get: stated over any frame index; an index outside the arena behaves as an empty chain.
- Stack depth: recursion in stage 4 is bounded by fuel, and running out gives `OutOfFuel`. A JVM `StackOverflowError` has no counterpart in the source's own error handling. No lemma relates results at different fuel amounts.
- Stages 2 and 3 have no way to create a closure, so their `Apply` reports any closure value as not a function.
- JVM object identity of functions: closures carry an id drawn from a counter, and equality compares ids.
- Tokens after the first form are ignored, as `readAST` does.
- ReadBack.Tokens: the layout is idealised, one token per atom. `Readable` admits a symbol with a space in its name or a string holding a quote, which the tokenizer would split, so the round trip is stated from the token list on, not from text.
- ReadBack.CommentedFormBack: comments are placed between the elements of one delimited form; comments inside nested forms are not part of the statement.
- Coercion.CoerceToInt: states only the shape of accepted tokens, not the exact `toLongOrNull` grammar; Numbers.ParseLong is the model's parser.
- Numbers.ParseLong: states only the accepted first character and the round trip through printing; the exact range and grammar of `toLongOrNull` are not stated.
- Core.IsEmptyOf: its own contract states only the arity check; its value is stated by Core.EmptyIsCountZero.
- Core.CountOf: its own contract states only the arity check; its value is stated by Core.EmptyIsCountZero, for sequences of at most 2^63-1 elements.
- Core.Str: states only that the result is a string; Core.StringBuilders relates it to printing for one argument.
- Core.PrStr: states only that the result is a string; Core.StringBuilders relates it to escaping for one argument.
- Step4.SpecialForm: its contract states only which frames may change; each form's behaviour is stated by the members and lemmas of that form: Step4.Def and Step4.DefBinds; Step4.Let with Step4.LetShapeErrors, Step4.LetEvaluatesBody, Step4.LetPairAt and Step4.LetSequential; Step4.Do; Step4.If and Step4.IfSelects; Step4.Lambda and Step4.ClosureCall.
- Step files 0 and 1, and the steps after 4, are not part of this model.

## Findings

The builtins and evaluators run the code as written: `Core.Apply` uses
`Core.CompareAsWritten`, and both `def!` evaluators use
`SpecialForms.DefShapeAsWritten`. Each corrected member is stated next to its
as-written one, with the intended property proved about it. A lemma shows
the two agree wherever the defect is not hit: `Core.CompareAgreesOnOutcome`
for comparisons and `SpecialForms.DefShapesAgree` for `def!`.

| source | as written | input that shows it | evidently intended | confidence | as-written member | corrected member |
|---|---|---|---|---|---|---|
| impls/kmal/src/mal/kmal_core.kt:137-138 | the comparison error names the type of the first or second argument, whatever index failed | `(< 1 2 "a")` reports "expected type Number, got Number" | the type of the argument that is not a number ("String") | not executed | Core.CompareMessageNamesWrongArgument | Core.Compare |
| impls/kmal/src/mal/step4_if_fn_do.kt:73 | `def!` checks for at least two elements, then reads the third (the same at `step3_env.kt:32`) | `(def! x)` passes the check and indexes past the end | an arity error for fewer than three elements | not executed | SpecialForms.DefMissingValue | SpecialForms.DefShape |

=== FILE: coercion.dfy ===
/** The coercers that turn one token into an atom (`type_coercion.kt`). Each
    either declines the token (None) or produces a value; only the string
    coercer can also fail. */
module Coercion {
  import opened Wrappers
  import opened Errors
  import opened Numbers
  import opened Types

  predicate StartsWith(s: string, c: char) {
    |s| > 0 && s[0] == c
  }

  predicate EndsWith(s: string, c: char) {
    |s| > 0 && s[|s| - 1] == c
  }

  /** Only the exact token `nil` is Nil. */
  function CoerceToNil(token: string): (r: Option<Value>)
    ensures r.Some? <==> token == "nil"
    ensures r.Some? ==> r.value == Nil
  {
    if token == "nil" then Some(Nil) else None
  }

  /** `toBooleanStrictOrNull`: only the exact tokens `true` and `false`. */
  function CoerceToBoolean(token: string): (r: Option<Value>)
    ensures r.Some? <==> token == "true" || token == "false"
    ensures r.Some? ==> r.value == Boolean(token == "true")
  {
    if token == "true" then Some(Boolean(true))
    else if token == "false" then Some(Boolean(false))
    else None
  }

  /** `toLongOrNull`: a decimal integer literal that fits in a `Long`. */
  function CoerceToInt(token: string): (r: Option<Value>)
    ensures r.Some? ==> r.value.Number?
    ensures r.Some? ==> |token| > 0 && (token[0] == '-' || token[0] == '+' || IsDigit(token[0]))
  {
    match ParseLong(token)
    case Some(n) => Some(Number(n))
    case None => None
  }

  /** A token starting with ':' is a keyword named by the rest of the token. */
  function CoerceToKeyword(token: string): (r: Option<Value>)
    ensures r.Some? <==> StartsWith(token, ':')
    ensures r.Some? ==> r.value == MakeKeyword(token[1..])
    ensures r.Some? ==> AsString(r.value, true) == token
  {
    if !StartsWith(token, ':') then None
    else
      var v := MakeKeyword(token[1..]);
      assert ":" + token[1..] == token;
      Some(v)
  }

  /** A token starting with '"' must also end with '"' and be longer than
      one character; its contents are the characters between the quotes. */
  function CoerceToString(token: string): (r: Result<Option<Value>, Error>)
    ensures r.Success? && r.value.None? <==> !StartsWith(token, '"')
    ensures r.Failure? <==> StartsWith(token, '"') && (!EndsWith(token, '"') || |token| == 1)
    ensures r.Failure? ==> r.error == UnterminatedString(token)
    ensures r.Success? && r.value.Some? ==> r.value.value == String(token[1..|token| - 1])
    ensures r.Success? && r.value.Some? ==> AsString(r.value.value, true) == token
  {
    if StartsWith(token, '"') then
      if !EndsWith(token, '"') || |token| == 1 then Failure(UnterminatedString(token))
      else
        var v := String(token[1..|token| - 1]);
        assert "\"" + token[1..|token| - 1] + "\"" == token;
        Success(Some(v))
    else Success(None)
  }

  /** Every token is a symbol with the token as its name. */
  function CoerceToSymbol(token: string): (v: Value)
    ensures v.Symbol? && v.name == token
    ensures AsString(v, true) == token && AsString(v, false) == token
  {
    Symbol(token)
  }

  /** Pairs consecutive elements into a map, or declines an odd count. */
  function CoerceToMap(list: seq<Value>): (r: Option<Value>)
    ensures r.None? <==> |list| % 2 != 0
    ensures r.Some? ==> r.value.HashMap? && DistinctKeys(r.value.entries)
    ensures r.Some? ==> forall k :: Lookup(r.value.entries, k) == LastBinding(list, k)
  {
    if |list| % 2 != 0 then None
    else
      forall k ensures Lookup(ToMap(list).value.entries, k) == LastBinding(list, k) {
        ToMapLookup(list, k);
      }
      Some(ToMap(list).value)
  }

  /** Flattens a map into key, value, key, value, … */
  function CoerceToList(m: Value): (r: seq<Value>)
    requires m.HashMap?
    ensures |r| == 2 * |m.entries|
    ensures forall i | 0 <= i < |m.entries| :: r[2 * i] == m.entries[i].key && r[2 * i + 1] == m.entries[i].val
  {
    ToList(m.entries)
  }

  /** A map with distinct keys survives flattening and re-pairing. */
  lemma MapListRoundTrip(m: Value)
    requires m.HashMap? && DistinctKeys(m.entries)
    ensures CoerceToMap(CoerceToList(m)) == Some(m)
  {
    MapRoundTrip(m.entries);
  }
}

=== FILE: core.dfy ===
/** The native functions of kmal's root namespace (`Core`): the argument
    count check, the arithmetic folds, equality, the chained comparisons,
    the logical functions, the list queries and the string builders. Each
    takes the already evaluated arguments of a call. */
module Core {
  import opened Wrappers
  import opened Errors
  import opened Numbers
  import opened Types

  // ---------------------------------------------------------------------------
  // Argument counts

  /** `forceParity`: the argument count must be at least `atLeast` and, unless
      `atMost` is -1, at most `atMost`; a violation reports the count. */
  function ForceParity(n: nat, atLeast: int, atMost: int): (r: Outcome<Error>)
    ensures r.Fail? ==> r.error == Arity(n)
    ensures r.Pass? <==> atLeast <= n && (atMost == -1 || n <= atMost)
  {
    if n < atLeast then Fail(Arity(n))
    else if atMost != -1 && n > atMost then Fail(Arity(n))
    else Pass
  }

  /** The two windows the builtins use: "exactly k" and "at least k". */
  lemma ParityWindows(n: nat, k: nat)
    ensures ForceParity(n, k, k).Pass? <==> n == k
    ensures ForceParity(n, k, -1).Pass? <==> n >= k
  {
  }

  // ---------------------------------------------------------------------------
  // Arithmetic

  /** The four arithmetic builtins. */
  datatype Arith = Plus | Minus | Times | Quotient

  /** The operation's name in the type error. */
  function ArithName(op: Arith): string {
    match op
    case Plus => "addition"
    case Minus => "subtraction"
    case Times => "multiplication"
    case Quotient => "division"
  }

  /** One `Long` operation: + - * wrap around, / truncates toward zero and
      fails on a zero divisor (`Long.MIN_VALUE / -1` wraps to itself). */
  function Combine(op: Arith, a: Long, b: Long): (r: Result<Long, Error>)
    ensures r.Failure? <==> op == Quotient && b == 0
    ensures r.Failure? ==> r.error == DivisionByZero
  {
    match op
    case Plus => Success(Wrap(a + b))
    case Minus => Success(Wrap(a - b))
    case Times => Success(Wrap(a * b))
    case Quotient => if b == 0 then Failure(DivisionByZero) else Success(Wrap(TruncDiv(a, b)))
  }

  /** `arithmeticOperation`: both operands must be Numbers; the type error
      names the operation and both operands' types. */
  function ArithStep(op: Arith, x: Value, y: Value): (r: Result<Value, Error>)
    ensures r.Success? ==> x.Number? && y.Number? && r.value.Number?
    ensures !(x.Number? && y.Number?) ==> r == Failure(ArithmeticTypes(ArithName(op), AsTypeString(x), AsTypeString(y)))
  {
    if x.Number? && y.Number? then
      var n :- Combine(op, x.n, y.n);
      Success(Number(n))
    else Failure(ArithmeticTypes(ArithName(op), AsTypeString(x), AsTypeString(y)))
  }

  /** `reduce`: the accumulator combined with each further argument, left to
      right, stopping at the first error. */
  function Fold(op: Arith, acc: Value, rest: seq<Value>): (r: Result<Value, Error>)
    ensures r.Failure? ==> r.error.ArithmeticTypes? || r.error == DivisionByZero
    ensures r.Success? && |rest| > 0 ==> r.value.Number?
    decreases |rest|
  {
    if |rest| == 0 then Success(acc)
    else
      var a :- ArithStep(op, acc, rest[0]);
      Fold(op, a, rest[1..])
  }

  /** `arithmeticAggregate`: at least two arguments, folded from the left. */
  function Arithmetic(op: Arith, args: seq<Value>): (r: Result<Value, Error>)
    ensures |args| < 2 ==> r == Failure(Arity(|args|))
    ensures |args| >= 2 && r.Failure? ==> r.error.ArithmeticTypes? || r.error == DivisionByZero
    ensures r.Success? ==> r.value.Number?
  {
    var given := |args|;
    :- ForceParity(given, 2, -1);
    Fold(op, args[0], args[1..])
  }

  predicate AllNumbers(xs: seq<Value>) {
    forall i | 0 <= i < |xs| :: xs[i].Number?
  }

  /** The exact sum of a run of Numbers. */
  function Sum(xs: seq<Value>): int
    requires AllNumbers(xs)
    decreases |xs|
  {
    if |xs| == 0 then 0 else xs[0].n + Sum(xs[1..])
  }

  /** The exact product of a run of Numbers. */
  function Product(xs: seq<Value>): int
    requires AllNumbers(xs)
    decreases |xs|
  {
    if |xs| == 0 then 1 else xs[0].n * Product(xs[1..])
  }

  /** The fold is a left fold: folding one more argument is one more step
      on the result so far. */
  lemma {:induction false} FoldSnoc(op: Arith, acc: Value, xs: seq<Value>, y: Value)
    ensures Fold(op, acc, xs + [y]) == (var r :- Fold(op, acc, xs); ArithStep(op, r, y))
    decreases |xs|
  {
    if |xs| == 0 {
      assert [] + [y] == [y];
      assert [y][1..] == [];
    } else {
      assert (xs + [y])[0] == xs[0];
      assert (xs + [y])[1..] == xs[1..] + [y];
      match ArithStep(op, acc, xs[0])
      case Success(a) => FoldSnoc(op, a, xs[1..], y);
      case Failure(_) =>
    }
  }

  lemma {:induction false} FoldSum(acc: Long, rest: seq<Value>)
    requires AllNumbers(rest)
    ensures Fold(Plus, Number(acc), rest) == Success(Number(Wrap(acc + Sum(rest))))
    decreases |rest|
  {
    if |rest| > 0 {
      var tail := rest[1..];
      var a := Wrap(acc + rest[0].n);
      assert AllNumbers(tail);
      assert Fold(Plus, Number(acc), rest) == Fold(Plus, Number(a), tail);
      assert Sum(rest) == rest[0].n + Sum(tail);
      FoldSum(a, tail);
      WrapAdd(acc + rest[0].n, Sum(tail));
    }
  }

  lemma {:induction false} FoldDifference(acc: Long, rest: seq<Value>)
    requires AllNumbers(rest)
    ensures Fold(Minus, Number(acc), rest) == Success(Number(Wrap(acc - Sum(rest))))
    decreases |rest|
  {
    if |rest| > 0 {
      var tail := rest[1..];
      var a := Wrap(acc - rest[0].n);
      assert AllNumbers(tail);
      assert Fold(Minus, Number(acc), rest) == Fold(Minus, Number(a), tail);
      assert Sum(rest) == rest[0].n + Sum(tail);
      FoldDifference(a, tail);
      WrapAdd(acc - rest[0].n, -Sum(tail));
    }
  }

  lemma {:induction false} FoldProduct(acc: Long, rest: seq<Value>)
    requires AllNumbers(rest)
    ensures Fold(Times, Number(acc), rest) == Success(Number(Wrap(acc * Product(rest))))
    decreases |rest|
  {
    if |rest| > 0 {
      var tail := rest[1..];
      var r0 := rest[0].n;
      var p := Product(tail);
      var a := Wrap(acc * r0);
      assert AllNumbers(tail);
      assert Fold(Times, Number(acc), rest) == Fold(Times, Number(a), tail);
      assert Product(rest) == r0 * p;
      FoldProduct(a, tail);
      WrapMul(acc * r0, p);
      MulAssociates(acc, r0, p);
    }
  }

  lemma MulAssociates(a: int, b: int, c: int)
    ensures (a * b) * c == a * (b * c)
  {
  }

  /** `+` over Numbers is the exact sum, wrapped into a `Long` once. */
  lemma ArithmeticSum(args: seq<Value>)
    requires |args| >= 2 && AllNumbers(args)
    ensures Arithmetic(Plus, args) == Success(Number(Wrap(Sum(args))))
  {
    assert AllNumbers(args[1..]);
    FoldSum(args[0].n, args[1..]);
  }

  /** `-` over Numbers subtracts every later argument from the first, so
      `(- 10 1 2)` is 7. */
  lemma ArithmeticDifference(args: seq<Value>)
    requires |args| >= 2 && AllNumbers(args)
    ensures Arithmetic(Minus, args) == Success(Number(Wrap(args[0].n - Sum(args[1..]))))
  {
    assert AllNumbers(args[1..]);
    FoldDifference(args[0].n, args[1..]);
  }

  lemma ArithmeticProduct(args: seq<Value>)
    requires |args| >= 2 && AllNumbers(args)
    ensures Arithmetic(Times, args) == Success(Number(Wrap(Product(args))))
  {
    assert AllNumbers(args[1..]);
    FoldProduct(args[0].n, args[1..]);
  }

  lemma SubtractExample()
    ensures Arithmetic(Minus, [Number(10), Number(1), Number(2)]) == Success(Number(7))
  {
    var args := [Number(10), Number(1), Number(2)];
    ArithmeticDifference(args);
    assert args[1..][1..] == [Number(2)];
    assert Sum(args[1..]) == 3;
  }

  /** Over Numbers, `/` fails exactly when some later argument is zero. */
  lemma {:induction false} FoldQuotient(acc: Long, rest: seq<Value>)
    requires AllNumbers(rest)
    ensures Fold(Quotient, Number(acc), rest).Failure? <==> exists i | 0 <= i < |rest| :: rest[i].n == 0
    ensures Fold(Quotient, Number(acc), rest).Failure? ==> Fold(Quotient, Number(acc), rest).error == DivisionByZero
    ensures Fold(Quotient, Number(acc), rest).Success? ==> Fold(Quotient, Number(acc), rest).value.Number?
    decreases |rest|
  {
    if |rest| > 0 && rest[0].n != 0 {
      assert AllNumbers(rest[1..]);
      FoldQuotient(Wrap(TruncDiv(acc, rest[0].n)), rest[1..]);
      if exists i | 0 <= i < |rest| :: rest[i].n == 0 {
        var i :| 0 <= i < |rest| && rest[i].n == 0;
        assert rest[1..][i - 1].n == 0;
      }
      if exists i | 0 <= i < |rest[1..]| :: rest[1..][i].n == 0 {
        var i :| 0 <= i < |rest[1..]| && rest[1..][i].n == 0;
        assert rest[i + 1].n == 0;
      }
    }
  }

  lemma ArithmeticQuotient(args: seq<Value>)
    requires |args| >= 2 && AllNumbers(args)
    ensures Arithmetic(Quotient, args).Failure? <==> exists i | 1 <= i < |args| :: args[i].n == 0
    ensures Arithmetic(Quotient, args).Failure? ==> Arithmetic(Quotient, args).error == DivisionByZero
  {
    assert AllNumbers(args[1..]);
    FoldQuotient(args[0].n, args[1..]);
    if exists i | 1 <= i < |args| :: args[i].n == 0 {
      var i :| 1 <= i < |args| && args[i].n == 0;
      assert args[1..][i - 1].n == 0;
    }
  }

  /** The type error of a fold: the first step whose operands are not both
      Numbers reports the accumulator's type (a Number after the first step)
      and the offending argument's type. */
  lemma {:induction false} FoldTypeError(op: Arith, acc: Value, rest: seq<Value>, k: nat)
    requires k < |rest| && !rest[k].Number? && AllNumbers(rest[..k])
    requires op != Quotient || forall i | 0 <= i < k :: rest[i].n != 0
    requires acc.Number?
    ensures Fold(op, acc, rest) == Failure(ArithmeticTypes(ArithName(op), "Number", AsTypeString(rest[k])))
    decreases k
  {
    if k > 0 {
      assert rest[..k][0] == rest[0];
      var a := ArithStep(op, acc, rest[0]);
      assert a.Success?;
      assert rest[1..][..k - 1] == rest[..k][1..];
      assert AllNumbers(rest[1..][..k - 1]);
      FoldTypeError(op, a.value, rest[1..], k - 1);
    }
  }

  /** The arithmetic builtins over arguments that are not all Numbers: with
      no zero divisor before it, the first non-Number makes the call fail
      with a type error naming both operands of that step. */
  lemma ArithmeticTypeError(op: Arith, args: seq<Value>, k: nat)
    requires |args| >= 2 && k < |args| && !args[k].Number? && AllNumbers(args[..k])
    requires op != Quotient || forall i | 1 <= i < k :: args[i].n != 0
    ensures k <= 1 ==> Arithmetic(op, args) == Failure(ArithmeticTypes(ArithName(op), AsTypeString(args[0]), AsTypeString(args[1])))
    ensures k > 1 ==> Arithmetic(op, args) == Failure(ArithmeticTypes(ArithName(op), "Number", AsTypeString(args[k])))
  {
    if k == 0 {
      assert ArithStep(op, args[0], args[1]).Failure?;
    } else {
      assert args[1..][..k - 1] == args[1..k];
      assert AllNumbers(args[1..][..k - 1]);
      FoldTypeError(op, args[0], args[1..], k - 1);
      assert args[0] == args[..k][0];
    }
  }

  // ---------------------------------------------------------------------------
  // Equality and comparison

  /** `=`: at least two arguments; true when every argument equals the first. */
  function Equals(args: seq<Value>): (r: Result<Value, Error>)
    ensures |args| < 2 <==> r.Failure?
    ensures r.Success? ==> r.value.Boolean?
  {
    var given := |args|;
    :- ForceParity(given, 2, -1);
    Success(Boolean(forall i | 1 <= i < |args| :: Equal(args[i], args[0])))
  }

  /** Since equality is an equivalence, "all equal the first" is "all
      pairwise equal". */
  lemma EqualsPairwise(args: seq<Value>)
    requires |args| >= 2
    ensures Equals(args) == Success(Boolean(forall i, j | 0 <= i < |args| && 0 <= j < |args| :: Equal(args[i], args[j])))
  {
    if forall i | 1 <= i < |args| :: Equal(args[i], args[0]) {
      forall i, j | 0 <= i < |args| && 0 <= j < |args| ensures Equal(args[i], args[j]) {
        EqualReflexive(args[0]);
        assert Equal(args[i], args[0]);
        assert Equal(args[j], args[0]);
        EqualSymmetric(args[j], args[0]);
        EqualTransitive(args[i], args[0], args[j]);
      }
    }
  }

  /** The four comparators. */
  datatype Order = Gt | Ge | Lt | Le

  function Holds(o: Order, a: int, b: int): bool {
    match o
    case Gt => a > b
    case Ge => a >= b
    case Lt => a < b
    case Le => a <= b
  }

  /** The loop of `compareSequence` from pair `i` on, as kmal_core.kt writes
      it: a non-Number is reported with the type of the first or second
      argument of the whole call, whichever position it was read in. */
  function CompareFromAsWritten(o: Order, args: seq<Value>, i: nat): (r: Result<Value, Error>)
    requires |args| >= 2
    ensures r.Success? ==> r.value.Boolean?
    ensures r.Failure? ==> r.error.ExpectedNumber?
    ensures r.Failure? ==> exists k :: i <= k < |args| && !args[k].Number?
    decreases |args| - i
  {
    if i >= |args| - 1 then Success(Boolean(true))
    else if !args[i].Number? then Failure(ExpectedNumber(AsTypeString(args[0])))
    else if !args[i + 1].Number? then Failure(ExpectedNumber(AsTypeString(args[1])))
    else if !Holds(o, args[i].n, args[i + 1].n) then Success(Boolean(false))
    else CompareFromAsWritten(o, args, i + 1)
  }

  function CompareAsWritten(o: Order, args: seq<Value>): (r: Result<Value, Error>)
    ensures |args| < 2 ==> r == Failure(Arity(|args|))
    ensures |args| >= 2 && (forall k :: 0 <= k < |args| ==> args[k].Number?) ==> r.Success? && r.value.Boolean?
    ensures |args| >= 2 && r.Failure? ==> r.error.ExpectedNumber?
  {
    var given := |args|;
    :- ForceParity(given, 2, -1);
    CompareFromAsWritten(o, args, 0)
  }

  /** The same loop reporting the type of the argument that is not a Number. */
  function CompareFrom(o: Order, args: seq<Value>, i: nat): (r: Result<Value, Error>)
    requires |args| >= 2
    ensures r.Failure? ==> r.error.ExpectedNumber?
    ensures r.Success? ==> r.value.Boolean?
    decreases |args| - i
  {
    if i >= |args| - 1 then Success(Boolean(true))
    else if !args[i].Number? then Failure(ExpectedNumber(AsTypeString(args[i])))
    else if !args[i + 1].Number? then Failure(ExpectedNumber(AsTypeString(args[i + 1])))
    else if !Holds(o, args[i].n, args[i + 1].n) then Success(Boolean(false))
    else CompareFrom(o, args, i + 1)
  }

  /** `compareSequence` with the error naming the offending argument. */
  function Compare(o: Order, args: seq<Value>): (r: Result<Value, Error>)
    ensures |args| < 2 ==> r == Failure(Arity(|args|))
    ensures |args| >= 2 && r.Failure? ==> r.error.ExpectedNumber?
    ensures r.Success? ==> r.value.Boolean?
  {
    var given := |args|;
    :- ForceParity(given, 2, -1);
    CompareFrom(o, args, 0)
  }

  /** The pairs from `i` on all satisfy the order. */
  predicate ChainHolds(o: Order, args: seq<Value>, i: nat, j: nat)
    requires j <= |args| && AllNumbers(args[..j])
  {
    forall l | i <= l && l + 1 < j :: Holds(o, args[l].n, args[l + 1].n)
  }

  lemma {:induction false} CompareFromNumbers(o: Order, args: seq<Value>, i: nat)
    requires |args| >= 2 && AllNumbers(args) && i <= |args|
    ensures CompareFrom(o, args, i) == Success(Boolean(forall l | i <= l < |args| - 1 :: Holds(o, args[l].n, args[l + 1].n)))
    decreases |args| - i
  {
    if i < |args| - 1 && Holds(o, args[i].n, args[i + 1].n) {
      CompareFromNumbers(o, args, i + 1);
    }
  }

  /** Over Numbers, a comparator is true exactly when every adjacent pair is
      in order: `(< 1 2 3)` is true, `(< 1 3 2)` is false. */
  lemma CompareChained(o: Order, args: seq<Value>)
    requires |args| >= 2 && AllNumbers(args)
    ensures Compare(o, args) == Success(Boolean(forall l | 0 <= l < |args| - 1 :: Holds(o, args[l].n, args[l + 1].n)))
  {
    CompareFromNumbers(o, args, 0);
  }

  lemma {:induction false} CompareFromTypeError(o: Order, args: seq<Value>, i: nat, k: nat)
    requires |args| >= 2 && i <= k < |args| && !args[k].Number? && AllNumbers(args[..k])
    requires forall l | i <= l && l + 1 < k :: Holds(o, args[..k][l].n, args[..k][l + 1].n)
    requires i < k || i == 0
    ensures CompareFrom(o, args, i) == Failure(ExpectedNumber(AsTypeString(args[k])))
    decreases k - i
  {
    if i < k {
      assert args[i] == args[..k][i];
      if i + 1 < k {
        assert args[i + 1] == args[..k][i + 1];
        CompareFromTypeError(o, args, i + 1, k);
      }
    }
  }

  /** A comparator over arguments with a non-Number fails, reporting that
      argument's type, provided the pairs before it were all in order (an
      out-of-order pair earlier ends the loop with false first). */
  lemma CompareTypeError(o: Order, args: seq<Value>, k: nat)
    requires |args| >= 2 && k < |args| && !args[k].Number? && AllNumbers(args[..k])
    requires forall l | 0 <= l && l + 1 < k :: Holds(o, args[..k][l].n, args[..k][l + 1].n)
    ensures Compare(o, args) == Failure(ExpectedNumber(AsTypeString(args[k])))
  {
    CompareFromTypeError(o, args, 0, k);
  }

  /** `(< 1 2 "a")`: the loop reads "a" as the second operand of pair 1, and
      the message reports the type of argument 1, a Number. */
  lemma CompareMessageNamesWrongArgument()
    ensures CompareAsWritten(Lt, [Number(1), Number(2), String("a")]) == Failure(ExpectedNumber("Number"))
    ensures Compare(Lt, [Number(1), Number(2), String("a")]) == Failure(ExpectedNumber("String"))
  {
  }

  /** The two loops agree except on the message of a type error. */
  lemma {:induction false} CompareAgreesOnOutcome(o: Order, args: seq<Value>, i: nat)
    requires |args| >= 2
    ensures CompareFromAsWritten(o, args, i).Success? <==> CompareFrom(o, args, i).Success?
    ensures CompareFromAsWritten(o, args, i).Success? ==> CompareFromAsWritten(o, args, i) == CompareFrom(o, args, i)
    decreases |args| - i
  {
    if i < |args| - 1 && args[i].Number? && args[i + 1].Number? && Holds(o, args[i].n, args[i + 1].n) {
      CompareAgreesOnOutcome(o, args, i + 1);
    }
  }

  // ---------------------------------------------------------------------------
  // Logic

  /** `not`: exactly one argument; its truthiness negated. */
  function Not(args: seq<Value>): (r: Result<Value, Error>)
    ensures r.Failure? <==> |args| != 1
    ensures r.Success? ==> r.value == Boolean(!IsTruthy(args[0]))
  {
    var given := |args|;
    :- ForceParity(given, 1, 1);
    Success(Boolean(!IsTruthy(args[0])))
  }

  /** `and`: true for no arguments; otherwise the first argument that is not
      truthy, or the last argument. */
  function And(args: seq<Value>): (r: Value)
    decreases |args|
  {
    if |args| == 0 then Boolean(true)
    else if !IsTruthy(args[0]) || |args| == 1 then args[0]
    else And(args[1..])
  }

  /** `or`: Nil for no arguments; otherwise the first truthy argument, or the
      last argument. */
  function Or(args: seq<Value>): (r: Value)
    decreases |args|
  {
    if |args| == 0 then Nil
    else if IsTruthy(args[0]) || |args| == 1 then args[0]
    else Or(args[1..])
  }

  /** `and` picks argument `k`: every argument before it is truthy, and `k`
      is the first falsy argument or the last one. So the result is truthy
      exactly when all arguments are. */
  lemma {:induction false} AndPicks(args: seq<Value>)
    requires |args| > 0
    ensures exists k | 0 <= k < |args| ::
              && And(args) == args[k]
              && (forall i | 0 <= i < k :: IsTruthy(args[i]))
              && (!IsTruthy(args[k]) || k == |args| - 1)
    ensures IsTruthy(And(args)) <==> forall i | 0 <= i < |args| :: IsTruthy(args[i])
    decreases |args|
  {
    if IsTruthy(args[0]) && |args| > 1 {
      AndPicks(args[1..]);
      var k :| 0 <= k < |args| - 1 && And(args[1..]) == args[1..][k]
        && (forall i | 0 <= i < k :: IsTruthy(args[1..][i]))
        && (!IsTruthy(args[1..][k]) || k == |args| - 2);
      assert And(args) == args[k + 1];
      forall i | 0 <= i < k + 1 ensures IsTruthy(args[i]) {
        if i > 0 { assert args[i] == args[1..][i - 1]; }
      }
      if forall i | 0 <= i < |args[1..]| :: IsTruthy(args[1..][i]) {
        forall i | 0 <= i < |args| ensures IsTruthy(args[i]) {
          if i > 0 { assert args[i] == args[1..][i - 1]; }
        }
      }
    } else {
      assert And(args) == args[0];
    }
  }

  /** `or` picks argument `k`: every argument before it is falsy, and `k` is
      the first truthy argument or the last one. So the result is falsy
      exactly when all arguments are. */
  lemma {:induction false} OrPicks(args: seq<Value>)
    requires |args| > 0
    ensures exists k | 0 <= k < |args| ::
              && Or(args) == args[k]
              && (forall i | 0 <= i < k :: !IsTruthy(args[i]))
              && (IsTruthy(args[k]) || k == |args| - 1)
    ensures !IsTruthy(Or(args)) <==> forall i | 0 <= i < |args| :: !IsTruthy(args[i])
    decreases |args|
  {
    if !IsTruthy(args[0]) && |args| > 1 {
      OrPicks(args[1..]);
      var k :| 0 <= k < |args| - 1 && Or(args[1..]) == args[1..][k]
        && (forall i | 0 <= i < k :: !IsTruthy(args[1..][i]))
        && (IsTruthy(args[1..][k]) || k == |args| - 2);
      assert Or(args) == args[k + 1];
      forall i | 0 <= i < k + 1 ensures !IsTruthy(args[i]) {
        if i > 0 { assert args[i] == args[1..][i - 1]; }
      }
      if forall i | 0 <= i < |args[1..]| :: !IsTruthy(args[1..][i]) {
        forall i | 0 <= i < |args| ensures !IsTruthy(args[i]) {
          if i > 0 { assert args[i] == args[1..][i - 1]; }
        }
      }
    } else {
      assert Or(args) == args[0];
    }
  }

  // ---------------------------------------------------------------------------
  // Lists

  /** `list?`: exactly one argument; true for a List (a Vector is not one). */
  function IsListOf(args: seq<Value>): (r: Result<Value, Error>)
    ensures r.Failure? <==> |args| != 1
    ensures r.Success? ==> r.value == Boolean(args[0].List?)
  {
    var given := |args|;
    :- ForceParity(given, 1, 1);
    Success(Boolean(args[0].List?))
  }

  /** `empty?`: exactly one argument; true for a List or Vector without
      elements. A map is not a sequence here, so it is never empty. */
  function IsEmptyOf(args: seq<Value>): (r: Result<Value, Error>)
    ensures r.Failure? <==> |args| != 1
  {
    var given := |args|;
    :- ForceParity(given, 1, 1);
    var arg := args[0];
    Success(Boolean(IsSequence(arg) && |arg.elems| == 0))
  }

  /** `count`: exactly one argument; the size of a List or Vector, 0 for
      anything else (`Int` sizes always fit a `Long`). */
  function CountOf(args: seq<Value>): (r: Result<Value, Error>)
    ensures r.Failure? <==> |args| != 1
  {
    var given := |args|;
    :- ForceParity(given, 1, 1);
    var arg := args[0];
    Success(Number(if IsSequence(arg) then Wrap(|arg.elems|) else 0))
  }

  /** `empty?` and `count` agree: a value is empty exactly when it is a
      sequence whose count is 0, and a map or atom counts as 0 yet is not
      empty. */
  lemma EmptyIsCountZero(v: Value)
    requires IsSequence(v) ==> |v.elems| <= MAX_LONG
    ensures IsEmptyOf([v]) == Success(Boolean(IsSequence(v) && CountOf([v]) == Success(Number(0))))
    ensures !IsSequence(v) ==> CountOf([v]) == Success(Number(0)) && IsEmptyOf([v]) == Success(Boolean(false))
    ensures IsSequence(v) ==> CountOf([v]) == Success(Number(|v.elems|))
  {
  }

  // ---------------------------------------------------------------------------
  // Strings

  /** `String.replace` of every occurrence of one character. */
  function Replace(s: string, c: char, t: string): (r: string)
    decreases |s|
  {
    if |s| == 0 then ""
    else (if s[0] == c then t else [s[0]]) + Replace(s[1..], c, t)
  }

  /** The escape of one character: backslash, double quote and newline get a
      backslash in front (the newline as `\n`). */
  function EscapeChar(c: char): string {
    if c == '\\' then "\\\\"
    else if c == '"' then "\\\""
    else if c == '\n' then "\\n"
    else [c]
  }

  /** Every character escaped, in one pass. */
  function Escape(s: string): (r: string)
    ensures |r| >= |s|
    decreases |s|
  {
    if |s| == 0 then "" else EscapeChar(s[0]) + Escape(s[1..])
  }

  /** `kmalPrStrSingle`: the readable form, then the three replacements in
      the order written. */
  function PrStrSingle(v: Value): (r: string)
    ensures r == Escape(AsString(v, true))
  {
    var s := AsString(v, true);
    EscapeByReplacing(s);
    Replace(Replace(Replace(s, '\\', "\\\\"), '"', "\\\""), '\n', "\\n")
  }

  lemma {:induction false} ReplaceAppend(a: string, b: string, c: char, t: string)
    ensures Replace(a + b, c, t) == Replace(a, c, t) + Replace(b, c, t)
    decreases |a|
  {
    if |a| > 0 {
      assert (a + b)[0] == a[0];
      assert (a + b)[1..] == a[1..] + b;
      ReplaceAppend(a[1..], b, c, t);
    } else {
      assert a + b == b;
    }
  }

  /** Replacing a character that does not occur in a string changes nothing. */
  lemma {:induction false} ReplaceAbsent(s: string, c: char, t: string)
    requires forall i | 0 <= i < |s| :: s[i] != c
    ensures Replace(s, c, t) == s
    decreases |s|
  {
    if |s| > 0 {
      ReplaceAbsent(s[1..], c, t);
    }
  }

  /** The three chained replacements escape in a single pass: the backslashes
      the first one inserts are not touched by the later ones, and the later
      ones insert nothing the ones after them replace. */
  lemma {:induction false} EscapeByReplacing(s: string)
    ensures Replace(Replace(Replace(s, '\\', "\\\\"), '"', "\\\""), '\n', "\\n") == Escape(s)
    decreases |s|
  {
    if |s| > 0 {
      var c := s[0];
      var t := s[1..];
      assert s == [c] + t;
      ReplaceAppend([c], t, '\\', "\\\\");
      var a1 := Replace([c], '\\', "\\\\");
      var r1 := Replace(t, '\\', "\\\\");
      ReplaceAppend(a1, r1, '"', "\\\"");
      var a2 := Replace(a1, '"', "\\\"");
      var r2 := Replace(r1, '"', "\\\"");
      ReplaceAppend(a2, r2, '\n', "\\n");
      EscapeByReplacing(t);
      if c == '\\' {
        assert a1 == "\\\\";
        ReplaceAbsent(a1, '"', "\\\"");
        ReplaceAbsent(a2, '\n', "\\n");
      } else if c == '"' {
        assert a1 == [c];
        assert a2 == "\\\"";
        ReplaceAbsent(a2, '\n', "\\n");
      } else if c == '\n' {
        assert a1 == [c];
        assert a2 == [c];
      } else {
        assert a1 == [c];
        assert a2 == [c];
      }
    }
  }

  /** Reading an escaped string back: a backslash takes the next character
      literally, except that `\n` stands for a newline. */
  function Unescape(s: string): (r: string)
    decreases |s|
  {
    if |s| == 0 then ""
    else if s[0] == '\\' && |s| >= 2 then [if s[1] == 'n' then '\n' else s[1]] + Unescape(s[2..])
    else [s[0]] + Unescape(s[1..])
  }

  /** Escaping loses nothing: unescaping the escaped text gives it back. */
  lemma {:induction false} UnescapeEscape(s: string)
    ensures Unescape(Escape(s)) == s
    decreases |s|
  {
    if |s| > 0 {
      var e := EscapeChar(s[0]);
      var rest := Escape(s[1..]);
      assert Escape(s) == e + rest;
      UnescapeEscape(s[1..]);
      if |e| == 2 {
        assert (e + rest)[2..] == rest;
      } else {
        assert (e + rest)[1..] == rest;
      }
    }
  }

  /** `str`: the non-readable forms of the arguments, concatenated. */
  function Str(args: seq<Value>): (r: Value)
    ensures r.String?
  {
    String(Join("", seq(|args|, i requires 0 <= i < |args| => AsString(args[i], false))))
  }

  /** `pr-str`: the escaped readable forms of the arguments, separated by
      single spaces; the empty string for no arguments. */
  function PrStr(args: seq<Value>): (r: Value)
    ensures r.String?
  {
    if |args| == 0 then String("")
    else String(Join(" ", seq(|args|, i requires 0 <= i < |args| => PrStrSingle(args[i]))))
  }

  /** `str` of one String is its raw contents; `pr-str` of one String quotes
      it and escapes it, so unescaping the inside of the quotes restores the
      original text. */
  lemma StringBuilders(s: string)
    ensures Str([String(s)]) == String(s)
    ensures PrStr([String(s)]).s == Escape("\"" + s + "\"")
    ensures Unescape(PrStr([String(s)]).s) == "\"" + s + "\""
  {
    var parts := seq(1, i requires 0 <= i < 1 => AsString([String(s)][i], false));
    assert parts == [s];
    var pr := seq(1, i requires 0 <= i < 1 => PrStrSingle([String(s)][i]));
    assert pr == [PrStrSingle(String(s))];
    UnescapeEscape("\"" + s + "\"");
  }

  /** `String.replace(old, new)` for a non-empty pattern: occurrences are
      replaced left to right without overlapping. */
  function ReplaceText(s: string, pat: string, t: string): (r: string)
    requires |pat| > 0
    decreases |s|
  {
    if |s| < |pat| then s
    else if s[..|pat|] == pat then t + ReplaceText(s[|pat|..], pat, t)
    else [s[0]] + ReplaceText(s[1..], pat, t)
  }

  /** A pattern whose first character does not occur is never replaced. */
  lemma {:induction false} ReplaceTextAbsent(s: string, pat: string, t: string)
    requires |pat| > 0 && forall i | 0 <= i < |s| :: s[i] != pat[0]
    ensures ReplaceText(s, pat, t) == s
    decreases |s|
  {
    if |s| >= |pat| {
      assert s[..|pat|][0] == s[0];
      ReplaceTextAbsent(s[1..], pat, t);
    }
  }

  /** The clean-up `println` applies to its text: `\"`, `\n` and `\\`
      become the characters they escape, in that order. */
  function Unescaped(s: string): (r: string) {
    ReplaceText(ReplaceText(ReplaceText(s, "\\\"", "\""), "\\n", "\n"), "\\\\", "\\")
  }

  /** The line `println` or `prn` writes to the console, without its line
      break; the other builtins write nothing. */
  function ConsoleLine(op: Builtin, args: seq<Value>): (r: Option<string>)
    ensures r.Some? <==> op == Builtin.Println || op == Builtin.Prn
    ensures |args| == 0 && r.Some? ==> r.value == ""
  {
    if op == Builtin.Println then
      if |args| == 0 then Some("")
      else Some(Unescaped(Join(" ", seq(|args|, i requires 0 <= i < |args| => AsString(args[i], false)))))
    else if op == Builtin.Prn then
      Some(Join(" ", seq(|args|, i requires 0 <= i < |args| => AsString(args[i], true))))
    else None
  }

  /** Text without backslashes is printed by `println` as it is, while
      `prn` of a String shows it in quotes. */
  lemma ConsoleLines(s: string)
    requires forall i | 0 <= i < |s| :: s[i] != '\\'
    ensures ConsoleLine(Builtin.Println, [String(s)]) == Some(s)
    ensures ConsoleLine(Builtin.Prn, [String(s)]) == Some("\"" + s + "\"")
  {
    var raw := seq(1, i requires 0 <= i < 1 => AsString([String(s)][i], false));
    assert raw == [s];
    var shown := seq(1, i requires 0 <= i < 1 => AsString([String(s)][i], true));
    assert shown == ["\"" + s + "\""];
    ReplaceTextAbsent(s, "\\\"", "\"");
    ReplaceTextAbsent(s, "\\n", "\n");
    ReplaceTextAbsent(s, "\\\\", "\\");
  }

  /** `println` turns a backslash followed by `n` in its text into a real
      newline. */
  lemma PrintlnUnescapes()
    ensures ConsoleLine(Builtin.Println, [String("\\n")]) == Some("\n")
  {
    var raw := seq(1, i requires 0 <= i < 1 => AsString([String("\\n")][i], false));
    assert raw == ["\\n"];
    assert "\\n"[..2][1] != "\\\""[1];
    assert ReplaceText("\\n"[1..], "\\\"", "\"") == "n";
    assert ReplaceText("\\n", "\\\"", "\"") == "\\n";
    assert ReplaceText("\\n", "\\n", "\n") == "\n";
    assert ReplaceText("\n", "\\\\", "\\") == "\n";
  }

  /** Calling a builtin with evaluated arguments (`KMalFunction.apply` on a
      member of `Core.ns`). `println` and `prn` return nil; the line they
      print is `ConsoleLine`. */
  function Apply(op: Builtin, args: seq<Value>): (r: Result<Value, Error>)
    ensures op in {Builtin.Println, Builtin.Prn, Builtin.PrStr, Builtin.Str, Builtin.MakeList, Builtin.And, Builtin.Or} ==> r.Success?
    ensures r.Failure? ==> r.error.Arity? || r.error.ArithmeticTypes? || r.error == DivisionByZero || r.error.ExpectedNumber?
    ensures r.Failure? && r.error.Arity? ==> r.error.given == |args|
  {
    match op
    case Add => Arithmetic(Plus, args)
    case Subtract => Arithmetic(Minus, args)
    case Multiply => Arithmetic(Times, args)
    case Divide => Arithmetic(Quotient, args)
    case Println => Success(Nil)
    case Prn => Success(Nil)
    case PrStr => Success(PrStr(args))
    case Str => Success(Str(args))
    case MakeList => Success(List(args))
    case IsList => IsListOf(args)
    case IsEmpty => IsEmptyOf(args)
    case Count => CountOf(args)
    case Equals => Equals(args)
    case Greater => CompareAsWritten(Gt, args)
    case GreaterEqual => CompareAsWritten(Ge, args)
    case Less => CompareAsWritten(Lt, args)
    case LessEqual => CompareAsWritten(Le, args)
    case Not => Not(args)
    case And => Success(And(args))
    case Or => Success(Or(args))
  }

  // ---------------------------------------------------------------------------
  // The namespace

  /** The name each builtin is bound to in `Core.ns`. */
  function BuiltinName(op: Builtin): string {
    match op
    case Add => "+"
    case Subtract => "-"
    case Multiply => "*"
    case Divide => "/"
    case Println => "println"
    case Prn => "prn"
    case PrStr => "pr-str"
    case Str => "str"
    case MakeList => "list"
    case IsList => "list?"
    case IsEmpty => "empty?"
    case Count => "count"
    case Equals => "="
    case Greater => ">"
    case GreaterEqual => ">="
    case Less => "<"
    case LessEqual => "<="
    case Not => "not"
    case And => "and"
    case Or => "or"
  }

  /** The builtins, in the order `Core.ns` lists them. */
  const ALL_BUILTINS: seq<Builtin> := [
    Builtin.Add, Builtin.Subtract, Builtin.Multiply, Builtin.Divide,
    Builtin.Println, Builtin.Prn, Builtin.PrStr, Builtin.Str,
    Builtin.MakeList, Builtin.IsList, Builtin.IsEmpty, Builtin.Count,
    Builtin.Equals, Builtin.Greater, Builtin.GreaterEqual, Builtin.Less, Builtin.LessEqual,
    Builtin.Not, Builtin.And, Builtin.Or]

  lemma Listed(op: Builtin)
    ensures op in ALL_BUILTINS
  {
  }

  /** No two builtins share a name. */
  lemma NameIdentifies(a: Builtin, b: Builtin)
    requires BuiltinName(a) == BuiltinName(b)
    ensures a == b
  {
  }

  lemma AllListed()
    ensures forall op: Builtin :: op in ALL_BUILTINS
  {
    forall op: Builtin ensures op in ALL_BUILTINS { Listed(op); }
  }

  lemma NamesDistinct()
    ensures forall a: Builtin, b: Builtin :: BuiltinName(a) == BuiltinName(b) ==> a == b
  {
    forall a: Builtin, b: Builtin | BuiltinName(a) == BuiltinName(b) ensures a == b { NameIdentifies(a, b); }
  }

  /** `Core.ns`: every builtin bound under its own name, and nothing else. */
  function Namespace(): (ns: map<string, Value>)
    ensures forall op: Builtin :: BuiltinName(op) in ns && ns[BuiltinName(op)] == Func(Native(op))
    ensures forall name | name in ns :: ns[name].Func? && ns[name].fn.Native? && BuiltinName(ns[name].fn.op) == name
  {
    NamesDistinct();
    AllListed();
    map op | op in ALL_BUILTINS :: BuiltinName(op) := Func(Native(op))
  }
}

=== FILE: env.dfy ===
/** The environment of the later evaluator stages (`KMalEnvironment` as the
    evaluators use it): frames of symbol bindings, each with an optional
    parent. Frames live in an arena and are named by their index, so a
    closure can keep the frame it was created in, and `def!` can update a
    frame that a closure also sees. */
module Env {
  import opened Wrappers
  import opened Errors
  import opened Types

  /** One frame: its own bindings and the frame it was created under. */
  datatype Frame = Frame(vars: map<string, Value>, parent: Option<nat>)

  datatype Envs = Envs(frames: seq<Frame>)

  /** A parent is always created before its children. Every arena built with
      `Root` and `NewChild` has this shape. */
  predicate WellFormed(e: Envs) {
    forall i | 0 <= i < |e.frames| :: e.frames[i].parent.Some? ==> e.frames[i].parent.value < i
  }

  /** An arena holding one frame with the given bindings and no parent. */
  function Root(vars: map<string, Value>): (e: Envs)
    ensures WellFormed(e) && |e.frames| == 1 && e.frames[0].vars == vars
  {
    Envs([Frame(vars, None)])
  }

  /** The parent of frame `f` that a lookup moves on to, if any. */
  function Outer(e: Envs, f: nat): (r: Option<nat>)
    requires f < |e.frames|
    ensures r.Some? ==> r.value < f
  {
    match e.frames[f].parent
    case Some(p) => if p < f then Some(p) else None
    case None => None
  }

  /** The frames a lookup from `f` visits, innermost first. */
  function Chain(e: Envs, f: nat): (c: seq<nat>)
    ensures forall i | 0 <= i < |c| :: c[i] <= f && c[i] < |e.frames|
    ensures f < |e.frames| ==> |c| > 0 && c[0] == f
    decreases f
  {
    if f >= |e.frames| then []
    else match Outer(e, f)
      case Some(p) => [f] + Chain(e, p)
      case None => [f]
  }

  /** `get`: the binding of `name` in the innermost frame that binds it,
      walking out through the parents; unbound names are an error. Indices
      outside the arena hold no bindings. */
  function Get(e: Envs, f: nat, name: string): (r: Result<Value, Error>)
    ensures r.Failure? ==> r.error == Unbound(name)
    decreases f
  {
    if f >= |e.frames| then Failure(Unbound(name))
    else if name in e.frames[f].vars then Success(e.frames[f].vars[name])
    else match Outer(e, f)
      case Some(p) => Get(e, p, name)
      case None => Failure(Unbound(name))
  }

  /** Frame `c[k]` is the first frame of the chain `c` that binds `name`. */
  predicate FirstBinder(e: Envs, c: seq<nat>, k: nat, name: string)
    requires forall i | 0 <= i < |c| :: c[i] < |e.frames|
  {
    && k < |c|
    && name in e.frames[c[k]].vars
    && forall j | 0 <= j < k :: name !in e.frames[c[j]].vars
  }

  /** `get` against the chain of frames: it fails exactly when no frame of the
      chain binds the name, and otherwise gives the binding of the first frame
      of the chain that does. */
  lemma {:induction false} GetFirstBinder(e: Envs, f: nat, name: string)
    ensures Get(e, f, name).Failure? ==> forall i | 0 <= i < |Chain(e, f)| :: name !in e.frames[Chain(e, f)[i]].vars
    ensures (forall i | 0 <= i < |Chain(e, f)| :: name !in e.frames[Chain(e, f)[i]].vars) ==> Get(e, f, name).Failure?
    ensures Get(e, f, name).Success? ==>
      exists k: nat :: FirstBinder(e, Chain(e, f), k, name) && Get(e, f, name).value == e.frames[Chain(e, f)[k]].vars[name]
    decreases f
  {
    var c := Chain(e, f);
    if f < |e.frames| {
      if name in e.frames[f].vars {
        assert c[0] == f && name in e.frames[c[0]].vars;
        assert FirstBinder(e, c, 0, name);
      } else {
        match Outer(e, f)
        case Some(p) =>
          var cp := Chain(e, p);
          assert c == [f] + cp;
          GetFirstBinder(e, p, name);
          if Get(e, p, name).Success? {
            var k: nat :| FirstBinder(e, cp, k, name) && Get(e, p, name).value == e.frames[cp[k]].vars[name];
            assert c[k + 1] == cp[k];
            forall j | 0 <= j < k + 1 ensures name !in e.frames[c[j]].vars {
              if j > 0 { assert c[j] == cp[j - 1]; }
            }
            assert FirstBinder(e, c, k + 1, name);
          } else {
            forall i | 0 <= i < |c| ensures name !in e.frames[c[i]].vars {
              if i > 0 { assert c[i] == cp[i - 1]; }
            }
          }
        case None =>
          assert c == [f];
      }
    }
  }

  /** `set`: bind `name` in frame `f` itself, whatever its parents bind. */
  function Set(e: Envs, f: nat, name: string, v: Value): (r: Envs)
    ensures |r.frames| == |e.frames|
    ensures forall i | 0 <= i < |e.frames| :: r.frames[i].parent == e.frames[i].parent
    ensures forall i | 0 <= i < |e.frames| && i != f :: r.frames[i] == e.frames[i]
    ensures f < |e.frames| ==> r.frames[f].vars == e.frames[f].vars[name := v]
  {
    if f < |e.frames| then
      var fr := e.frames[f];
      Envs(e.frames[f := Frame(fr.vars[name := v], fr.parent)])
    else e
  }

  /** `KMalEnvironment(parent = ...)`: a new, empty frame under `parent`,
      and its index. */
  function NewChild(e: Envs, parent: nat): (r: (Envs, nat))
    ensures r.1 == |e.frames| && r.0.frames == e.frames + [Frame(map[], Some(parent))]
  {
    (Envs(e.frames + [Frame(map[], Some(parent))]), |e.frames|)
  }

  // ---------------------------------------------------------------------------
  // Properties

  /** Building on a well-formed arena keeps it well-formed. */
  lemma NewChildWellFormed(e: Envs, parent: nat)
    requires WellFormed(e) && parent < |e.frames|
    ensures WellFormed(NewChild(e, parent).0)
  {
  }

  lemma SetWellFormed(e: Envs, f: nat, name: string, v: Value)
    requires WellFormed(e)
    ensures WellFormed(Set(e, f, name, v))
  {
  }

  /** In a well-formed arena, every frame's lookup moves on to its recorded
      parent. */
  lemma OuterIsParent(e: Envs, f: nat)
    requires WellFormed(e) && f < |e.frames|
    ensures Outer(e, f) == e.frames[f].parent
  {
  }

  /** After `set`, the frame that was written binds the name to the new value. */
  lemma GetSetSame(e: Envs, f: nat, name: string, v: Value)
    requires f < |e.frames|
    ensures Get(Set(e, f, name, v), f, name) == Success(v)
  {
  }

  /** `set` changes no frame's parent, so no lookup chain. */
  lemma {:induction false} ChainSet(e: Envs, f: nat, name: string, v: Value, g: nat)
    ensures Chain(Set(e, f, name, v), g) == Chain(e, g)
    decreases g
  {
    var e' := Set(e, f, name, v);
    if g < |e.frames| {
      assert Outer(e', g) == Outer(e, g);
      match Outer(e, g)
      case Some(p) => ChainSet(e, f, name, v, p);
      case None =>
    }
  }

  /** `set` of one name leaves the lookup of every other name unchanged, from
      every frame. */
  lemma {:induction false} GetSetOther(e: Envs, f: nat, name: string, v: Value, g: nat, other: string)
    requires other != name
    ensures Get(Set(e, f, name, v), g, other) == Get(e, g, other)
    decreases g
  {
    var e' := Set(e, f, name, v);
    if g < |e.frames| {
      assert Outer(e', g) == Outer(e, g);
      assert (other in e'.frames[g].vars) == (other in e.frames[g].vars);
      match Outer(e, g)
      case Some(p) => GetSetOther(e, f, name, v, p, other);
      case None =>
    }
  }

  /** `set` in a frame that a lookup does not pass through is invisible to
      that lookup: in particular, a child's bindings never leak to its
      parent. */
  lemma {:induction false} GetSetElsewhere(e: Envs, f: nat, name: string, v: Value, g: nat, other: string)
    requires f !in Chain(e, g)
    ensures Get(Set(e, f, name, v), g, other) == Get(e, g, other)
    decreases g
  {
    var e' := Set(e, f, name, v);
    if g < |e.frames| {
      assert Chain(e, g)[0] == g;
      assert e'.frames[g] == e.frames[g];
      match Outer(e, g)
      case Some(p) =>
        assert Chain(e, g) == [g] + Chain(e, p);
        GetSetElsewhere(e, f, name, v, p, other);
      case None =>
    }
  }

  /** A lookup never visits a frame newer than the one it starts from. */
  lemma SetAboveInvisible(e: Envs, f: nat, name: string, v: Value, g: nat, other: string)
    requires g < f
    ensures Get(Set(e, f, name, v), g, other) == Get(e, g, other)
  {
    GetSetElsewhere(e, f, name, v, g, other);
  }

  /** Frames appended to an arena do not change lookups from the frames that
      were already there. */
  lemma {:induction false} GetExtend(e: Envs, e2: Envs, g: nat, name: string)
    requires |e.frames| <= |e2.frames| && e2.frames[..|e.frames|] == e.frames
    requires g < |e.frames|
    ensures Get(e2, g, name) == Get(e, g, name)
    decreases g
  {
    assert e2.frames[g] == e.frames[g];
    match Outer(e, g)
    case Some(p) => GetExtend(e, e2, p, name);
    case None =>
  }

  /** A new child frame sees exactly what its parent sees. */
  lemma GetNewChild(e: Envs, parent: nat, name: string)
    requires parent < |e.frames|
    ensures Get(NewChild(e, parent).0, NewChild(e, parent).1, name) == Get(e, parent, name)
  {
    var (e2, c) := NewChild(e, parent);
    assert e2.frames[..|e.frames|] == e.frames;
    GetExtend(e, e2, parent, name);
  }

  // ---------------------------------------------------------------------------
  // What an evaluation may change

  /** `e2` is `e` with possibly new bindings in frame `f` and possibly new
      frames after the old ones: every other old frame is as it was, and no
      old frame has a new parent. A negative `f` allows no old frame to
      change. */
  predicate ChangesOnly(e: Envs, e2: Envs, f: int) {
    && |e.frames| <= |e2.frames|
    && (forall g | 0 <= g < |e.frames| :: e2.frames[g].parent == e.frames[g].parent)
    && (forall g | 0 <= g < |e.frames| && g != f :: e2.frames[g] == e.frames[g])
  }

  lemma ChangesOnlyTrans(a: Envs, b: Envs, c: Envs, f: int)
    requires ChangesOnly(a, b, f) && ChangesOnly(b, c, f)
    ensures ChangesOnly(a, c, f)
  {
  }

  /** Changes confined to frames created after `a` leave every frame of `a`
      as it was. */
  lemma ChangesOnlyNew(a: Envs, b: Envs, g: int)
    requires ChangesOnly(a, b, g) && (g < 0 || g >= |a.frames|)
    ensures b.frames[..|a.frames|] == a.frames
    ensures forall f: int :: ChangesOnly(a, b, f)
  {
  }

  lemma ChangesOnlySet(e: Envs, f: nat, name: string, v: Value)
    ensures ChangesOnly(e, Set(e, f, name, v), f)
  {
  }

  /** `set` of each pair into frame `f`, in order. */
  function Bind(e: Envs, f: nat, pairs: seq<(string, Value)>): (r: Envs)
    ensures ChangesOnly(e, r, f)
    decreases |pairs|
  {
    if |pairs| == 0 then e
    else
      var e1 := Set(e, f, pairs[0].0, pairs[0].1);
      ChangesOnlyTrans(e, e1, Bind(e1, f, pairs[1..]), f);
      Bind(e1, f, pairs[1..])
  }

  /** After binding, frame `f` holds, for each bound name, the value of the
      last pair that binds it. */
  lemma {:induction false} BindLast(e: Envs, f: nat, pairs: seq<(string, Value)>, k: nat)
    requires f < |e.frames| && k < |pairs|
    requires forall j | k < j < |pairs| :: pairs[j].0 != pairs[k].0
    ensures pairs[k].0 in Bind(e, f, pairs).frames[f].vars
    ensures Bind(e, f, pairs).frames[f].vars[pairs[k].0] == pairs[k].1
    decreases |pairs|
  {
    var e1 := Set(e, f, pairs[0].0, pairs[0].1);
    if k == 0 {
      BindKeeps(e1, f, pairs[1..], pairs[0].0);
    } else {
      BindLast(e1, f, pairs[1..], k - 1);
    }
  }

  /** Binding pairs that do not name `name` leaves its binding in frame `f`
      alone. */
  lemma {:induction false} BindKeeps(e: Envs, f: nat, pairs: seq<(string, Value)>, name: string)
    requires f < |e.frames|
    requires forall j | 0 <= j < |pairs| :: pairs[j].0 != name
    ensures (name in Bind(e, f, pairs).frames[f].vars) == (name in e.frames[f].vars)
    ensures name in e.frames[f].vars ==> Bind(e, f, pairs).frames[f].vars[name] == e.frames[f].vars[name]
    decreases |pairs|
  {
    if |pairs| > 0 {
      BindKeeps(Set(e, f, pairs[0].0, pairs[0].1), f, pairs[1..], name);
    }
  }
}

=== FILE: errors.dfy ===
/** The exceptions the interpreter raises, one constructor per distinct
    message; a message thrown from several places (the arity check, the
    `def!` name check of stages 3 and 4) has one constructor, and so do the
    two EOFException messages, which the REPL prints alike. Kotlin's
    exception classes are recorded in the comments; the REPL prints "EOF"
    for the EOFException kinds and the message otherwise. */
module Errors {

  datatype Error =
    /** EOFException: the token cursor was asked for a token past the end,
        either without a message (`peek`) or with "EOF reached before
        sequence ended" (an unclosed sequence); the third, in `readAtom`,
        cannot be thrown because the symbol coercer accepts every token. */
    | EndOfInput
    /** IllegalStateException: a sequence did not open with its delimiter. */
    | BadOpening(expected: string, got: string)
    /** IllegalStateException: a map was built from an odd number of forms. */
    | OddMapForms
    /** EOFException: a token opened a string literal but did not close it. */
    | UnterminatedString(token: string)
    /** IllegalArgumentException from forceParity: wrong argument count. */
    | Arity(given: nat)
    /** IllegalArgumentException: an arithmetic step met a non-Number. */
    | ArithmeticTypes(operation: string, left: string, right: string)
    /** ArithmeticException: integer division by zero. */
    | DivisionByZero
    /** IllegalStateException from compareSequence: a non-Number operand. */
    | ExpectedNumber(got: string)
    /** The environment has no binding for the symbol. */
    | Unbound(name: string)
    /** IllegalStateException: the head of a call did not evaluate to a function. */
    | NotAFunction(got: string)
    /** IllegalStateException "def! requires a symbol for name, got T". */
    | DefNameNotSymbol(got: string)
    /** IllegalStateException "expected symbol for binding, got T" (`let*`). */
    | BindingNotSymbol(got: string)
    /** IllegalStateException "binding must be symbol, got T" (`fn*` parameter). */
    | ParamNotSymbol(got: string)
    /** IllegalStateException "let* requires a sequence of bindings, got T". */
    | LetBindingsNotSequence(got: string)
    /** IllegalStateException "bindings must be sequence, got T" (`fn*` parameters). */
    | ParamsNotSequence(got: string)
    /** IllegalStateException: let* bindings have an odd number of forms. */
    | OddBindings
    /** IllegalStateException: '&' is not the second-to-last parameter. */
    | MisplacedVariadic(position: nat, required: int)
    /** IndexOutOfBoundsException: a form was indexed past its last element. */
    | IndexOutOfBounds(index: nat, size: nat)
    /** The host call stack is exhausted (evaluation nesting exceeded the fuel). */
    | OutOfFuel
}

=== FILE: library.dfy ===
/** `Library`, the older copy of the argument check, the arithmetic builtins
    and `=`, written as the loops the Kotlin runs (`reduce` and an indexed
    `for` with an early return). Each is proved to compute exactly what the
    corresponding function of `Core` computes. */
module Library {
  import opened Wrappers
  import opened Errors
  import opened Types
  import Core

  /** `Library.forceParity`. */
  method ForceParity(n: nat, atLeast: int, atMost: int) returns (r: Outcome<Error>)
    ensures r.Pass? <==> atLeast <= n && (atMost == -1 || n <= atMost)
    ensures r.Fail? ==> r.error == Arity(n)
  {
    if n < atLeast {
      return Fail(Arity(n));
    }
    if atMost != -1 && n > atMost {
      return Fail(Arity(n));
    }
    return Pass;
  }

  /** `arithmeticAggregate`: `args.reduce` with the checked operation, a step
      at a time, stopping at the first error. */
  method Arithmetic(op: Core.Arith, args: seq<Value>) returns (r: Result<Value, Error>)
    ensures r == Core.Arithmetic(op, args)
  {
    var parity := ForceParity(|args|, 2, -1);
    if parity.Fail? {
      return Failure(parity.error);
    }
    var acc := args[0];
    var i := 1;
    while i < |args|
      invariant 1 <= i <= |args|
      invariant Core.Fold(op, args[0], args[1..]) == Core.Fold(op, acc, args[i..])
      decreases |args| - i
    {
      assert args[i..][0] == args[i] && args[i..][1..] == args[i + 1..];
      var step := ArithmeticOperation(op, acc, args[i]);
      if step.Failure? {
        return Failure(step.error);
      }
      acc := step.value;
      i := i + 1;
    }
    assert args[i..] == [];
    return Success(acc);
  }

  /** `arithmeticOperation`: both operands must be Numbers. */
  method ArithmeticOperation(op: Core.Arith, x: Value, y: Value) returns (r: Result<Value, Error>)
    ensures r == Core.ArithStep(op, x, y)
    ensures !(x.Number? && y.Number?) ==> r.Failure? && r.error.ArithmeticTypes?
  {
    if x.Number? && y.Number? {
      var n := Core.Combine(op, x.n, y.n);
      if n.Failure? {
        return Failure(n.error);
      }
      return Success(Number(n.value));
    }
    return Failure(ArithmeticTypes(Core.ArithName(op), AsTypeString(x), AsTypeString(y)));
  }

  /** `Library.kmalEquals`: false at the first argument that differs from the
      first one, true when none does. */
  method Equals(args: seq<Value>) returns (r: Result<Value, Error>)
    ensures r == Core.Equals(args)
  {
    var parity := ForceParity(|args|, 2, -1);
    if parity.Fail? {
      return Failure(parity.error);
    }
    var first := args[0];
    var i := 1;
    while i < |args|
      invariant 1 <= i <= |args|
      invariant forall j | 1 <= j < i :: Equal(args[j], first)
      decreases |args| - i
    {
      if !Equal(args[i], first) {
        return Success(Boolean(false));
      }
      i := i + 1;
    }
    return Success(Boolean(true));
  }
}

=== FILE: numbers.dfy ===
/** Kotlin `Long` arithmetic and decimal text, as used by the Number value:
    64-bit two's-complement wrap-around, division truncating toward zero, and
    the decimal rendering/parsing of `Long.toString` and `String.toLongOrNull`. */
module Numbers {
  import opened Wrappers

  const MIN_LONG: int := -0x8000_0000_0000_0000
  const MAX_LONG: int := 0x7FFF_FFFF_FFFF_FFFF
  const TWO_64: int := 0x1_0000_0000_0000_0000

  /** The values a Kotlin `Long` can hold. */
  type Long = x: int | MIN_LONG <= x <= MAX_LONG

  /** Two's-complement wrap-around of an exact result into the `Long` range. */
  function Wrap(x: int): (r: Long)
    ensures (r - x) % TWO_64 == 0
    ensures MIN_LONG <= x <= MAX_LONG ==> r == x
  {
    (x - MIN_LONG) % TWO_64 + MIN_LONG
  }

  /** Wrapping is compatible with adding multiples of 2^64 to the input. */
  lemma WrapShift(x: int, k: int)
    ensures Wrap(x + k * TWO_64) == Wrap(x)
  {
    assert (x + k * TWO_64 - MIN_LONG) % TWO_64 == (x - MIN_LONG) % TWO_64;
  }

  /** Wrapping an intermediate sum does not change the wrapped total: a
      chain of wrapping additions wraps the exact sum. */
  lemma WrapAdd(a: int, b: int)
    ensures Wrap(Wrap(a) + b) == Wrap(a + b)
  {
    var k := (Wrap(a) - a) / TWO_64;
    assert Wrap(a) == a + k * TWO_64;
    assert Wrap(a) + b == (a + b) + k * TWO_64;
    WrapShift(a + b, k);
  }

  /** The same for products. */
  lemma WrapMul(a: int, b: int)
    ensures Wrap(Wrap(a) * b) == Wrap(a * b)
  {
    var k := (Wrap(a) - a) / TWO_64;
    assert Wrap(a) == a + k * TWO_64;
    calc {
      Wrap(a) * b;
      (a + k * TWO_64) * b;
      a * b + (k * b) * TWO_64;
    }
    WrapShift(a * b, k * b);
  }

  function Abs(x: int): nat {
    if x < 0 then -x else x
  }

  /** JVM integer division: the quotient is truncated toward zero. */
  function TruncDiv(a: int, b: int): (q: int)
    requires b != 0
    ensures a - q * b == TruncRem(a, b)
  {
    if a >= 0 && b > 0 then a / b
    else if a >= 0 then -(a / -b)
    else if b > 0 then -((-a) / b)
    else (-a) / (-b)
  }

  /** The JVM remainder: the magnitude of `a % |b|`, carrying the sign of `a`. */
  function TruncRem(a: int, b: int): (r: int)
    requires b != 0
    ensures Abs(r) < Abs(b)
    ensures a >= 0 ==> r >= 0
    ensures a <= 0 ==> r <= 0
  {
    var m: nat := Abs(b);
    var t: nat := Abs(a) % m;
    ModBelow(Abs(a), m);
    if a >= 0 then t else -(t as int)
  }

  lemma ModBelow(x: nat, m: nat)
    requires m > 0
    ensures x % m < m
  {
  }

  predicate IsDigit(c: char) {
    '0' <= c <= '9'
  }

  predicate AllDigits(s: string) {
    forall i | 0 <= i < |s| :: IsDigit(s[i])
  }

  function DigitChar(d: nat): (c: char)
    requires d < 10
    ensures IsDigit(c) && c as int - '0' as int == d
  {
    ('0' as int + d) as char
  }

  /** Decimal digits of a natural number, most significant first, no leading zeros. */
  function NatToDigits(n: nat): (s: string)
    ensures |s| > 0 && AllDigits(s)
    ensures |s| > 1 ==> s[0] != '0'
    decreases n
  {
    if n < 10 then [DigitChar(n)] else NatToDigits(n / 10) + [DigitChar(n % 10)]
  }

  /** `Long.toString`: decimal, with a leading '-' for negative values. */
  function IntToString(x: int): (s: string)
    ensures |s| > 0 && (s[0] == '-' || IsDigit(s[0]))
  {
    if x < 0 then "-" + NatToDigits(-x) else NatToDigits(x)
  }

  /** The number a string of decimal digits denotes. */
  function DigitsValue(s: string): nat
    requires AllDigits(s)
    decreases |s|
  {
    if |s| == 0 then 0 else DigitsValue(s[..|s| - 1]) * 10 + (s[|s| - 1] as int - '0' as int)
  }

  /** `String.toLongOrNull` in radix 10 over ASCII digits: an optional '+' or
      '-', then at least one digit, and the value must fit in a `Long`. */
  function ParseLong(s: string): (r: Option<Long>)
    ensures r.Some? ==> |s| > 0 && (s[0] == '-' || s[0] == '+' || IsDigit(s[0]))
  {
    if |s| == 0 then None
    else
      var negative := s[0] == '-';
      var digits := if s[0] == '-' || s[0] == '+' then s[1..] else s;
      if |digits| == 0 || !AllDigits(digits) then None
      else
        var m: int := if negative then -(DigitsValue(digits) as int) else DigitsValue(digits);
        if MIN_LONG <= m <= MAX_LONG then Some(m) else None
  }

  lemma {:induction false} DigitsRoundTrip(n: nat)
    ensures DigitsValue(NatToDigits(n)) == n
    decreases n
  {
    var s := NatToDigits(n);
    if n >= 10 {
      DigitsRoundTrip(n / 10);
      assert s[..|s| - 1] == NatToDigits(n / 10);
    }
  }

  /** Parsing the decimal rendering of a `Long` gives the same `Long` back. */
  lemma ParseRendered(x: Long)
    ensures ParseLong(IntToString(x)) == Some(x)
  {
    var s := IntToString(x);
    if x < 0 {
      var n: nat := -(x as int);
      DigitsRoundTrip(n);
      assert s == "-" + NatToDigits(n);
      assert s[1..] == NatToDigits(n);
      assert s[0] == '-';
    } else {
      DigitsRoundTrip(x);
      assert s == NatToDigits(x);
      assert IsDigit(s[0]);
    }
  }
}

=== FILE: readback.dfy ===
/** Reading back what the printer writes: every value the reader can
    produce, laid out as the tokens of its readable printed form, reads back
    to the same value. */
module ReadBack {
  import opened Wrappers
  import opened Errors
  import opened Numbers
  import opened Types
  import opened Coercion
  import opened Reader

  /** A symbol name that the reader would not take for anything else. */
  predicate PlainSymbol(name: string) {
    && name != "nil" && name != "true" && name != "false"
    && name != "(" && name != "[" && name != "{"
    && name != ")" && name != "]" && name != "}"
    && ParseLong(name).None?
    && !StartsWith(name, ':') && !StartsWith(name, '"') && !StartsWith(name, ';')
  }

  /** The values the reader can produce: no functions or comments, symbols
      that read as symbols, maps with distinct keys. */
  predicate Readable(v: Value)
    decreases v
  {
    match v
    case Func(_) => false
    case Comment => false
    case Symbol(name) => PlainSymbol(name)
    case List(xs) => AllReadable(xs)
    case Vector(xs) => AllReadable(xs)
    case HashMap(es) => DistinctKeys(es) && EntriesReadable(es)
    case _ => true
  }

  predicate AllReadable(xs: seq<Value>)
    decreases xs
  {
    |xs| == 0 || (Readable(xs[0]) && AllReadable(xs[1..]))
  }

  predicate EntriesReadable(es: seq<Entry>)
    decreases es
  {
    |es| == 0 || (EntryReadable(es[0]) && EntriesReadable(es[1..]))
  }

  predicate EntryReadable(e: Entry)
    decreases e
  {
    Readable(e.key) && Readable(e.val)
  }

  /** `ToList` again, as plain recursion over the entries. */
  function Flatten(es: seq<Entry>): seq<Value>
    decreases |es|
  {
    if |es| == 0 then [] else [es[0].key, es[0].val] + Flatten(es[1..])
  }

  lemma {:induction false} FlattenIsToList(es: seq<Entry>)
    ensures Flatten(es) == ToList(es)
    decreases |es|
  {
    if |es| > 0 {
      FlattenIsToList(es[1..]);
    }
  }

  /** The tokens of a value's readable printed form: a delimited form is its
      delimiters around its elements' tokens, an atom is one token, the text
      `AsString` prints for it. */
  function Tokens(v: Value): (ts: seq<string>)
    ensures |ts| > 0
    decreases v
  {
    match v
    case List(xs) => ["("] + TokensOf(xs) + [")"]
    case Vector(xs) => ["["] + TokensOf(xs) + ["]"]
    case HashMap(es) => ["{"] + TokensOfEntries(es) + ["}"]
    case _ => [AtomText(v)]
  }

  /** The printed text of an atom: what `AsString` prints for it readably. */
  function AtomText(v: Value): (t: string)
    ensures IsAtom(v) ==> t == AsString(v, true)
  {
    match v
    case String(s) => "\"" + s + "\""
    case Symbol(name) => name
    case Keyword(text) => ":" + text[1..]
    case Number(n) => IntToString(n)
    case Boolean(b) => if b then "true" else "false"
    case Nil => "nil"
    case _ => AsString(v, true)
  }

  function TokensOf(xs: seq<Value>): (ts: seq<string>)
    ensures |ts| >= |xs|
    decreases xs
  {
    if |xs| == 0 then [] else Tokens(xs[0]) + TokensOf(xs[1..])
  }

  function TokensOfEntries(es: seq<Entry>): (ts: seq<string>)
    decreases es
  {
    if |es| == 0 then [] else TokensOfEntry(es[0]) + TokensOfEntries(es[1..])
  }

  function TokensOfEntry(e: Entry): (ts: seq<string>)
    decreases e
  {
    Tokens(e.key) + Tokens(e.val)
  }

  /** `part` sits in the token list from index `p` on. */
  predicate At(ts: seq<string>, p: nat, part: seq<string>) {
    p + |part| <= |ts| && ts[p..p + |part|] == part
  }

  /** Where a concatenation sits in the token list, so does each part. */
  lemma Split(ts: seq<string>, p: nat, a: seq<string>, b: seq<string>)
    requires At(ts, p, a + b)
    ensures At(ts, p, a) && At(ts, p + |a|, b)
  {
    assert ts[p..p + |a|] == (a + b)[..|a|];
    assert ts[p + |a|..p + |a| + |b|] == (a + b)[|a|..];
  }

  /** The first token of a readable value starts a form: it is neither a
      closing delimiter nor a comment. */
  lemma FirstToken(v: Value, kind: SeqKind)
    requires Readable(v)
    ensures Tokens(v)[0] != Closing(kind)
    ensures !StartsWith(Tokens(v)[0], ';')
  {
    match v
    case Number(n) =>
      var s := IntToString(n);
      assert Tokens(v)[0] == s;
      assert s[0] == '-' || IsDigit(s[0]);
    case String(s) =>
      assert Tokens(v)[0][0] == '"';
    case Keyword(text) =>
      assert Tokens(v)[0][0] == ':';
    case _ =>
  }

  lemma FirstTokenAt(v: Value, kind: SeqKind, ts: seq<string>, p: nat)
    requires Readable(v) && At(ts, p, Tokens(v))
    ensures p < |ts| && ts[p] != Closing(kind) && !StartsWith(ts[p], ';')
    ensures ts[p] == Tokens(v)[0]
  {
    FirstToken(v, kind);
    assert ts[p] == ts[p..p + |Tokens(v)|][0];
  }

  /** An atom's token reads back as the atom. */
  lemma AtomBack(v: Value)
    requires Readable(v) && IsAtom(v)
    ensures ReadAtomToken(AtomText(v)) == Success(v)
  {
    var t := AtomText(v);
    match v
    case Number(n) =>
      ParseRendered(n);
      assert t != "nil" && t != "true" && t != "false";
    case String(s) =>
      assert t[0] == '"';
      assert t != "nil" && t != "true" && t != "false";
      assert ParseLong(t).None?;
      assert t[1..|t| - 1] == s;
    case Keyword(text) =>
      assert t[0] == ':';
      assert t != "nil" && t != "true" && t != "false";
      assert ParseLong(t).None?;
      assert [KEYWORD_MARK] + t[1..] == text;
    case _ =>
  }

  // One step of the reader, each unfolded on its own.

  lemma ElementsClose(ts: seq<string>, p: nat, kind: SeqKind, acc: seq<Value>)
    requires p < |ts| && ts[p] == Closing(kind)
    ensures ReadElements(TokenReader(ts, p), kind, acc) == Close(kind, acc, TokenReader(ts, p))
  {
  }

  lemma ElementsStep(ts: seq<string>, p: nat, kind: SeqKind, acc: seq<Value>, x: Value, next: nat)
    requires p < |ts| && ts[p] != Closing(kind) && next >= 1
    requires ReadForm(TokenReader(ts, p)) == Success(Parsed(x, TokenReader(ts, next - 1))) && !x.Comment?
    ensures ReadElements(TokenReader(ts, p), kind, acc) == ReadElements(TokenReader(ts, next), kind, acc + [x])
  {
  }

  lemma FormSequence(ts: seq<string>, p: nat, kind: SeqKind)
    requires p < |ts| && ts[p] == Opening(kind)
    ensures ReadForm(TokenReader(ts, p)) == ReadElements(TokenReader(ts, p + 1), kind, [])
  {
    assert ReadSequence(TokenReader(ts, p), kind) == ReadElements(TokenReader(ts, p + 1), kind, []);
  }

  lemma FormAtom(ts: seq<string>, p: nat, v: Value)
    requires p < |ts| && !StartsWith(ts[p], ';')
    requires ts[p] != "(" && ts[p] != "[" && ts[p] != "{"
    requires ReadAtomToken(ts[p]) == Success(v)
    ensures ReadForm(TokenReader(ts, p)) == Success(Parsed(v, TokenReader(ts, p)))
  {
  }

  /** A delimited form whose inner tokens the loop reads as `gathered`. */
  lemma DelimitedBack(kind: SeqKind, ts: seq<string>, p: nat, stop: nat, gathered: seq<Value>)
    requires p < stop < |ts| && ts[p] == Opening(kind) && ts[stop] == Closing(kind)
    requires ReadElements(TokenReader(ts, p + 1), kind, []) == ReadElements(TokenReader(ts, stop), kind, gathered)
    ensures ReadForm(TokenReader(ts, p)) == Close(kind, gathered, TokenReader(ts, stop))
  {
    FormSequence(ts, p, kind);
    ElementsClose(ts, stop, kind, gathered);
  }

  /** Where a delimited run of tokens sits in the token list: the closing
      token is at `stop`. */
  lemma Delimited(ts: seq<string>, p: nat, open: string, inner: seq<string>, close: string, stop: nat)
    requires At(ts, p, [open] + inner + [close]) && stop == p + 1 + |inner|
    ensures p < stop < |ts| && ts[p] == open && ts[stop] == close
    ensures At(ts, p + 1, inner)
  {
    Split(ts, p, [open] + inner, [close]);
    Split(ts, p, [open], inner);
    assert ts[p] == ts[p..p + 1][0];
    assert ts[stop] == ts[stop..stop + 1][0];
  }

  /** The tokens of a non-empty run of elements are the first element's
      tokens followed by the rest's. */
  lemma SplitElements(xs: seq<Value>, ts: seq<string>, p: nat)
    requires |xs| > 0 && AllReadable(xs) && At(ts, p, TokensOf(xs))
    ensures At(ts, p, Tokens(xs[0])) && At(ts, p + |Tokens(xs[0])|, TokensOf(xs[1..]))
    ensures p + |Tokens(xs[0])| + |TokensOf(xs[1..])| == p + |TokensOf(xs)|
    ensures Readable(xs[0]) && AllReadable(xs[1..])
  {
    Split(ts, p, Tokens(xs[0]), TokensOf(xs[1..]));
  }

  /** The tokens of a non-empty run of entries are the first key's tokens,
      the first value's, then the rest's. */
  /** A map's tokens are those of its keys and values, flattened in order. */
  lemma {:induction false} EntriesTokens(es: seq<Entry>)
    ensures TokensOfEntries(es) == TokensOf(Flatten(es))
    decreases |es|
  {
    if |es| > 0 {
      var k := es[0].key;
      var v := es[0].val;
      var rest := Flatten(es[1..]);
      var fs := [k, v] + rest;
      EntriesTokens(es[1..]);
      assert fs[1..] == [v] + rest;
      assert fs[1..][1..] == rest;
      calc {
        TokensOf(fs);
        Tokens(k) + TokensOf([v] + rest);
        Tokens(k) + (Tokens(v) + TokensOf(rest));
      }
    }
  }

  /** The keys and values of readable entries are readable. */
  lemma {:induction false} EntriesReadableFlatten(es: seq<Entry>)
    requires EntriesReadable(es)
    ensures AllReadable(Flatten(es))
    decreases |es|
  {
    if |es| > 0 {
      var rest := Flatten(es[1..]);
      var fs := [es[0].key, es[0].val] + rest;
      EntriesReadableFlatten(es[1..]);
      assert fs[1..] == [es[0].val] + rest;
      assert fs[1..][1..] == rest;
    }
  }

  lemma Snoc<T>(acc: seq<T>, xs: seq<T>)
    requires |xs| > 0
    ensures acc + [xs[0]] + xs[1..] == acc + xs
  {
  }

  /** Closing a map whose entries have distinct keys rebuilds the map. */
  lemma MapCloses(es: seq<Entry>, r: TokenReader)
    requires DistinctKeys(es)
    ensures Close(MapKind, ToList(es), r) == Success(Parsed(HashMap(es), r))
  {
    MapRoundTrip(es);
  }

  /** `readForm` over the tokens of a readable value, wherever they sit in
      the token list, gives the value back and leaves the cursor on the
      value's last token, just before `next`. */
  lemma {:induction false} ReadFormBack(v: Value, ts: seq<string>, p: nat, next: nat)
    requires Readable(v) && At(ts, p, Tokens(v)) && next == p + |Tokens(v)|
    ensures ReadForm(TokenReader(ts, p)) == Success(Parsed(v, TokenReader(ts, next - 1)))
    decreases |Tokens(v)|, 1
  {
    match v
    case List(xs) =>
      SequenceBack(xs, ListKind, ts, p, next - 1);
    case Vector(xs) =>
      SequenceBack(xs, VectorKind, ts, p, next - 1);
    case HashMap(es) =>
      MapBack(es, ts, p, next - 1);
      MapCloses(es, TokenReader(ts, next - 1));
    case _ =>
      AtomFormBack(v, ts, p, next);
  }

  lemma AtomFormBack(v: Value, ts: seq<string>, p: nat, next: nat)
    requires Readable(v) && IsAtom(v) && At(ts, p, Tokens(v)) && next == p + |Tokens(v)|
    ensures ReadForm(TokenReader(ts, p)) == Success(Parsed(v, TokenReader(ts, next - 1)))
  {
    FirstTokenAt(v, ListKind, ts, p);
    AtomBack(v);
    FormAtom(ts, p, v);
  }

  /** The list and vector cases of `ReadFormBack`. */
  lemma {:induction false} SequenceBack(xs: seq<Value>, kind: SeqKind, ts: seq<string>, p: nat, stop: nat)
    requires kind != MapKind && AllReadable(xs)
    requires At(ts, p, [Opening(kind)] + TokensOf(xs) + [Closing(kind)])
    requires stop == p + 1 + |TokensOf(xs)|
    ensures ReadForm(TokenReader(ts, p)) == Close(kind, xs, TokenReader(ts, stop))
    decreases |TokensOf(xs)| + 2, 0
  {
    Delimited(ts, p, Opening(kind), TokensOf(xs), Closing(kind), stop);
    assert [] + xs == xs;
    ReadElementsBack(xs, kind, [], ts, p + 1, stop, xs);
    DelimitedBack(kind, ts, p, stop, xs);
  }

  /** The map case of `ReadFormBack`: the loop reads the keys and values
      in turn. */
  lemma {:induction false} MapBack(es: seq<Entry>, ts: seq<string>, p: nat, stop: nat)
    requires EntriesReadable(es)
    requires At(ts, p, ["{"] + TokensOfEntries(es) + ["}"])
    requires stop == p + 1 + |TokensOfEntries(es)|
    ensures ReadForm(TokenReader(ts, p)) == Close(MapKind, ToList(es), TokenReader(ts, stop))
    decreases |TokensOfEntries(es)| + 2, 0
  {
    var xs := Flatten(es);
    EntriesTokens(es);
    EntriesReadableFlatten(es);
    FlattenIsToList(es);
    Delimited(ts, p, "{", TokensOf(xs), "}", stop);
    assert [] + xs == xs;
    ReadElementsBack(xs, MapKind, [], ts, p + 1, stop, xs);
    DelimitedBack(MapKind, ts, p, stop, xs);
  }

  /** The loop of `readSequence` over the tokens of readable elements
      gathers exactly those elements and stops on the token after them. */
  lemma {:induction false} ReadElementsBack(xs: seq<Value>, kind: SeqKind, acc: seq<Value>, ts: seq<string>, p: nat, stop: nat, gathered: seq<Value>)
    requires AllReadable(xs) && At(ts, p, TokensOf(xs))
    requires stop == p + |TokensOf(xs)| && gathered == acc + xs
    ensures ReadElements(TokenReader(ts, p), kind, acc) == ReadElements(TokenReader(ts, stop), kind, gathered)
    decreases |TokensOf(xs)| + 1, 0
  {
    if |xs| == 0 {
      assert acc + xs == acc;
    } else {
      var q := p + |Tokens(xs[0])|;
      var acc' := acc + [xs[0]];
      SplitElements(xs, ts, p);
      OneBack(xs[0], kind, acc, ts, p, q);
      Snoc(acc, xs);
      ReadElementsBack(xs[1..], kind, acc', ts, q, stop, gathered);
    }
  }

  /** One element inside a delimited form: its tokens are read and the
      cursor steps to `next`, past them. */
  lemma {:induction false} OneBack(x: Value, kind: SeqKind, acc: seq<Value>, ts: seq<string>, p: nat, next: nat)
    requires Readable(x) && At(ts, p, Tokens(x)) && next == p + |Tokens(x)|
    ensures ReadElements(TokenReader(ts, p), kind, acc) == ReadElements(TokenReader(ts, next), kind, acc + [x])
    decreases |Tokens(x)|, 2
  {
    FirstTokenAt(x, kind, ts, p);
    ReadFormBack(x, ts, p, next);
    ElementsStep(ts, p, kind, acc, x, next);
  }

  /** Reading the token list of a readable value, followed by anything, gives
      the value; the tokens after the first form are not looked at. */
  lemma ReadTokensBack(v: Value, rest: seq<string>)
    requires Readable(v)
    ensures ReadTokens(Tokens(v) + rest) == Success(v)
  {
    var ts := Tokens(v) + rest;
    assert ts[0..|Tokens(v)|] == Tokens(v);
    ReadFormBack(v, ts, 0, |Tokens(v)|);
  }

  // ---------------------------------------------------------------------------
  // Comments between the elements of a delimited form

  /** What sits between the delimiters of a form: comment tokens and
      forms, in any order. */
  datatype Item = Note(text: string) | Form(value: Value)

  predicate ItemReadable(i: Item) {
    match i
    case Note(text) => StartsWith(text, ';')
    case Form(v) => Readable(v)
  }

  predicate ItemsReadable(items: seq<Item>)
    decreases |items|
  {
    |items| == 0 || (ItemReadable(items[0]) && ItemsReadable(items[1..]))
  }

  function ItemTokens(i: Item): (ts: seq<string>)
    ensures |ts| > 0
  {
    match i
    case Note(text) => [text]
    case Form(v) => Tokens(v)
  }

  function TokensOfItems(items: seq<Item>): seq<string>
    decreases |items|
  {
    if |items| == 0 then [] else ItemTokens(items[0]) + TokensOfItems(items[1..])
  }

  /** The forms among the items, in order; the comments dropped. */
  function Forms(items: seq<Item>): (xs: seq<Value>)
    ensures |xs| <= |items|
    decreases |items|
  {
    if |items| == 0 then []
    else if items[0].Note? then Forms(items[1..])
    else [items[0].value] + Forms(items[1..])
  }

  /** A comment inside a delimited form is read and dropped: the loop goes
      on with the next token and the same elements. */
  lemma CommentStep(ts: seq<string>, p: nat, kind: SeqKind, acc: seq<Value>)
    requires p < |ts| && StartsWith(ts[p], ';')
    ensures ReadElements(TokenReader(ts, p), kind, acc) == ReadElements(TokenReader(ts, p + 1), kind, acc)
  {
    assert ts[p] != Closing(kind) by {
      assert Closing(kind)[0] != ';';
    }
  }

  /** What reading one item adds to the elements gathered so far. */
  function Gather(acc: seq<Value>, i: Item): seq<Value> {
    if i.Note? then acc else acc + [i.value]
  }

  /** One item: a comment is skipped, a form is read and kept. */
  lemma ItemBack(i: Item, kind: SeqKind, acc: seq<Value>, ts: seq<string>, p: nat, next: nat)
    requires ItemReadable(i) && At(ts, p, ItemTokens(i)) && next == p + |ItemTokens(i)|
    ensures ReadElements(TokenReader(ts, p), kind, acc) == ReadElements(TokenReader(ts, next), kind, Gather(acc, i))
  {
    match i
    case Note(text) =>
      assert ts[p] == ts[p..p + 1][0];
      CommentStep(ts, p, kind, acc);
    case Form(v) =>
      OneBack(v, kind, acc, ts, p, next);
  }

  /** Where a non-empty run of items sits in the token list, so do its first
      item and the rest. */
  lemma SplitItems(items: seq<Item>, ts: seq<string>, p: nat)
    requires |items| > 0 && ItemsReadable(items) && At(ts, p, TokensOfItems(items))
    ensures At(ts, p, ItemTokens(items[0])) && At(ts, p + |ItemTokens(items[0])|, TokensOfItems(items[1..]))
    ensures p + |ItemTokens(items[0])| + |TokensOfItems(items[1..])| == p + |TokensOfItems(items)|
    ensures ItemReadable(items[0]) && ItemsReadable(items[1..])
  {
    Split(ts, p, ItemTokens(items[0]), TokensOfItems(items[1..]));
  }

  lemma FormsStep(items: seq<Item>, acc: seq<Value>)
    requires |items| > 0
    ensures acc + Forms(items) == Gather(acc, items[0]) + Forms(items[1..])
  {
  }

  /** The loop of `readSequence` over comments and readable forms gathers
      exactly the forms, in their order. */
  lemma {:induction false} ItemsBack(items: seq<Item>, kind: SeqKind, acc: seq<Value>, ts: seq<string>, p: nat, stop: nat, gathered: seq<Value>)
    requires ItemsReadable(items) && At(ts, p, TokensOfItems(items))
    requires stop == p + |TokensOfItems(items)| && gathered == acc + Forms(items)
    ensures ReadElements(TokenReader(ts, p), kind, acc) == ReadElements(TokenReader(ts, stop), kind, gathered)
    decreases |items|
  {
    if |items| == 0 {
      assert acc + Forms(items) == acc;
    } else {
      var q := p + |ItemTokens(items[0])|;
      SplitItems(items, ts, p);
      FormsStep(items, acc);
      ItemsBack(items[1..], kind, Gather(acc, items[0]), ts, q, stop, gathered);
      ItemStep(items[0], kind, acc, ts, p, q, stop, gathered);
    }
  }

  /** One item read, then the loop over the rest. */
  lemma ItemStep(i: Item, kind: SeqKind, acc: seq<Value>, ts: seq<string>, p: nat, q: nat, stop: nat, gathered: seq<Value>)
    requires ItemReadable(i) && At(ts, p, ItemTokens(i)) && q == p + |ItemTokens(i)| && stop <= |ts|
    requires ReadElements(TokenReader(ts, q), kind, Gather(acc, i)) == ReadElements(TokenReader(ts, stop), kind, gathered)
    ensures ReadElements(TokenReader(ts, p), kind, acc) == ReadElements(TokenReader(ts, stop), kind, gathered)
  {
    ItemBack(i, kind, acc, ts, p, q);
  }

  /** A delimited form holding readable forms with comments anywhere
      between them reads as those forms, in their order, built into a form
      of the delimiters' kind; the comments leave no trace. */
  lemma CommentedFormBack(items: seq<Item>, kind: SeqKind, rest: seq<string>)
    requires ItemsReadable(items)
    ensures ReadTokens([Opening(kind)] + TokensOfItems(items) + [Closing(kind)] + rest) == Build(kind, Forms(items))
  {
    var inner := TokensOfItems(items);
    var ts := [Opening(kind)] + inner + [Closing(kind)] + rest;
    var stop := 1 + |inner|;
    assert At(ts, 0, [Opening(kind)] + inner + [Closing(kind)]) by {
      assert ts[0..stop + 1] == [Opening(kind)] + inner + [Closing(kind)];
    }
    Delimited(ts, 0, Opening(kind), inner, Closing(kind), stop);
    assert [] + Forms(items) == Forms(items);
    ItemsBack(items, kind, [], ts, 1, stop, Forms(items));
    DelimitedBack(kind, ts, 0, stop, Forms(items));
  }

  /** Lists and vectors keep their forms in source order, comments
      dropped. */
  lemma CommentedSequenceBack(items: seq<Item>, rest: seq<string>)
    requires ItemsReadable(items)
    ensures ReadTokens(["("] + TokensOfItems(items) + [")"] + rest) == Success(List(Forms(items)))
    ensures ReadTokens(["["] + TokensOfItems(items) + ["]"] + rest) == Success(Vector(Forms(items)))
  {
    CommentedFormBack(items, ListKind, rest);
    CommentedFormBack(items, VectorKind, rest);
  }

  /** A map literal holding an odd number of forms is an error, whatever
      the forms are and wherever comments sit between them. */
  lemma OddMapFails(items: seq<Item>, rest: seq<string>)
    requires ItemsReadable(items) && |Forms(items)| % 2 == 1
    ensures ReadTokens(["{"] + TokensOfItems(items) + ["}"] + rest) == Failure(OddMapForms)
  {
    CommentedFormBack(items, MapKind, rest);
  }
}

=== FILE: reader.dfy ===
/** The reader (`reader.kt`): a cursor over a token list and the recursive
    descent that turns tokens into one form. Tokenizing text into tokens is a
    regular-expression scan and is not part of this model: the reader starts
    from the token list. */
module Reader {
  import opened Wrappers
  import opened Errors
  import opened Types
  import opened Coercion

  /** `TokenReader`: the tokens and the index of the current one. */
  datatype TokenReader = TokenReader(tokens: seq<string>, position: nat) {
    predicate Valid() {
      position <= |tokens|
    }

    predicate HasNext() {
      position < |tokens|
    }

    /** The current token; reading past the end is an end-of-input error. */
    function Peek(): (r: Result<string, Error>)
      ensures r.Failure? <==> !HasNext()
      ensures r.Failure? ==> r.error == EndOfInput
      ensures r.Success? ==> r.value == tokens[position]
    {
      if !HasNext() then Failure(EndOfInput) else Success(tokens[position])
    }

    /** The current token, and the cursor moved one token on. */
    function Next(): (r: Result<(string, TokenReader), Error>)
      ensures r.Failure? <==> !HasNext()
      ensures r.Failure? ==> r.error == EndOfInput
      ensures r.Success? ==> r.value.0 == tokens[position]
      ensures r.Success? ==> r.value.1.tokens == tokens && r.value.1.position == position + 1
    {
      var token :- Peek();
      Success((token, TokenReader(tokens, position + 1)))
    }
  }

  /** The three delimited forms: `( )` lists, `[ ]` vectors, `{ }` maps. */
  datatype SeqKind = ListKind | VectorKind | MapKind

  function Opening(kind: SeqKind): string {
    match kind
    case ListKind => "("
    case VectorKind => "["
    case MapKind => "{"
  }

  function Closing(kind: SeqKind): string {
    match kind
    case ListKind => ")"
    case VectorKind => "]"
    case MapKind => "}"
  }

  /** The sequence factory of each kind; a map needs an even number of forms. */
  function Build(kind: SeqKind, elems: seq<Value>): (r: Result<Value, Error>)
    ensures r.Failure? <==> kind == MapKind && |elems| % 2 != 0
    ensures r.Success? && kind == ListKind ==> r.value == List(elems)
    ensures r.Success? && kind == VectorKind ==> r.value == Vector(elems)
    ensures r.Success? && kind == MapKind ==> r.value.HashMap? && DistinctKeys(r.value.entries)
  {
    match kind
    case ListKind => Success(List(elems))
    case VectorKind => Success(Vector(elems))
    case MapKind => ToMap(elems)
  }

  /** A form read, and the cursor left on the form's last token. */
  datatype Parsed = Parsed(value: Value, reader: TokenReader)

  /** The end of `readSequence`: the gathered elements made into the form,
      with the cursor on the closing delimiter. */
  function Close(kind: SeqKind, elems: seq<Value>, r: TokenReader): (res: Result<Parsed, Error>)
    ensures res.Failure? <==> Build(kind, elems).Failure?
    ensures res.Success? ==> res.value == Parsed(Build(kind, elems).value, r)
  {
    var v :- Build(kind, elems);
    Success(Parsed(v, r))
  }

  /** The cursor stayed over the same tokens, on a token of the form that
      began at `r.position`. */
  predicate Ends(r: TokenReader, p: Parsed) {
    p.reader.tokens == r.tokens && r.position <= p.reader.position < |r.tokens|
  }

  /** Comments are dropped from a delimited form's elements. */
  predicate NoComments(xs: seq<Value>) {
    forall i | 0 <= i < |xs| :: !xs[i].Comment?
  }

  /** A value that can only come from an atom token. */
  predicate IsAtom(v: Value) {
    v.Nil? || v.Boolean? || v.Number? || v.Keyword? || v.String? || v.Symbol?
  }

  /** `atomicCoercers`, tried in order: nil, boolean, integer, keyword,
      string, symbol. The symbol coercer accepts every token, so the
      "could not parse" error is unreachable. */
  function ReadAtomToken(token: string): (r: Result<Value, Error>)
    ensures r.Success? ==> IsAtom(r.value)
    ensures r.Failure? <==> CoerceToString(token).Failure?
    ensures r.Success? && r.value.Symbol? ==> r.value.name == token
  {
    match CoerceToNil(token)
    case Some(v) => Success(v)
    case None =>
      match CoerceToBoolean(token)
      case Some(v) => Success(v)
      case None =>
        match CoerceToInt(token)
        case Some(v) => Success(v)
        case None =>
          match CoerceToKeyword(token)
          case Some(v) => Success(v)
          case None =>
            var s :- CoerceToString(token);
            match s
            case Some(v) => Success(v)
            case None => Success(CoerceToSymbol(token))
  }

  /** `readAtom`: the atom at the cursor; the cursor does not move. */
  function ReadAtom(r: TokenReader): (res: Result<Value, Error>)
    ensures !r.HasNext() ==> res == Failure(EndOfInput)
    ensures r.HasNext() ==> res == ReadAtomToken(r.tokens[r.position])
  {
    var token :- r.Peek();
    ReadAtomToken(token)
  }

  /** `readForm`: a comment, a delimited form, or an atom, chosen by the
      token at the cursor. */
  function ReadForm(r: TokenReader): (res: Result<Parsed, Error>)
    requires r.Valid()
    ensures !r.HasNext() ==> res == Failure(EndOfInput)
    ensures res.Success? ==> Ends(r, res.value)
    ensures res.Success? && StartsWith(r.tokens[r.position], ';') ==>
      res.value.value.Comment? && res.value.reader == r
    ensures res.Success? && !StartsWith(r.tokens[r.position], ';') ==>
      match r.tokens[r.position]
      case "(" => res.value.value.List? && res.value.reader.tokens[res.value.reader.position] == ")"
      case "[" => res.value.value.Vector? && res.value.reader.tokens[res.value.reader.position] == "]"
      case "{" => res.value.value.HashMap? && res.value.reader.tokens[res.value.reader.position] == "}"
      case _ => IsAtom(res.value.value) && res.value.reader == r
    decreases |r.tokens| - r.position, 2
  {
    var token :- r.Peek();
    if StartsWith(token, ';') then Success(Parsed(Comment, r))
    else if token == "(" then ReadSequence(r, ListKind)
    else if token == "[" then ReadSequence(r, VectorKind)
    else if token == "{" then ReadSequence(r, MapKind)
    else
      var v :- ReadAtom(r);
      Success(Parsed(v, r))
  }

  /** `readSequence`: consume the opening delimiter, then read forms until
      the closing delimiter, which is left under the cursor. */
  function ReadSequence(r: TokenReader, kind: SeqKind): (res: Result<Parsed, Error>)
    requires r.Valid()
    ensures !r.HasNext() ==> res == Failure(EndOfInput)
    ensures r.HasNext() && r.tokens[r.position] != Opening(kind) ==>
      res == Failure(BadOpening(Opening(kind), r.tokens[r.position]))
    ensures res.Success? ==> Ends(r, res.value) && r.position < res.value.reader.position
    ensures res.Success? ==> res.value.reader.tokens[res.value.reader.position] == Closing(kind)
    ensures res.Success? && kind == ListKind ==> res.value.value.List? && NoComments(res.value.value.elems)
    ensures res.Success? && kind == VectorKind ==> res.value.value.Vector? && NoComments(res.value.value.elems)
    ensures res.Success? && kind == MapKind ==> res.value.value.HashMap? && DistinctKeys(res.value.value.entries)
    decreases |r.tokens| - r.position, 1
  {
    var (token, r1) :- r.Next();
    if token != Opening(kind) then Failure(BadOpening(Opening(kind), token))
    else ReadElements(r1, kind, [])
  }

  /** The loop of `readSequence`, with the elements gathered so far. */
  function ReadElements(r: TokenReader, kind: SeqKind, acc: seq<Value>): (res: Result<Parsed, Error>)
    requires r.Valid()
    ensures !r.HasNext() ==> res == Failure(EndOfInput)
    ensures res.Success? ==> Ends(r, res.value)
    ensures res.Success? ==> res.value.reader.tokens[res.value.reader.position] == Closing(kind)
    ensures res.Success? && kind != MapKind ==> IsSequence(res.value.value)
    ensures res.Success? && kind != MapKind && NoComments(acc) ==> NoComments(res.value.value.elems)
    ensures res.Success? && kind == ListKind ==> res.value.value.List?
    ensures res.Success? && kind == VectorKind ==> res.value.value.Vector?
    ensures res.Success? && kind == MapKind ==> res.value.value.HashMap? && DistinctKeys(res.value.value.entries)
    decreases |r.tokens| - r.position, 3
  {
    if !r.HasNext() then Failure(EndOfInput)
    else if r.tokens[r.position] == Closing(kind) then Close(kind, acc, r)
    else
      var p :- ReadForm(r);
      var acc' := if p.value.Comment? then acc else acc + [p.value];
      // `reader.next()`: the form ended on a token, so the step cannot fail
      ReadElements(TokenReader(r.tokens, p.reader.position + 1), kind, acc')
  }

  /** `readAST` after tokenizing: the first form of the token list. Tokens
      after that form are not looked at. */
  function ReadTokens(tokens: seq<string>): (r: Result<Value, Error>)
    ensures |tokens| == 0 ==> r == Failure(EndOfInput)
  {
    var p :- ReadForm(TokenReader(tokens, 0));
    Success(p.value)
  }
}

=== FILE: special_forms.dfy ===
/** The checks the special forms make on their unevaluated elements, and the
    binding of a closure's parameters to its arguments (`SpecialForms` in
    step4_if_fn_do.kt; step3_env.kt makes the same `def!` and `let*`
    checks). Evaluation itself is left to each evaluator stage. */
module SpecialForms {
  import opened Wrappers
  import opened Errors
  import opened Types
  import Core

  // ---------------------------------------------------------------------------
  // def!

  /** The checks of `defBinding` as written: the count check demands only
      two elements, so `(def! x)` passes it and then fails on reading the
      missing value form. */
  function DefShapeAsWritten(xs: seq<Value>): (r: Result<(string, Value), Error>)
    ensures r.Success? <==> |xs| >= 3 && xs[1].Symbol?
    ensures r.Success? ==> xs[1] == Symbol(r.value.0) && r.value.1 == xs[2]
    ensures |xs| < 2 ==> r == Failure(Arity(|xs|))
    ensures |xs| >= 2 && !xs[1].Symbol? ==> r == Failure(DefNameNotSymbol(AsTypeString(xs[1])))
    ensures |xs| == 2 && xs[1].Symbol? ==> r == Failure(IndexOutOfBounds(2, 2))
  {
    var given := |xs|;
    :- Core.ForceParity(given, 2, -1);
    if !xs[1].Symbol? then Failure(DefNameNotSymbol(AsTypeString(xs[1])))
    else if |xs| < 3 then Failure(IndexOutOfBounds(2, |xs|))
    else Success((xs[1].name, xs[2]))
  }

  /** The checks of `defBinding` with the count check demanding the value
      form as well: a name symbol and a value form, or an error. */
  function DefShape(xs: seq<Value>): (r: Result<(string, Value), Error>)
    ensures r.Success? <==> |xs| >= 3 && xs[1].Symbol?
    ensures r.Success? ==> xs[1] == Symbol(r.value.0) && r.value.1 == xs[2]
    ensures |xs| < 3 ==> r == Failure(Arity(|xs|))
    ensures |xs| >= 3 && !xs[1].Symbol? ==> r == Failure(DefNameNotSymbol(AsTypeString(xs[1])))
  {
    var given := |xs|;
    :- Core.ForceParity(given, 3, -1);
    if !xs[1].Symbol? then Failure(DefNameNotSymbol(AsTypeString(xs[1])))
    else Success((xs[1].name, xs[2]))
  }

  /** `(def! x)` reads past the end of the form as written, where the count
      check was evidently meant to reject it. */
  lemma DefMissingValue()
    ensures DefShapeAsWritten([Symbol("def!"), Symbol("x")]) == Failure(IndexOutOfBounds(2, 2))
    ensures DefShape([Symbol("def!"), Symbol("x")]) == Failure(Arity(2))
  {
  }

  /** The two differ on two-element forms only. */
  lemma DefShapesAgree(xs: seq<Value>)
    requires |xs| != 2
    ensures DefShapeAsWritten(xs) == DefShape(xs)
  {
  }

  // ---------------------------------------------------------------------------
  // let*

  /** The checks of `letBinding` on its binding form: a List or Vector with
      an even number of elements. */
  function LetBindings(b: Value): (r: Result<seq<Value>, Error>)
    ensures r.Success? <==> IsSequence(b) && |b.elems| % 2 == 0
    ensures r.Success? ==> r.value == b.elems
    ensures !IsSequence(b) ==> r == Failure(LetBindingsNotSequence(AsTypeString(b)))
    ensures IsSequence(b) && r.Failure? ==> r.error == OddBindings
  {
    if !IsSequence(b) then Failure(LetBindingsNotSequence(AsTypeString(b)))
    else if |b.elems| % 2 != 0 then Failure(OddBindings)
    else Success(b.elems)
  }

  // ---------------------------------------------------------------------------
  // fn*

  /** `bindings.elements.map { it as? KMalSymbol ?: throw … }`: the names of
      the parameter symbols, or an error naming the first non-symbol. */
  function SymbolNames(xs: seq<Value>): (r: Result<seq<string>, Error>)
    ensures r.Success? ==> |r.value| == |xs| && forall i | 0 <= i < |xs| :: xs[i] == Symbol(r.value[i])
    ensures r.Success? <==> forall i | 0 <= i < |xs| :: xs[i].Symbol?
    ensures r.Failure? ==> exists k | 0 <= k < |xs| ::
              && !xs[k].Symbol?
              && (forall i | 0 <= i < k :: xs[i].Symbol?)
              && r.error == ParamNotSymbol(AsTypeString(xs[k]))
    decreases |xs|
  {
    if |xs| == 0 then Success([])
    else if !xs[0].Symbol? then Failure(ParamNotSymbol(AsTypeString(xs[0])))
    else
      var rest :- (assert forall i | 1 <= i < |xs| :: xs[1..][i - 1] == xs[i]; SymbolNames(xs[1..]));
      Success([xs[0].name] + rest)
  }

  /** The checks of `createLambda`: exactly three elements, a List or Vector
      of symbols as parameters; gives the parameter names and the body. */
  function LambdaShape(xs: seq<Value>): (r: Result<(seq<string>, Value), Error>)
    ensures r.Success? ==> |xs| == 3 && IsSequence(xs[1]) && r.value.1 == xs[2]
    ensures r.Success? ==> |r.value.0| == |xs[1].elems| && forall i | 0 <= i < |r.value.0| :: xs[1].elems[i] == Symbol(r.value.0[i])
    ensures |xs| != 3 ==> r == Failure(Arity(|xs|))
    ensures |xs| == 3 && !IsSequence(xs[1]) ==> r == Failure(ParamsNotSequence(AsTypeString(xs[1])))
  {
    var given := |xs|;
    :- Core.ForceParity(given, 3, 3);
    if !IsSequence(xs[1]) then Failure(ParamsNotSequence(AsTypeString(xs[1])))
    else
      var names :- SymbolNames(xs[1].elems);
      Success((names, xs[2]))
  }

  /** `isVariadic`: the second-last parameter is `&`. */
  predicate IsVariadic(params: seq<string>) {
    |params| >= 2 && params[|params| - 2] == "&"
  }

  /** `validateVariadic` from position `i` on. */
  function ValidateFrom(params: seq<string>, i: nat): (r: Outcome<Error>)
    ensures r.Pass? <==> forall j | i <= j < |params| :: params[j] == "&" ==> j == |params| - 2
    ensures r.Fail? ==> && r.error.MisplacedVariadic?
                        && i <= r.error.position < |params|
                        && params[r.error.position] == "&"
                        && r.error.position != |params| - 2
                        && r.error.required == |params| - 2
                        && forall j | i <= j < r.error.position :: params[j] == "&" ==> j == |params| - 2
    decreases |params| - i
  {
    if i >= |params| then Pass
    else if params[i] == "&" && i != |params| - 2 then Fail(MisplacedVariadic(i, |params| - 2))
    else ValidateFrom(params, i + 1)
  }

  /** `validateVariadic`: `&` may only be the second-last parameter; the
      error reports the first other position it is found at. */
  function ValidateVariadic(params: seq<string>): (r: Outcome<Error>)
    ensures r.Pass? <==> forall j | 0 <= j < |params| :: params[j] == "&" ==> j == |params| - 2
    ensures r.Fail? ==> && r.error.MisplacedVariadic?
                        && r.error.position < |params|
                        && params[r.error.position] == "&"
                        && r.error.position != |params| - 2
                        && forall j | 0 <= j < r.error.position :: params[j] == "&" ==> j == |params| - 2
  {
    ValidateFrom(params, 0)
  }

  /** The binding loop of a variadic call from parameter `i` on: each
      parameter takes the argument at its position until `&`, whose
      following parameter takes the list of all remaining arguments. */
  function VariadicPairs(params: seq<string>, args: seq<Value>, i: nat): (r: seq<(string, Value)>)
    requires IsVariadic(params) && i <= |params| - 2 && |args| >= |params| - 2
    requires forall j | i <= j < |params| :: params[j] == "&" ==> j == |params| - 2
    ensures forall j | 0 <= j < |r| :: r[j].0 in params
    decreases |params| - i
  {
    if params[i] == "&" then [(params[i + 1], List(args[i..]))]
    else [(params[i], args[i])] + VariadicPairs(params, args, i + 1)
  }

  /** The pairs the variadic loop produces: every parameter before `&` with
      its own argument, then the last parameter with the rest as a List. */
  lemma {:induction false} VariadicPairsShape(params: seq<string>, args: seq<Value>, i: nat)
    requires IsVariadic(params) && i <= |params| - 2 && |args| >= |params| - 2
    requires forall j | i <= j < |params| :: params[j] == "&" ==> j == |params| - 2
    ensures |VariadicPairs(params, args, i)| == |params| - 1 - i
    ensures forall j | i <= j < |params| - 2 :: VariadicPairs(params, args, i)[j - i] == (params[j], args[j])
    ensures VariadicPairs(params, args, i)[|params| - 2 - i] == (params[|params| - 1], List(args[|params| - 2..]))
    decreases |params| - i
  {
    if params[i] != "&" {
      VariadicPairsShape(params, args, i + 1);
    }
  }

  /** The parameter bindings of a closure call, in the order the source sets
      them into the fresh frame. A variadic parameter list demands at least
      as many arguments as there are parameters before `&`, and `&` nowhere
      else; any other parameter list demands exactly one argument per
      parameter (a misplaced `&` there is an ordinary name). */
  function ParamBindings(params: seq<string>, args: seq<Value>): (r: Result<seq<(string, Value)>, Error>)
    ensures !IsVariadic(params) ==> (r.Success? <==> |args| == |params|)
    ensures !IsVariadic(params) && r.Success? ==> r.value == seq(|params|, i requires 0 <= i < |params| => (params[i], args[i]))
    ensures IsVariadic(params) ==> (r.Success? <==> |args| >= |params| - 2 && forall j | 0 <= j < |params| :: params[j] == "&" ==> j == |params| - 2)
    ensures !IsVariadic(params) && r.Failure? ==> r.error == Arity(|args|)
    ensures r.Failure? && |args| < |params| - 2 ==> r.error == Arity(|args|)
    ensures IsVariadic(params) && r.Failure? && |args| >= |params| - 2 ==> r.error.MisplacedVariadic?
    ensures r.Success? ==> forall j | 0 <= j < |r.value| :: r.value[j].0 in params
  {
    if IsVariadic(params) then
      :- Core.ForceParity(|args|, |params| - 2, -1);
      :- ValidateVariadic(params);
      Success(VariadicPairs(params, args, 0))
    else
      :- Core.ForceParity(|args|, |params|, |params|);
      Success(seq(|params|, i requires 0 <= i < |params| => (params[i], args[i])))
  }

  /** A successful variadic binding pairs each parameter before `&` with its
      argument and the parameter after `&` with a List of the rest. */
  lemma VariadicBindings(params: seq<string>, args: seq<Value>)
    requires IsVariadic(params) && ParamBindings(params, args).Success?
    ensures |ParamBindings(params, args).value| == |params| - 1
    ensures forall j | 0 <= j < |params| - 2 :: ParamBindings(params, args).value[j] == (params[j], args[j])
    ensures ParamBindings(params, args).value[|params| - 2] == (params[|params| - 1], List(args[|params| - 2..]))
  {
    VariadicPairsShape(params, args, 0);
  }

  /** `(fn* (a & more) …)` called with 1, 2 and 3 binds `a` to 1 and `more`
      to `(2 3)`. */
  lemma VariadicExample()
    ensures ParamBindings(["a", "&", "more"], [Number(1), Number(2), Number(3)])
      == Success([("a", Number(1)), ("more", List([Number(2), Number(3)]))])
  {
    var params := ["a", "&", "more"];
    var args := [Number(1), Number(2), Number(3)];
    assert IsVariadic(params);
    assert params[0] != "&" && params[2] != "&";
    assert ValidateVariadic(params).Pass?;
    VariadicBindings(params, args);
    assert args[1..] == [Number(2), Number(3)];
    var bound := ParamBindings(params, args).value;
    assert bound[0] == ("a", Number(1)) && bound[1] == ("more", List([Number(2), Number(3)]));
    assert bound == [("a", Number(1)), ("more", List([Number(2), Number(3)]))];
  }
}

=== FILE: step2.dfy ===
/** Evaluator stage 2 (`Step2Eval`): a flat, fixed map from names to
    builtins, no special forms. A non-empty list is evaluated element by
    element and its head applied to the rest. */
module Step2 {
  import opened Wrappers
  import opened Errors
  import opened Types
  import Core
  import Reader

  /** The environment of this stage: each name stands for a builtin. */
  type Env = map<string, Builtin>

  /** The environment the stage-2 REPL starts with. */
  function ReplEnv(): (env: Env)
    ensures env.Keys == {"+", "-", "*", "/", "=", "println"}
  {
    map["+" := Builtin.Add, "-" := Builtin.Subtract, "*" := Builtin.Multiply,
        "/" := Builtin.Divide, "=" := Builtin.Equals, "println" := Builtin.Println]
  }

  /** `EVAL`: anything but a list goes to `EvalAst`; the empty list is its own
      value; otherwise every element is evaluated and the first is applied to
      the others. */
  function Eval(ast: Value, env: Env): (r: Result<Value, Error>)
    ensures ast.List? && |ast.elems| == 0 ==> r == Success(ast)
    ensures !ast.List? ==> r == EvalAst(ast, env)
    decreases ast, 2
  {
    if !ast.List? then EvalAst(ast, env)
    else if |ast.elems| == 0 then Success(ast)
    else
      var evaluated :- EvalAll(ast.elems, env);
      Apply(evaluated[0], evaluated[1..])
  }

  /** `evalAST`: a symbol is looked up, a list or vector has each element
      evaluated, a map has its flattened keys and values evaluated and is
      rebuilt; everything else is its own value. */
  function EvalAst(ast: Value, env: Env): (r: Result<Value, Error>)
    ensures ast.Symbol? ==> (r.Failure? <==> ast.name !in env)
    ensures ast.Symbol? && r.Failure? ==> r.error == Unbound(ast.name)
    ensures ast.List? && r.Success? ==> r.value.List? && |r.value.elems| == |ast.elems|
    ensures ast.Vector? && r.Success? ==> r.value.Vector? && |r.value.elems| == |ast.elems|
    ensures ast.HashMap? && r.Success? ==> r.value.HashMap? && DistinctKeys(r.value.entries)
    ensures !(ast.Symbol? || IsSequence(ast) || ast.HashMap?) ==> r == Success(ast)
    decreases ast, 1
  {
    match ast
    case Symbol(name) =>
      if name in env then Success(Func(Native(env[name]))) else Failure(Unbound(name))
    case List(xs) =>
      var ys :- EvalAll(xs, env);
      Success(List(ys))
    case Vector(xs) =>
      var ys :- EvalAll(xs, env);
      Success(Vector(ys))
    case HashMap(es) =>
      var kvs :- EvalEntries(es, env);
      Types.ToMap(kvs)
    case _ => Success(ast)
  }

  /** Every element evaluated, left to right; the first error ends it. */
  function EvalAll(xs: seq<Value>, env: Env): (r: Result<seq<Value>, Error>)
    ensures r.Success? ==> |r.value| == |xs|
    decreases xs, 0
  {
    if |xs| == 0 then Success([])
    else
      var y :- Eval(xs[0], env);
      var ys :- EvalAll(xs[1..], env);
      Success([y] + ys)
  }

  /** The keys and values of a map evaluated in `toList` order: key, value,
      next key, … */
  function EvalEntries(es: seq<Entry>, env: Env): (r: Result<seq<Value>, Error>)
    ensures r.Success? ==> |r.value| == 2 * |es|
    decreases es, 0
  {
    if |es| == 0 then Success([])
    else
      var kv :- EvalEntry(es[0], env);
      var rest :- EvalEntries(es[1..], env);
      Success(kv + rest)
  }

  function EvalEntry(e: Entry, env: Env): (r: Result<seq<Value>, Error>)
    ensures r.Success? ==> |r.value| == 2
    decreases e, 0
  {
    var k :- Eval(e.key, env);
    var v :- Eval(e.val, env);
    Success([k, v])
  }

  /** Calling the evaluated head: a builtin runs on the arguments; anything
      else is not a function. This stage has no way to create a closure, so
      it does not run one either. */
  function Apply(head: Value, args: seq<Value>): (r: Result<Value, Error>)
    ensures !head.Func? ==> r == Failure(NotAFunction(AsTypeString(head)))
    ensures head.Func? && head.fn.Native? ==> r == Core.Apply(head.fn.op, args)
  {
    if head.Func? && head.fn.Native? then Core.Apply(head.fn.op, args)
    else Failure(NotAFunction(AsTypeString(head)))
  }

  /** `PRINT`: a comment prints nothing; anything else prints readably. */
  function Print(v: Value): (r: Option<string>)
    ensures r.None? <==> v.Comment?
  {
    if v.Comment? then None else Some(AsString(v, true))
  }

  /** `REP` on a token list: read one form, evaluate it, print it. */
  function Rep(tokens: seq<string>, env: Env): (r: Result<Option<string>, Error>)
    ensures |tokens| == 0 ==> r == Failure(EndOfInput)
  {
    var ast :- Reader.ReadTokens(tokens);
    var v :- Eval(ast, env);
    Success(Print(v))
  }

  // ---------------------------------------------------------------------------
  // Properties

  /** Evaluating a sequence is evaluating each element on its own: it
      succeeds exactly when every element does, with the elements' values in
      order, and otherwise fails with the error of the first element that
      fails. */
  lemma {:induction false} EvalAllPointwise(xs: seq<Value>, env: Env)
    ensures EvalAll(xs, env).Success? <==> forall i | 0 <= i < |xs| :: Eval(xs[i], env).Success?
    ensures EvalAll(xs, env).Success? ==> forall i | 0 <= i < |xs| :: EvalAll(xs, env).value[i] == Eval(xs[i], env).value
    ensures EvalAll(xs, env).Failure? ==> exists k | 0 <= k < |xs| ::
              && (forall i | 0 <= i < k :: Eval(xs[i], env).Success?)
              && Eval(xs[k], env).Failure?
              && EvalAll(xs, env).error == Eval(xs[k], env).error
    decreases |xs|
  {
    if |xs| > 0 {
      EvalAllPointwise(xs[1..], env);
      if Eval(xs[0], env).Success? && EvalAll(xs[1..], env).Failure? {
        var k :| 0 <= k < |xs[1..]|
          && (forall i | 0 <= i < k :: Eval(xs[1..][i], env).Success?)
          && Eval(xs[1..][k], env).Failure?
          && EvalAll(xs[1..], env).error == Eval(xs[1..][k], env).error;
        assert Eval(xs[k + 1], env) == Eval(xs[1..][k], env);
        forall i | 0 <= i < k + 1 ensures Eval(xs[i], env).Success? {
          if i > 0 { assert xs[i] == xs[1..][i - 1]; }
        }
      }
      if forall i | 0 <= i < |xs| :: Eval(xs[i], env).Success? {
        forall i | 0 <= i < |xs[1..]| ensures Eval(xs[1..][i], env).Success? {
          assert xs[1..][i] == xs[i + 1];
        }
      }
      if EvalAll(xs, env).Success? {
        forall i | 0 <= i < |xs| ensures Eval(xs[i], env).Success? {
          if i > 0 { assert xs[i] == xs[1..][i - 1]; }
        }
      }
    }
  }

  /** Evaluating a map entry by entry is evaluating its flattened list, as
      the source does. */
  lemma {:induction false} EvalEntriesFlat(es: seq<Entry>, env: Env)
    ensures EvalEntries(es, env) == EvalAll(ToList(es), env)
    decreases |es|
  {
    if |es| > 0 {
      var flat := ToList(es);
      assert flat == [es[0].key, es[0].val] + ToList(es[1..]);
      assert flat[1..] == [es[0].val] + ToList(es[1..]);
      assert flat[1..][1..] == ToList(es[1..]);
      EvalEntriesFlat(es[1..], env);
      match Eval(es[0].key, env)
      case Failure(_) =>
      case Success(k) =>
        match Eval(es[0].val, env)
        case Failure(_) =>
        case Success(v) =>
          match EvalAll(ToList(es[1..]), env)
          case Failure(_) =>
          case Success(rest) =>
            assert [k, v] + rest == [k] + ([v] + rest);
    }
  }

  /** A value with nothing to evaluate in it: no symbol, no non-empty list,
      and maps with distinct keys (every map the reader builds has them). */
  predicate Constant(v: Value)
    decreases v
  {
    match v
    case Symbol(_) => false
    case List(xs) => |xs| == 0
    case Vector(xs) => forall i | 0 <= i < |xs| :: Constant(xs[i])
    case HashMap(es) => DistinctKeys(es) && forall i | 0 <= i < |es| :: Constant(es[i].key) && Constant(es[i].val)
    case _ => true
  }

  /** A constant evaluates to itself: evaluation of collections keeps their
      kind, their order and (for maps) their entries. */
  lemma {:induction false} ConstantEval(v: Value, env: Env)
    requires Constant(v)
    ensures Eval(v, env) == Success(v)
    decreases v
  {
    match v
    case Vector(xs) =>
      forall i | 0 <= i < |xs| ensures Eval(xs[i], env) == Success(xs[i]) {
        ConstantEval(xs[i], env);
      }
      EvalAllPointwise(xs, env);
      assert EvalAll(xs, env).value == xs;
    case HashMap(es) =>
      var flat := ToList(es);
      forall i | 0 <= i < |flat| ensures Eval(flat[i], env) == Success(flat[i]) {
        var j := i / 2;
        if i % 2 == 0 {
          assert flat[i] == es[j].key;
          ConstantEval(es[j].key, env);
        } else {
          assert flat[i] == es[j].val;
          ConstantEval(es[j].val, env);
        }
      }
      EvalAllPointwise(flat, env);
      assert EvalAll(flat, env).value == flat;
      EvalEntriesFlat(es, env);
      MapRoundTrip(es);
    case _ =>
  }

  /** The call step of `eval`: when every element of a non-empty list
      evaluates, the list's value is the head's value applied to the
      remaining elements' values, in order. */
  lemma CallApplies(xs: seq<Value>, env: Env)
    requires |xs| > 0 && forall i | 0 <= i < |xs| :: Eval(xs[i], env).Success?
    ensures var vs := seq(|xs|, i requires 0 <= i < |xs| => Eval(xs[i], env).value);
      Eval(List(xs), env) == Apply(vs[0], vs[1..])
  {
    EvalAllPointwise(xs, env);
    var vs := seq(|xs|, i requires 0 <= i < |xs| => Eval(xs[i], env).value);
    assert EvalAll(xs, env).value == vs;
  }

  /** A call whose `k`-th element is the first to fail fails with that
      element's error, before anything is applied. */
  lemma CallFails(xs: seq<Value>, env: Env, k: nat)
    requires k < |xs| && Eval(xs[k], env).Failure?
    requires forall i | 0 <= i < k :: Eval(xs[i], env).Success?
    ensures Eval(List(xs), env) == Failure(Eval(xs[k], env).error)
  {
    EvalAllPointwise(xs, env);
    var j :| 0 <= j < |xs|
      && (forall i | 0 <= i < j :: Eval(xs[i], env).Success?)
      && Eval(xs[j], env).Failure?
      && EvalAll(xs, env).error == Eval(xs[j], env).error;
    if j != k {
      assert false;
    }
  }

  /** A list whose elements all evaluate but whose head is not a function
      is an error naming the head's type. */
  lemma HeadNotAFunction(xs: seq<Value>, env: Env)
    requires |xs| > 0 && forall i | 0 <= i < |xs| :: Eval(xs[i], env).Success?
    requires !Eval(xs[0], env).value.Func?
    ensures Eval(List(xs), env) == Failure(NotAFunction(AsTypeString(Eval(xs[0], env).value)))
  {
    CallApplies(xs, env);
  }

  /** A call headed by a bound symbol applies that builtin, through the core
      library, to the arguments' values. */
  lemma BuiltinCall(name: string, args: seq<Value>, env: Env)
    requires name in env && forall i | 0 <= i < |args| :: Eval(args[i], env).Success?
    ensures Eval(List([Symbol(name)] + args), env)
      == Core.Apply(env[name], seq(|args|, i requires 0 <= i < |args| => Eval(args[i], env).value))
  {
    var xs := [Symbol(name)] + args;
    forall i | 0 <= i < |xs| ensures Eval(xs[i], env).Success? {
      if i > 0 { assert xs[i] == args[i - 1]; }
    }
    CallApplies(xs, env);
    var vs := seq(|xs|, i requires 0 <= i < |xs| => Eval(xs[i], env).value);
    assert vs[0] == Func(Native(env[name]));
    assert vs[1..] == seq(|args|, i requires 0 <= i < |args| => Eval(args[i], env).value);
  }

  /** `(+ 1 2)` in the REPL environment is 3. */
  lemma AddExample()
    ensures Eval(List([Symbol("+"), Number(1), Number(2)]), ReplEnv()) == Success(Number(3))
  {
    var xs := [Symbol("+"), Number(1), Number(2)];
    assert xs[1..] == [Number(1), Number(2)];
    assert xs[1..][1..] == [Number(2)];
    var ys := [Func(Native(Builtin.Add)), Number(1), Number(2)];
    forall i | 0 <= i < 3 ensures Eval(xs[i], ReplEnv()) == Success(ys[i]) { }
    EvalAllPointwise(xs, ReplEnv());
    assert EvalAll(xs, ReplEnv()).value == ys;
    Core.ArithmeticSum([Number(1), Number(2)]);
    assert [Number(1), Number(2)][1..] == [Number(2)];
  }

  /** A non-function head is reported with its type: `(1 2)` fails. */
  lemma NotAFunctionExample()
    ensures Eval(List([Number(1), Number(2)]), ReplEnv()) == Failure(NotAFunction("Number"))
  {
    var xs := [Number(1), Number(2)];
    assert xs[1..] == [Number(2)];
    forall i | 0 <= i < 2 ensures Eval(xs[i], ReplEnv()) == Success(xs[i]) { }
    EvalAllPointwise(xs, ReplEnv());
    assert EvalAll(xs, ReplEnv()).value == xs;
  }
}

=== FILE: step3.dfy ===
/** Evaluator stage 3 (`Step3Eval`): environments with parents, and the
    special forms `def!` and `let*`. Evaluation threads the environment
    arena through; an error keeps the bindings made before it. */
module Step3 {
  import opened Wrappers
  import opened Errors
  import opened Types
  import opened Env
  import Core
  import Reader
  import Step2
  import SpecialForms

  /** The outcome of an evaluation and the environments after it. */
  datatype Evaluated<T> = Evaluated(result: Result<T, Error>, envs: Envs)

  /** The environment the stage-3 REPL starts with: one root frame. */
  function ReplEnvs(): (e: Envs)
    ensures WellFormed(e) && |e.frames| == 1
    ensures forall name | name in Step2.ReplEnv() :: Get(e, 0, name) == Success(Func(Native(Step2.ReplEnv()[name])))
  {
    var env := Step2.ReplEnv();
    Root(map name | name in env :: Func(Native(env[name])))
  }

  /** `EVAL` in frame `f`: anything but a list goes to `EvalAst`; the empty
      list is its own value; a list headed by the symbol `def!` or `let*` is
      that special form; any other list is evaluated and its head applied. */
  function Eval(ast: Value, e: Envs, f: nat): (r: Evaluated<Value>)
    ensures ChangesOnly(e, r.envs, f)
    ensures ast.List? && |ast.elems| == 0 ==> r == Evaluated(Success(ast), e)
    decreases ast, 2
  {
    if !ast.List? then EvalAst(ast, e, f)
    else if |ast.elems| == 0 then Evaluated(Success(ast), e)
    else if ast.elems[0] == Symbol("def!") then Def(ast.elems, e, f)
    else if ast.elems[0] == Symbol("let*") then Let(ast.elems, e, f)
    else
      var ev := EvalAll(ast.elems, e, f);
      Evaluated((var vs :- ev.result; Step2.Apply(vs[0], vs[1..])), ev.envs)
  }

  /** `evalAST`: a symbol is looked up through the frames; a list or vector
      has each element evaluated; a map has its flattened keys and values
      evaluated and is rebuilt; everything else is its own value. */
  function EvalAst(ast: Value, e: Envs, f: nat): (r: Evaluated<Value>)
    ensures ChangesOnly(e, r.envs, f)
    ensures ast.Symbol? ==> r == Evaluated(Get(e, f, ast.name), e)
    ensures ast.List? && r.result.Success? ==> r.result.value.List? && |r.result.value.elems| == |ast.elems|
    ensures ast.Vector? && r.result.Success? ==> r.result.value.Vector? && |r.result.value.elems| == |ast.elems|
    ensures ast.HashMap? && r.result.Success? ==> r.result.value.HashMap? && DistinctKeys(r.result.value.entries)
    ensures !(ast.Symbol? || IsSequence(ast) || ast.HashMap?) ==> r == Evaluated(Success(ast), e)
    decreases ast, 1
  {
    match ast
    case Symbol(name) => Evaluated(Get(e, f, name), e)
    case List(xs) =>
      var ev := EvalAll(xs, e, f);
      Evaluated((var ys :- ev.result; Success(List(ys))), ev.envs)
    case Vector(xs) =>
      var ev := EvalAll(xs, e, f);
      Evaluated((var ys :- ev.result; Success(Vector(ys))), ev.envs)
    case HashMap(es) =>
      var ev := EvalEntries(es, e, f);
      Evaluated((var kvs :- ev.result; Types.ToMap(kvs)), ev.envs)
    case _ => Evaluated(Success(ast), e)
  }

  /** Every element evaluated in turn, each seeing the bindings the ones
      before it made; the first error ends it. */
  function EvalAll(xs: seq<Value>, e: Envs, f: nat): (r: Evaluated<seq<Value>>)
    ensures ChangesOnly(e, r.envs, f)
    ensures r.result.Success? ==> |r.result.value| == |xs|
    decreases xs, 0
  {
    if |xs| == 0 then Evaluated(Success([]), e)
    else
      var first := Eval(xs[0], e, f);
      match first.result
      case Failure(err) => Evaluated(Failure(err), first.envs)
      case Success(y) =>
        var rest := EvalAll(xs[1..], first.envs, f);
        ChangesOnlyTrans(e, first.envs, rest.envs, f);
        Evaluated((var ys :- rest.result; Success([y] + ys)), rest.envs)
  }

  /** The keys and values of a map, evaluated in `toList` order. */
  function EvalEntries(es: seq<Entry>, e: Envs, f: nat): (r: Evaluated<seq<Value>>)
    ensures ChangesOnly(e, r.envs, f)
    ensures r.result.Success? ==> |r.result.value| == 2 * |es|
    decreases es, 0
  {
    if |es| == 0 then Evaluated(Success([]), e)
    else
      var first := EvalEntry(es[0], e, f);
      match first.result
      case Failure(err) => Evaluated(Failure(err), first.envs)
      case Success(kv) =>
        var rest := EvalEntries(es[1..], first.envs, f);
        ChangesOnlyTrans(e, first.envs, rest.envs, f);
        Evaluated((var kvs :- rest.result; Success(kv + kvs)), rest.envs)
  }

  function EvalEntry(en: Entry, e: Envs, f: nat): (r: Evaluated<seq<Value>>)
    ensures ChangesOnly(e, r.envs, f)
    ensures r.result.Success? ==> |r.result.value| == 2
    decreases en, 0
  {
    var key := Eval(en.key, e, f);
    match key.result
    case Failure(err) => Evaluated(Failure(err), key.envs)
    case Success(k) =>
      var val := Eval(en.val, key.envs, f);
      ChangesOnlyTrans(e, key.envs, val.envs, f);
      Evaluated((var v :- val.result; Success([k, v])), val.envs)
  }

  /** `defBinding`: the value form is evaluated in frame `f` and bound there
      under the name; the value is the result. */
  function Def(xs: seq<Value>, e: Envs, f: nat): (r: Evaluated<Value>)
    ensures ChangesOnly(e, r.envs, f)
    ensures SpecialForms.DefShapeAsWritten(xs).Failure? ==> r == Evaluated(Failure(SpecialForms.DefShapeAsWritten(xs).error), e)
    decreases xs, 1
  {
    match SpecialForms.DefShapeAsWritten(xs)
    case Failure(err) => Evaluated(Failure(err), e)
    case Success((name, form)) =>
      var ev := Eval(form, e, f);
      match ev.result
      case Failure(err) => Evaluated(Failure(err), ev.envs)
      case Success(v) =>
        ChangesOnlySet(ev.envs, f, name, v);
        ChangesOnlyTrans(e, ev.envs, Set(ev.envs, f, name, v), f);
        Evaluated(Success(v), Set(ev.envs, f, name, v))
  }

  /** `letBinding`: exactly three elements; a new child frame of `f`; the
      bindings, a sequence of even length, bound pair by pair in the child;
      the body evaluated in the child. No frame that existed before changes. */
  function Let(xs: seq<Value>, e: Envs, f: nat): (r: Evaluated<Value>)
    ensures ChangesOnly(e, r.envs, -1)
    ensures r.envs.frames[..|e.frames|] == e.frames
    ensures |xs| != 3 ==> r == Evaluated(Failure(Arity(|xs|)), e)
    decreases xs, 1
  {
    match Core.ForceParity(|xs|, 3, 3)
    case Fail(err) => Evaluated(Failure(err), e)
    case Pass =>
      var (e1, c) := NewChild(e, f);
      match SpecialForms.LetBindings(xs[1])
      case Failure(err) =>
        assert e1.frames[..|e.frames|] == e.frames;
        Evaluated(Failure(err), e1)
      case Success(bs) =>
        var bound := LetPairs(bs, e1, c);
        var body := if bound.result.Success? then Eval(xs[2], bound.envs, c) else Evaluated(Failure(bound.result.error), bound.envs);
        ChangesOnlyTrans(e1, bound.envs, body.envs, c);
        assert ChangesOnly(e, body.envs, c);
        ChangesOnlyNew(e, body.envs, c);
        body
  }

  /** The binding loop of `letBinding`: each name must be a symbol; its value
      form is evaluated in the child frame `c`, seeing the earlier pairs, and
      bound there. */
  function LetPairs(bs: seq<Value>, e: Envs, c: nat): (r: Evaluated<()>)
    requires |bs| % 2 == 0
    ensures ChangesOnly(e, r.envs, c)
    decreases bs, 0
  {
    if |bs| == 0 then Evaluated(Success(()), e)
    else if !bs[0].Symbol? then Evaluated(Failure(BindingNotSymbol(AsTypeString(bs[0]))), e)
    else
      var ev := Eval(bs[1], e, c);
      match ev.result
      case Failure(err) => Evaluated(Failure(err), ev.envs)
      case Success(v) =>
        var e2 := Set(ev.envs, c, bs[0].name, v);
        var rest := LetPairs(bs[2..], e2, c);
        ChangesOnlySet(ev.envs, c, bs[0].name, v);
        ChangesOnlyTrans(e, ev.envs, e2, c);
        ChangesOnlyTrans(e, e2, rest.envs, c);
        rest
  }

  /** `REP` on a token list in frame `f`: read one form, evaluate, print. */
  function Rep(tokens: seq<string>, e: Envs, f: nat): (r: (Result<Option<string>, Error>, Envs))
    ensures ChangesOnly(e, r.1, f)
    ensures |tokens| == 0 ==> r == (Failure(EndOfInput), e)
  {
    match Reader.ReadTokens(tokens)
    case Failure(err) => (Failure(err), e)
    case Success(ast) =>
      var ev := Eval(ast, e, f);
      ((var v :- ev.result; Success(Step2.Print(v))), ev.envs)
  }

  // ---------------------------------------------------------------------------
  // Properties

  /** `(def! name form)` evaluates the form in frame `f`, binds the value in
      `f` itself, and returns it; afterwards the name looks up to it from `f`. */
  lemma DefBinds(name: string, form: Value, e: Envs, f: nat)
    requires f < |e.frames|
    requires Eval(form, e, f).result.Success?
    ensures var v := Eval(form, e, f).result.value;
      && Eval(List([Symbol("def!"), Symbol(name), form]), e, f)
         == Evaluated(Success(v), Set(Eval(form, e, f).envs, f, name, v))
      && Get(Eval(List([Symbol("def!"), Symbol(name), form]), e, f).envs, f, name) == Success(v)
  {
    var ev := Eval(form, e, f);
    assert ChangesOnly(e, ev.envs, f);
    GetSetSame(ev.envs, f, name, ev.result.value);
  }

  /** `def!` with a name that is not a symbol fails before evaluating
      anything, and binds nothing. */
  lemma DefNeedsSymbol(xs: seq<Value>, e: Envs, f: nat)
    requires |xs| >= 2 && xs[0] == Symbol("def!") && !xs[1].Symbol?
    ensures Eval(List(xs), e, f) == Evaluated(Failure(DefNameNotSymbol(AsTypeString(xs[1]))), e)
  {
  }

  /** `let*` never changes a frame that existed before it, in particular not
      the frame it was evaluated in: its bindings live in the child only. */
  lemma LetLeavesParent(xs: seq<Value>, e: Envs, f: nat)
    requires |xs| > 0 && xs[0] == Symbol("let*")
    ensures Eval(List(xs), e, f).envs.frames[..|e.frames|] == e.frames
  {
  }

  /** The shape errors of `let*`, in the order the source checks them. */
  lemma LetShapeErrors(xs: seq<Value>, e: Envs, f: nat)
    requires |xs| > 0 && xs[0] == Symbol("let*")
    ensures |xs| != 3 ==> Eval(List(xs), e, f).result == Failure(Arity(|xs|))
    ensures |xs| == 3 && !IsSequence(xs[1]) ==> Eval(List(xs), e, f).result == Failure(LetBindingsNotSequence(AsTypeString(xs[1])))
    ensures |xs| == 3 && IsSequence(xs[1]) && |xs[1].elems| % 2 != 0 ==> Eval(List(xs), e, f).result == Failure(OddBindings)
    ensures |xs| == 3 && IsSequence(xs[1]) && |xs[1].elems| % 2 == 0 && |xs[1].elems| > 0 && !xs[1].elems[0].Symbol? ==>
      Eval(List(xs), e, f).result == Failure(BindingNotSymbol(AsTypeString(xs[1].elems[0])))
  {
    assert Eval(List(xs), e, f) == Let(xs, e, f);
    if |xs| == 3 && IsSequence(xs[1]) && |xs[1].elems| % 2 == 0 {
      assert SpecialForms.LetBindings(xs[1]) == Success(xs[1].elems);
      var (e1, c) := NewChild(e, f);
      if |xs[1].elems| > 0 && !xs[1].elems[0].Symbol? {
        assert LetPairs(xs[1].elems, e1, c).result == Failure(BindingNotSymbol(AsTypeString(xs[1].elems[0])));
      }
    }
  }

  /** The binding loop runs its pairs in order: binding `a + b` is binding
      `a` and then, unless that failed, binding `b` in the frames `a` left. */
  lemma {:induction false} LetPairsSplit(a: seq<Value>, b: seq<Value>, e: Envs, c: nat)
    requires |a| % 2 == 0 && |b| % 2 == 0
    ensures var first := LetPairs(a, e, c);
      LetPairs(a + b, e, c) == if first.result.Failure? then first else LetPairs(b, first.envs, c)
    decreases |a|
  {
    if |a| == 0 {
      assert a + b == b;
    } else {
      var ab := a + b;
      assert ab[0] == a[0] && ab[1] == a[1];
      assert ab[2..] == a[2..] + b;
      if a[0].Symbol? {
        var ev := Eval(a[1], e, c);
        if ev.result.Success? {
          LetPairsSplit(a[2..], b, Set(ev.envs, c, a[0].name, ev.result.value), c);
        }
      }
    }
  }

  /** The pair at even position `k`, once the pairs before it are bound: a
      name that is not a symbol is an error naming its type; otherwise the
      value form is evaluated in the child, seeing the earlier pairs, and
      its value bound there before the remaining pairs. */
  lemma LetPairAt(bs: seq<Value>, k: nat, e: Envs, c: nat)
    requires |bs| % 2 == 0 && k % 2 == 0 && k < |bs|
    requires LetPairs(bs[..k], e, c).result.Success?
    ensures var before := LetPairs(bs[..k], e, c).envs;
      && (!bs[k].Symbol? ==>
            LetPairs(bs, e, c) == Evaluated(Failure(BindingNotSymbol(AsTypeString(bs[k]))), before))
      && (bs[k].Symbol? ==>
            LetPairs(bs, e, c)
              == (var ev := Eval(bs[k + 1], before, c);
                  if ev.result.Failure? then Evaluated(Failure(ev.result.error), ev.envs)
                  else LetPairs(bs[k + 2..], Set(ev.envs, c, bs[k].name, ev.result.value), c)))
  {
    assert bs == bs[..k] + bs[k..];
    LetPairsSplit(bs[..k], bs[k..], e, c);
    assert bs[k..][0] == bs[k] && bs[k..][1] == bs[k + 1];
    assert bs[k..][2..] == bs[k + 2..];
  }

  /** A symbol in `let*` sees the pairs bound before it: the value form of
      the second pair is evaluated with the first pair already bound in the
      child frame. */
  lemma LetSequential(a: string, x: Value, b: string, y: Value, body: Value, e: Envs, f: nat)
    requires Eval(x, NewChild(e, f).0, |e.frames|).result.Success?
    ensures var (e1, c) := NewChild(e, f);
      var ex := Eval(x, e1, c);
      var e2 := Set(ex.envs, c, a, ex.result.value);
      Let([Symbol("let*"), List([Symbol(a), x, Symbol(b), y]), body], e, f)
        == (var ey := Eval(y, e2, c);
            if ey.result.Failure? then Evaluated(Failure(ey.result.error), ey.envs)
            else Eval(body, Set(ey.envs, c, b, ey.result.value), c))
  {
    var bs := [Symbol(a), x, Symbol(b), y];
    var (e1, c) := NewChild(e, f);
    assert SpecialForms.LetBindings(List(bs)) == Success(bs);
    var ex := Eval(x, e1, c);
    var e2 := Set(ex.envs, c, a, ex.result.value);
    assert bs[2..] == [Symbol(b), y];
    assert bs[2..][2..] == [];
    assert LetPairs(bs, e1, c) == LetPairs([Symbol(b), y], e2, c);
    var ey := Eval(y, e2, c);
    if ey.result.Success? {
      assert LetPairs([Symbol(b), y], e2, c) == Evaluated(Success(()), Set(ey.envs, c, b, ey.result.value));
    }
  }

  /** `(let* (a 1 b a) b)` is 1: `b` is bound to the value of `a`. */
  lemma LetExample(e: Envs, f: nat)
    ensures Eval(List([Symbol("let*"), List([Symbol("a"), Number(1), Symbol("b"), Symbol("a")]), Symbol("b")]), e, f).result
      == Success(Number(1))
  {
    var (e1, c) := NewChild(e, f);
    var e2 := Set(e1, c, "a", Number(1));
    GetSetSame(e1, c, "a", Number(1));
    var e3 := Set(e2, c, "b", Number(1));
    GetSetSame(e2, c, "b", Number(1));
    LetSequential("a", Number(1), "b", Symbol("a"), Symbol("b"), e, f);
  }

  /** A head that evaluates to something other than a function is an error
      naming its type. */
  lemma HeadNotAFunction(xs: seq<Value>, e: Envs, f: nat)
    requires |xs| > 0 && xs[0] != Symbol("def!") && xs[0] != Symbol("let*")
    requires EvalAll(xs, e, f).result.Success? && !EvalAll(xs, e, f).result.value[0].Func?
    ensures Eval(List(xs), e, f).result == Failure(NotAFunction(AsTypeString(EvalAll(xs, e, f).result.value[0])))
  {
  }

  /** The call step of `eval`: a list not headed by `def!` or `let*` first
      evaluates every element, left to right; the first error is the
      result, and otherwise the head's value is applied to the rest. The
      frames are those the elements left behind. */
  lemma CallApplies(xs: seq<Value>, e: Envs, f: nat)
    requires |xs| > 0 && xs[0] != Symbol("def!") && xs[0] != Symbol("let*")
    ensures var ev := EvalAll(xs, e, f);
      && (ev.result.Failure? ==> Eval(List(xs), e, f) == Evaluated(Failure(ev.result.error), ev.envs))
      && (ev.result.Success? ==>
            Eval(List(xs), e, f) == Evaluated(Step2.Apply(ev.result.value[0], ev.result.value[1..]), ev.envs))
      && (ev.result.Success? && ev.result.value[0].Func? && ev.result.value[0].fn.Native? ==>
            Eval(List(xs), e, f) == Evaluated(Core.Apply(ev.result.value[0].fn.op, ev.result.value[1..]), ev.envs))
  {
  }
}

=== FILE: step4.dfy ===
/** Evaluator stage 4 (`Step4IfFnDo` and its `SpecialForms`): the special
    forms `def!`, `let*`, `do`, `if` and `fn*`, and closures that bind their
    parameters in a fresh frame whose parent is the frame they were created
    in. Evaluation threads an environment arena and the next closure
    identity; `fuel` bounds the nesting depth of evaluation. */
module Step4 {
  import opened Wrappers
  import opened Errors
  import opened Types
  import opened Env
  import Core
  import Reader
  import Step2
  import SpecialForms

  /** The environments and the identity the next closure will get. */
  datatype State = State(envs: Envs, next: nat)

  /** The outcome of an evaluation and the state after it. */
  datatype Evaluated<T> = Evaluated(result: Result<T, Error>, st: State)

  /** `b` follows `a`: only frame `f` of the old frames may have new
      bindings, and no closure identity is handed out twice. */
  predicate Follows(a: State, b: State, f: int) {
    ChangesOnly(a.envs, b.envs, f) && a.next <= b.next
  }

  lemma FollowsTrans(a: State, b: State, c: State, f: int)
    requires Follows(a, b, f) && Follows(b, c, f)
    ensures Follows(a, c, f)
  {
    ChangesOnlyTrans(a.envs, b.envs, c.envs, f);
  }

  /** The state the REPL starts with: one root frame holding `Core.ns`, and
      no closure made yet. */
  function Start(): (st: State)
    ensures WellFormed(st.envs) && |st.envs.frames| == 1 && st.next == 0
    ensures forall op: Builtin :: Get(st.envs, 0, Core.BuiltinName(op)) == Success(Func(Native(op)))
  {
    State(Root(Core.Namespace()), 0)
  }

  /** The names `checkForSpecialForm` recognises in head position. */
  const SPECIAL_FORMS: set<string> := {"def!", "let*", "do", "if", "fn*"}

  predicate IsSpecialForm(head: Value) {
    head.Symbol? && head.name in SPECIAL_FORMS
  }

  /** `EVAL` in frame `f`: anything but a list goes to `EvalAst`; the empty
      list is its own value; a list headed by a special form's name is that
      form; any other list is a call. */
  function Eval(ast: Value, st: State, f: nat, fuel: nat): (r: Evaluated<Value>)
    ensures Follows(st, r.st, f)
    ensures fuel == 0 ==> r == Evaluated(Failure(OutOfFuel), st)
    ensures fuel > 0 && ast.List? && |ast.elems| == 0 ==> r == Evaluated(Success(ast), st)
    decreases fuel, 4, 0
  {
    if fuel == 0 then Evaluated(Failure(OutOfFuel), st)
    else if !ast.List? then EvalAst(ast, st, f, fuel)
    else if |ast.elems| == 0 then Evaluated(Success(ast), st)
    else if IsSpecialForm(ast.elems[0]) then SpecialForm(ast.elems, st, f, fuel)
    else EvalFunction(ast.elems, st, f, fuel)
  }

  /** `evalAST`: a symbol is looked up through the frames; a list or vector
      has each element evaluated; a map has its flattened keys and values
      evaluated and is rebuilt; everything else is its own value. */
  function EvalAst(ast: Value, st: State, f: nat, fuel: nat): (r: Evaluated<Value>)
    requires fuel > 0
    ensures Follows(st, r.st, f)
    ensures ast.Symbol? ==> r == Evaluated(Get(st.envs, f, ast.name), st)
    ensures ast.List? && r.result.Success? ==> r.result.value.List? && |r.result.value.elems| == |ast.elems|
    ensures ast.Vector? && r.result.Success? ==> r.result.value.Vector? && |r.result.value.elems| == |ast.elems|
    ensures ast.HashMap? && r.result.Success? ==> r.result.value.HashMap? && DistinctKeys(r.result.value.entries)
    ensures !(ast.Symbol? || IsSequence(ast) || ast.HashMap?) ==> r == Evaluated(Success(ast), st)
    decreases fuel, 3, 0
  {
    match ast
    case Symbol(name) => Evaluated(Get(st.envs, f, name), st)
    case List(xs) =>
      var ev := EvalAll(xs, st, f, fuel);
      Evaluated((var ys :- ev.result; Success(List(ys))), ev.st)
    case Vector(xs) =>
      var ev := EvalAll(xs, st, f, fuel);
      Evaluated((var ys :- ev.result; Success(Vector(ys))), ev.st)
    case HashMap(es) =>
      var ev := EvalEntries(es, st, f, fuel);
      Evaluated((var kvs :- ev.result; Types.ToMap(kvs)), ev.st)
    case _ => Evaluated(Success(ast), st)
  }

  /** Every element evaluated in turn, each one level deeper; the first
      error ends it. */
  function EvalAll(xs: seq<Value>, st: State, f: nat, fuel: nat): (r: Evaluated<seq<Value>>)
    requires fuel > 0
    ensures Follows(st, r.st, f)
    ensures r.result.Success? ==> |r.result.value| == |xs|
    decreases fuel, 1, |xs|
  {
    if |xs| == 0 then Evaluated(Success([]), st)
    else
      var first := Eval(xs[0], st, f, fuel - 1);
      match first.result
      case Failure(err) => Evaluated(Failure(err), first.st)
      case Success(y) =>
        var rest := EvalAll(xs[1..], first.st, f, fuel);
        FollowsTrans(st, first.st, rest.st, f);
        Evaluated((var ys :- rest.result; Success([y] + ys)), rest.st)
  }

  /** The keys and values of a map, evaluated in `toList` order. */
  function EvalEntries(es: seq<Entry>, st: State, f: nat, fuel: nat): (r: Evaluated<seq<Value>>)
    requires fuel > 0
    ensures Follows(st, r.st, f)
    ensures r.result.Success? ==> |r.result.value| == 2 * |es|
    decreases fuel, 1, |es|
  {
    if |es| == 0 then Evaluated(Success([]), st)
    else
      var key := Eval(es[0].key, st, f, fuel - 1);
      match key.result
      case Failure(err) => Evaluated(Failure(err), key.st)
      case Success(k) =>
        var val := Eval(es[0].val, key.st, f, fuel - 1);
        FollowsTrans(st, key.st, val.st, f);
        match val.result
        case Failure(err) => Evaluated(Failure(err), val.st)
        case Success(v) =>
          var rest := EvalEntries(es[1..], val.st, f, fuel);
          FollowsTrans(st, val.st, rest.st, f);
          Evaluated((var kvs :- rest.result; Success([k, v] + kvs)), rest.st)
  }

  /** `checkForSpecialForm`: the form named by the head symbol. */
  function SpecialForm(xs: seq<Value>, st: State, f: nat, fuel: nat): (r: Evaluated<Value>)
    requires fuel > 0 && |xs| > 0 && IsSpecialForm(xs[0])
    ensures Follows(st, r.st, f)
    decreases fuel, 3, 0
  {
    match xs[0].name
    case "def!" => Def(xs, st, f, fuel)
    case "let*" => Let(xs, st, f, fuel)
    case "do" => Do(xs, st, f, fuel)
    case "if" => If(xs, st, f, fuel)
    case _ => Lambda(xs, st, f)
  }

  /** `evalFunction`: every element evaluated; the first must be a function,
      which is applied to the others. */
  function EvalFunction(xs: seq<Value>, st: State, f: nat, fuel: nat): (r: Evaluated<Value>)
    requires fuel > 0 && |xs| > 0
    ensures Follows(st, r.st, f)
    decreases fuel, 2, 0
  {
    var ev := EvalAll(xs, st, f, fuel);
    match ev.result
    case Failure(err) => Evaluated(Failure(err), ev.st)
    case Success(vs) =>
      if !vs[0].Func? then Evaluated(Failure(NotAFunction(AsTypeString(vs[0]))), ev.st)
      else
        var call := ApplyFn(vs[0].fn, vs[1..], ev.st, fuel);
        FollowsTrans(st, ev.st, call.st, f);
        call
  }

  /** `KMalFunction.apply`. A builtin runs on the arguments. A closure gets a
      fresh frame whose parent is the frame it was created in, its
      parameters bound there, and its body evaluated there; no frame that
      existed before the call changes. */
  function ApplyFn(fn: Function, args: seq<Value>, st: State, fuel: nat): (r: Evaluated<Value>)
    requires fuel > 0
    ensures Follows(st, r.st, -1)
    ensures r.st.envs.frames[..|st.envs.frames|] == st.envs.frames
    ensures fn.Native? ==> r == Evaluated(Core.Apply(fn.op, args), st)
    decreases fuel, 1, 0
  {
    match fn
    case Native(op) => Evaluated(Core.Apply(op, args), st)
    case Closure(_, params, body, env) =>
      var (e1, c) := NewChild(st.envs, env);
      match SpecialForms.ParamBindings(params, args)
      case Failure(err) => Evaluated(Failure(err), State(e1, st.next))
      case Success(pairs) =>
        var bound := State(Bind(e1, c, pairs), st.next);
        var ev := Eval(body, bound, c, fuel - 1);
        FollowsTrans(State(e1, st.next), bound, ev.st, c);
        ChangesOnlyNew(st.envs, ev.st.envs, c);
        ev
  }

  /** `defBinding`: the value form is evaluated in frame `f` and bound there
      under the name; the value is the result. */
  function Def(xs: seq<Value>, st: State, f: nat, fuel: nat): (r: Evaluated<Value>)
    requires fuel > 0
    ensures Follows(st, r.st, f)
    ensures SpecialForms.DefShapeAsWritten(xs).Failure? ==> r == Evaluated(Failure(SpecialForms.DefShapeAsWritten(xs).error), st)
    decreases fuel, 2, 0
  {
    match SpecialForms.DefShapeAsWritten(xs)
    case Failure(err) => Evaluated(Failure(err), st)
    case Success((name, form)) =>
      var ev := Eval(form, st, f, fuel - 1);
      match ev.result
      case Failure(err) => Evaluated(Failure(err), ev.st)
      case Success(v) =>
        var after := State(Set(ev.st.envs, f, name, v), ev.st.next);
        ChangesOnlySet(ev.st.envs, f, name, v);
        FollowsTrans(st, ev.st, after, f);
        Evaluated(Success(v), after)
  }

  /** `letBinding`: exactly three elements; a new child frame of `f`; the
      bindings, a sequence of even length, bound pair by pair in the child;
      the body evaluated in the child. No frame that existed before changes. */
  function Let(xs: seq<Value>, st: State, f: nat, fuel: nat): (r: Evaluated<Value>)
    requires fuel > 0
    ensures Follows(st, r.st, -1)
    ensures r.st.envs.frames[..|st.envs.frames|] == st.envs.frames
    ensures |xs| != 3 ==> r == Evaluated(Failure(Arity(|xs|)), st)
    decreases fuel, 2, 0
  {
    match Core.ForceParity(|xs|, 3, 3)
    case Fail(err) => Evaluated(Failure(err), st)
    case Pass =>
      var (e1, c) := NewChild(st.envs, f);
      var child := State(e1, st.next);
      match SpecialForms.LetBindings(xs[1])
      case Failure(err) =>
        assert e1.frames[..|st.envs.frames|] == st.envs.frames;
        Evaluated(Failure(err), child)
      case Success(bs) =>
        var bound := LetPairs(bs, child, c, fuel);
        var body := if bound.result.Success? then Eval(xs[2], bound.st, c, fuel - 1) else Evaluated(Failure(bound.result.error), bound.st);
        FollowsTrans(child, bound.st, body.st, c);
        assert Follows(st, body.st, c);
        ChangesOnlyNew(st.envs, body.st.envs, c);
        body
  }

  /** The binding loop of `letBinding`: each name must be a symbol; its value
      form is evaluated in the child frame `c`, seeing the earlier pairs, and
      bound there. */
  function LetPairs(bs: seq<Value>, st: State, c: nat, fuel: nat): (r: Evaluated<()>)
    requires fuel > 0 && |bs| % 2 == 0
    ensures Follows(st, r.st, c)
    decreases fuel, 1, |bs|
  {
    if |bs| == 0 then Evaluated(Success(()), st)
    else if !bs[0].Symbol? then Evaluated(Failure(BindingNotSymbol(AsTypeString(bs[0]))), st)
    else
      var ev := Eval(bs[1], st, c, fuel - 1);
      match ev.result
      case Failure(err) => Evaluated(Failure(err), ev.st)
      case Success(v) =>
        var after := State(Set(ev.st.envs, c, bs[0].name, v), ev.st.next);
        ChangesOnlySet(ev.st.envs, c, bs[0].name, v);
        FollowsTrans(st, ev.st, after, c);
        var rest := LetPairs(bs[2..], after, c, fuel);
        FollowsTrans(st, after, rest.st, c);
        rest
  }

  /** `doFn`: fewer than two elements give nil; otherwise every form after
      `do` is evaluated and the last value is the result. */
  function Do(xs: seq<Value>, st: State, f: nat, fuel: nat): (r: Evaluated<Value>)
    requires fuel > 0
    ensures Follows(st, r.st, f)
    ensures |xs| < 2 ==> r == Evaluated(Success(Nil), st)
    ensures |xs| >= 2 && r.result.Success? ==>
              && EvalAll(xs[1..], st, f, fuel).result.Success?
              && r.result.value == EvalAll(xs[1..], st, f, fuel).result.value[|xs| - 2]
    ensures |xs| >= 2 && r.result.Failure? ==>
              && EvalAll(xs[1..], st, f, fuel).result.Failure?
              && r.result.error == EvalAll(xs[1..], st, f, fuel).result.error
    decreases fuel, 2, 0
  {
    if |xs| < 2 then Evaluated(Success(Nil), st)
    else
      var ev := EvalAll(xs[1..], st, f, fuel);
      Evaluated((var vs :- ev.result; Success(vs[|vs| - 1])), ev.st)
  }

  /** `ifFn`: three or four elements; the condition is evaluated; a truthy
      one selects the then-form, any other the else-form, or nil without
      one. */
  function If(xs: seq<Value>, st: State, f: nat, fuel: nat): (r: Evaluated<Value>)
    requires fuel > 0
    ensures Follows(st, r.st, f)
    ensures !(3 <= |xs| <= 4) ==> r == Evaluated(Failure(Arity(|xs|)), st)
    decreases fuel, 2, 0
  {
    match Core.ForceParity(|xs|, 3, 4)
    case Fail(err) => Evaluated(Failure(err), st)
    case Pass =>
      var cond := Eval(xs[1], st, f, fuel - 1);
      match cond.result
      case Failure(err) => Evaluated(Failure(err), cond.st)
      case Success(c) =>
        var branch :=
          if IsTruthy(c) then Eval(xs[2], cond.st, f, fuel - 1)
          else if |xs| == 4 then Eval(xs[3], cond.st, f, fuel - 1)
          else Evaluated(Success(Nil), cond.st);
        FollowsTrans(st, cond.st, branch.st, f);
        branch
  }

  /** `createLambda`: the checks of `SpecialForms.LambdaShape`, then a new
      closure over frame `f` with the next identity. */
  function Lambda(xs: seq<Value>, st: State, f: nat): (r: Evaluated<Value>)
    ensures Follows(st, r.st, -1) && r.st.envs == st.envs
    ensures r.result.Success? <==> SpecialForms.LambdaShape(xs).Success?
    ensures r.result.Success? ==>
              && r.result.value.Func? && r.result.value.fn.Closure?
              && r.result.value.fn.id == st.next && r.st.next == st.next + 1 && r.result.value.fn.env == f
              && (r.result.value.fn.params, r.result.value.fn.body) == SpecialForms.LambdaShape(xs).value
    ensures r.result.Failure? ==> r == Evaluated(Failure(SpecialForms.LambdaShape(xs).error), st)
  {
    match SpecialForms.LambdaShape(xs)
    case Failure(err) => Evaluated(Failure(err), st)
    case Success((params, body)) =>
      Evaluated(Success(Func(Closure(st.next, params, body, f))), State(st.envs, st.next + 1))
  }

  /** `REP` on a token list in frame `f`: read one form, evaluate, print. */
  function Rep(tokens: seq<string>, st: State, f: nat, fuel: nat): (r: (Result<Option<string>, Error>, State))
    ensures Follows(st, r.1, f)
    ensures |tokens| == 0 ==> r == (Failure(EndOfInput), st)
  {
    match Reader.ReadTokens(tokens)
    case Failure(err) => (Failure(err), st)
    case Success(ast) =>
      var ev := Eval(ast, st, f, fuel);
      ((var v :- ev.result; Success(Step2.Print(v))), ev.st)
  }

  // ---------------------------------------------------------------------------
  // Properties

  /** `if` selects the else-form exactly when the condition is nil or false;
      without an else-form the result is then nil. */
  lemma IfSelects(xs: seq<Value>, st: State, f: nat, fuel: nat)
    requires fuel > 0 && 3 <= |xs| <= 4 && xs[0] == Symbol("if")
    requires Eval(xs[1], st, f, fuel).result.Success?
    ensures var cond := Eval(xs[1], st, f, fuel);
      var falsy := cond.result.value == Nil || cond.result.value == Boolean(false);
      && (!falsy ==> Eval(List(xs), st, f, fuel + 1) == Eval(xs[2], cond.st, f, fuel))
      && (falsy && |xs| == 4 ==> Eval(List(xs), st, f, fuel + 1) == Eval(xs[3], cond.st, f, fuel))
      && (falsy && |xs| == 3 ==> Eval(List(xs), st, f, fuel + 1) == Evaluated(Success(Nil), cond.st))
  {
    assert IsSpecialForm(xs[0]) && Core.ForceParity(|xs|, 3, 4).Pass?;
    assert Eval(List(xs), st, f, fuel + 1) == If(xs, st, f, fuel + 1);
    TruthinessCases(Eval(xs[1], st, f, fuel).result.value);
  }

  /** `(def! name form)` evaluates the form one level deeper in frame `f`,
      binds the value in `f` itself and returns it; afterwards the name looks
      up to it from `f`. */
  lemma DefBinds(name: string, form: Value, st: State, f: nat, fuel: nat)
    requires fuel > 0 && f < |st.envs.frames|
    requires Eval(form, st, f, fuel).result.Success?
    ensures var ev := Eval(form, st, f, fuel);
      var after := Eval(List([Symbol("def!"), Symbol(name), form]), st, f, fuel + 1);
      && after == Evaluated(Success(ev.result.value), State(Set(ev.st.envs, f, name, ev.result.value), ev.st.next))
      && Get(after.st.envs, f, name) == Success(ev.result.value)
  {
    var xs := [Symbol("def!"), Symbol(name), form];
    assert IsSpecialForm(xs[0]);
    assert Eval(List(xs), st, f, fuel + 1) == Def(xs, st, f, fuel + 1);
    assert SpecialForms.DefShapeAsWritten(xs) == Success((name, form));
    var ev := Eval(form, st, f, fuel);
    assert ChangesOnly(st.envs, ev.st.envs, f);
    GetSetSame(ev.st.envs, f, name, ev.result.value);
  }

  /** A call whose head evaluates to something other than a function is an
      error naming the head's type. */
  lemma HeadNotAFunction(xs: seq<Value>, st: State, f: nat, fuel: nat)
    requires fuel > 0 && |xs| > 0 && !IsSpecialForm(xs[0])
    requires EvalAll(xs, st, f, fuel).result.Success? && !EvalAll(xs, st, f, fuel).result.value[0].Func?
    ensures Eval(List(xs), st, f, fuel).result == Failure(NotAFunction(AsTypeString(EvalAll(xs, st, f, fuel).result.value[0])))
  {
  }

  /** Closure identities are never reused: a closure made in a later state
      has a different identity from one made earlier. */
  lemma ClosureIdsFresh(xs: seq<Value>, st: State, f: nat, later: State, ys: seq<Value>, g: nat)
    requires Lambda(xs, st, f).result.Success? && Lambda(ys, later, g).result.Success?
    requires Lambda(xs, st, f).st.next <= later.next
    ensures Lambda(xs, st, f).result.value != Lambda(ys, later, g).result.value
  {
  }

  /** A closure call evaluates the body, one level deeper, in a new child of
      the closure's frame holding exactly the parameter bindings; the caller's
      frames stay as they were. */
  lemma ClosureCall(id: nat, params: seq<string>, body: Value, env: nat, args: seq<Value>, st: State, fuel: nat)
    requires fuel > 0 && SpecialForms.ParamBindings(params, args).Success?
    ensures var (e1, c) := NewChild(st.envs, env);
      var local := Bind(e1, c, SpecialForms.ParamBindings(params, args).value);
      && ApplyFn(Closure(id, params, body, env), args, st, fuel) == Eval(body, State(local, st.next), c, fuel - 1)
      && c == |st.envs.frames| && |local.frames| == c + 1
      && local.frames[..c] == st.envs.frames
      && local.frames[c].parent == Some(env)
  {
    var (e1, c) := NewChild(st.envs, env);
    var local := Bind(e1, c, SpecialForms.ParamBindings(params, args).value);
    BindLength(e1, c, SpecialForms.ParamBindings(params, args).value);
    assert local.frames[..c] == e1.frames[..c];
  }

  lemma {:induction false} BindLength(e: Envs, f: nat, pairs: seq<(string, Value)>)
    ensures |Bind(e, f, pairs).frames| == |e.frames|
    decreases |pairs|
  {
    if |pairs| > 0 {
      BindLength(Set(e, f, pairs[0].0, pairs[0].1), f, pairs[1..]);
    }
  }

  /** A call with the wrong number of arguments to a closure without `&`
      fails with the count of arguments given. */
  lemma ClosureArity(id: nat, params: seq<string>, body: Value, env: nat, args: seq<Value>, st: State, fuel: nat)
    requires fuel > 0 && !SpecialForms.IsVariadic(params) && |args| != |params|
    ensures ApplyFn(Closure(id, params, body, env), args, st, fuel).result == Failure(Arity(|args|))
  {
  }

  /** In the body of a closure without `&` and with distinct parameter names,
      each parameter names its own argument. */
  lemma {:induction false} ClosureSeesArguments(id: nat, params: seq<string>, body: Value, env: nat, args: seq<Value>, st: State)
    requires !SpecialForms.IsVariadic(params) && |args| == |params|
    requires forall i, j | 0 <= i < j < |params| :: params[i] != params[j]
    ensures SpecialForms.ParamBindings(params, args).Success?
    ensures var (e1, c) := NewChild(st.envs, env);
      var local := Bind(e1, c, SpecialForms.ParamBindings(params, args).value);
      forall i | 0 <= i < |params| :: Get(local, c, params[i]) == Success(args[i])
  {
    var (e1, c) := NewChild(st.envs, env);
    var pairs := SpecialForms.ParamBindings(params, args).value;
    var local := Bind(e1, c, pairs);
    forall i | 0 <= i < |params| ensures Get(local, c, params[i]) == Success(args[i]) {
      assert pairs[i] == (params[i], args[i]);
      BindLast(e1, c, pairs, i);
    }
  }

  /** In the body of a closure with `&`, the last parameter names the list
      of the arguments after the fixed ones. */
  lemma {:induction false} ClosureSeesRest(id: nat, params: seq<string>, body: Value, env: nat, args: seq<Value>, st: State)
    requires SpecialForms.IsVariadic(params) && SpecialForms.ParamBindings(params, args).Success?
    ensures var (e1, c) := NewChild(st.envs, env);
      var local := Bind(e1, c, SpecialForms.ParamBindings(params, args).value);
      Get(local, c, params[|params| - 1]) == Success(List(args[|params| - 2..]))
  {
    var (e1, c) := NewChild(st.envs, env);
    var pairs := SpecialForms.ParamBindings(params, args).value;
    SpecialForms.VariadicBindings(params, args);
    BindLast(e1, c, pairs, |params| - 2);
  }

  /** Lexical scope: in the body of a closure, a name that is not a parameter
      means what it means in the frame the closure was created in. */
  lemma {:induction false} ClosureSeesDefiningFrame(id: nat, params: seq<string>, body: Value, env: nat, args: seq<Value>, st: State, name: string)
    requires env < |st.envs.frames| && name !in params
    requires SpecialForms.ParamBindings(params, args).Success?
    ensures var (e1, c) := NewChild(st.envs, env);
      var local := Bind(e1, c, SpecialForms.ParamBindings(params, args).value);
      Get(local, c, name) == Get(st.envs, env, name)
  {
    var (e1, c) := NewChild(st.envs, env);
    var pairs := SpecialForms.ParamBindings(params, args).value;
    var local := Bind(e1, c, pairs);
    BindKeeps(e1, c, pairs, name);
    BindLength(e1, c, pairs);
    assert name !in local.frames[c].vars;
    assert Outer(local, c) == Some(env);
    assert local.frames[..|st.envs.frames|] == st.envs.frames;
    GetExtend(st.envs, local, env, name);
  }

  /** `(do)` is nil. */
  lemma EmptyDo(st: State, f: nat, fuel: nat)
    requires fuel > 0
    ensures Eval(List([Symbol("do")]), st, f, fuel) == Evaluated(Success(Nil), st)
  {
  }

  /** `((fn* (a) a) 7)` is 7. */
  lemma IdentityExample(st: State, f: nat)
    ensures Eval(List([List([Symbol("fn*"), List([Symbol("a")]), Symbol("a")]), Number(7)]), st, f, 3).result
      == Success(Number(7))
  {
    var lambda := List([Symbol("fn*"), List([Symbol("a")]), Symbol("a")]);
    var xs := [lambda, Number(7)];
    var clo := Func(Closure(st.next, ["a"], Symbol("a"), f));
    var names := SpecialForms.SymbolNames([Symbol("a")]);
    assert names.Success? && names.value[0] == "a";
    assert names.value == ["a"];
    var made := Lambda(lambda.elems, st, f);
    assert made.result == Success(clo);
    assert Eval(lambda, st, f, 2) == made;
    var seven := [Number(7)];
    assert seven[1..] == [];
    assert Eval(seven[0], made.st, f, 2) == Evaluated(Success(Number(7)), made.st);
    var rest := EvalAll(seven[1..], made.st, f, 3);
    assert rest == Evaluated(Success([]), made.st);
    assert EvalAll(seven, made.st, f, 3).result.Success?;
    assert EvalAll(seven, made.st, f, 3).result.value == [Number(7)] + rest.result.value;
    assert EvalAll(seven, made.st, f, 3).result.value == seven;
    assert EvalAll(seven, made.st, f, 3).result == Success(seven);
    assert EvalAll(seven, made.st, f, 3).st == made.st;
    var ev := EvalAll(xs, st, f, 3);
    assert xs[0] == lambda && xs[1..] == seven;
    assert ev.result.Success?;
    assert ev.result.value == [clo] + seven;
    assert ev.result.value == [clo, Number(7)];
    assert ev.result == Success([clo, Number(7)]);
    assert ev.st == made.st;
    assert [clo, Number(7)][1..] == seven;
    ClosureSeesArguments(st.next, ["a"], Symbol("a"), f, seven, made.st);
    ClosureCall(st.next, ["a"], Symbol("a"), f, seven, made.st, 3);
  }

  /** The call step of `eval`: a list not headed by a special form first
      evaluates every element, left to right; the first error is the
      result, and otherwise the head's function is applied to the rest in
      the state the elements left behind. */
  lemma CallApplies(xs: seq<Value>, st: State, f: nat, fuel: nat)
    requires fuel > 0 && |xs| > 0 && !IsSpecialForm(xs[0])
    ensures var ev := EvalAll(xs, st, f, fuel);
      && (ev.result.Failure? ==> Eval(List(xs), st, f, fuel) == Evaluated(Failure(ev.result.error), ev.st))
      && (ev.result.Success? && ev.result.value[0].Func? ==>
            Eval(List(xs), st, f, fuel) == ApplyFn(ev.result.value[0].fn, ev.result.value[1..], ev.st, fuel))
      && (ev.result.Success? && ev.result.value[0].Func? && ev.result.value[0].fn.Native? ==>
            Eval(List(xs), st, f, fuel) == Evaluated(Core.Apply(ev.result.value[0].fn.op, ev.result.value[1..]), ev.st))
  {
  }

  /** Calling a closure runs its body, with the same fuel less one, in a
      new frame whose parent is the closure's defining frame and which
      binds the parameters to the argument values. */
  lemma CallRunsClosure(xs: seq<Value>, st: State, f: nat, fuel: nat)
    requires fuel > 0 && |xs| > 0 && !IsSpecialForm(xs[0])
    requires EvalAll(xs, st, f, fuel).result.Success?
    requires EvalAll(xs, st, f, fuel).result.value[0].Func?
    requires EvalAll(xs, st, f, fuel).result.value[0].fn.Closure?
    requires SpecialForms.ParamBindings(EvalAll(xs, st, f, fuel).result.value[0].fn.params,
                                        EvalAll(xs, st, f, fuel).result.value[1..]).Success?
    ensures var ev := EvalAll(xs, st, f, fuel);
      var clo := ev.result.value[0].fn;
      var c := |ev.st.envs.frames|;
      var local := Bind(Envs(ev.st.envs.frames + [Frame(map[], Some(clo.env))]), c,
                        SpecialForms.ParamBindings(clo.params, ev.result.value[1..]).value);
      Eval(List(xs), st, f, fuel) == Eval(clo.body, State(local, ev.st.next), c, fuel - 1)
  {
    var ev := EvalAll(xs, st, f, fuel);
    var clo := ev.result.value[0].fn;
    CallApplies(xs, st, f, fuel);
    ClosureCall(clo.id, clo.params, clo.body, clo.env, ev.result.value[1..], ev.st, fuel);
  }

  /** `(def! 1 2)` and `(fn* (1) 2)` both reject a number where a symbol is
      needed, with two different messages. */
  lemma SymbolErrorsDiffer(st: State, f: nat)
    ensures Eval(List([Symbol("def!"), Number(1), Number(2)]), st, f, 1).result
      == Failure(DefNameNotSymbol("Number"))
    ensures Eval(List([Symbol("fn*"), List([Number(1)]), Number(2)]), st, f, 1).result
      == Failure(ParamNotSymbol("Number"))
  {
  }

  /** The shape errors of `let*`, in the order the source checks them: the
      arity, bindings that are not a List or Vector, an odd number of
      binding forms, and a first name that is not a symbol. */
  lemma LetShapeErrors(xs: seq<Value>, st: State, f: nat, fuel: nat)
    requires fuel > 0 && |xs| > 0 && xs[0] == Symbol("let*")
    ensures |xs| != 3 ==> Eval(List(xs), st, f, fuel).result == Failure(Arity(|xs|))
    ensures |xs| == 3 && !IsSequence(xs[1]) ==>
      Eval(List(xs), st, f, fuel).result == Failure(LetBindingsNotSequence(AsTypeString(xs[1])))
    ensures |xs| == 3 && IsSequence(xs[1]) && |xs[1].elems| % 2 != 0 ==>
      Eval(List(xs), st, f, fuel).result == Failure(OddBindings)
    ensures |xs| == 3 && IsSequence(xs[1]) && |xs[1].elems| % 2 == 0 && |xs[1].elems| > 0 && !xs[1].elems[0].Symbol? ==>
      Eval(List(xs), st, f, fuel).result == Failure(BindingNotSymbol(AsTypeString(xs[1].elems[0])))
  {
    assert IsSpecialForm(xs[0]);
    assert Eval(List(xs), st, f, fuel) == Let(xs, st, f, fuel);
    if |xs| == 3 && IsSequence(xs[1]) && |xs[1].elems| % 2 == 0 {
      assert SpecialForms.LetBindings(xs[1]) == Success(xs[1].elems);
    }
  }

  /** A well-shaped `let*` binds its pairs in a new child frame of `f`, the
      frame after the existing ones, and evaluates the body in that child
      once every pair is bound; the first binding error is the result. */
  lemma LetEvaluatesBody(xs: seq<Value>, st: State, f: nat, fuel: nat)
    requires fuel > 0 && |xs| == 3 && xs[0] == Symbol("let*")
    requires IsSequence(xs[1]) && |xs[1].elems| % 2 == 0
    ensures var c := |st.envs.frames|;
      var child := State(Envs(st.envs.frames + [Frame(map[], Some(f))]), st.next);
      var bound := LetPairs(xs[1].elems, child, c, fuel);
      Eval(List(xs), st, f, fuel)
        == if bound.result.Failure? then Evaluated(Failure(bound.result.error), bound.st)
           else Eval(xs[2], bound.st, c, fuel - 1)
  {
    assert IsSpecialForm(xs[0]);
    assert Eval(List(xs), st, f, fuel) == Let(xs, st, f, fuel);
    assert SpecialForms.LetBindings(xs[1]) == Success(xs[1].elems);
  }

  /** The binding loop runs its pairs in order: binding `a + b` is binding
      `a` and then, unless that failed, binding `b` in the state `a` left. */
  lemma {:induction false} LetPairsSplit(a: seq<Value>, b: seq<Value>, st: State, c: nat, fuel: nat)
    requires fuel > 0 && |a| % 2 == 0 && |b| % 2 == 0
    ensures var first := LetPairs(a, st, c, fuel);
      LetPairs(a + b, st, c, fuel) == if first.result.Failure? then first else LetPairs(b, first.st, c, fuel)
    decreases |a|
  {
    if |a| == 0 {
      assert a + b == b;
    } else {
      var ab := a + b;
      assert ab[0] == a[0] && ab[1] == a[1];
      assert ab[2..] == a[2..] + b;
      if a[0].Symbol? {
        var ev := Eval(a[1], st, c, fuel - 1);
        if ev.result.Success? {
          var after := State(Set(ev.st.envs, c, a[0].name, ev.result.value), ev.st.next);
          LetPairsSplit(a[2..], b, after, c, fuel);
        }
      }
    }
  }

  /** The pair at even position `k`, once the pairs before it are bound: a
      name that is not a symbol is an error naming its type; otherwise the
      value form is evaluated in the child, seeing the earlier pairs, and
      its value bound there before the remaining pairs. */
  lemma LetPairAt(bs: seq<Value>, k: nat, st: State, c: nat, fuel: nat)
    requires fuel > 0 && |bs| % 2 == 0 && k % 2 == 0 && k < |bs|
    requires LetPairs(bs[..k], st, c, fuel).result.Success?
    ensures var before := LetPairs(bs[..k], st, c, fuel).st;
      && (!bs[k].Symbol? ==>
            LetPairs(bs, st, c, fuel) == Evaluated(Failure(BindingNotSymbol(AsTypeString(bs[k]))), before))
      && (bs[k].Symbol? ==>
            LetPairs(bs, st, c, fuel)
              == (var ev := Eval(bs[k + 1], before, c, fuel - 1);
                  if ev.result.Failure? then Evaluated(Failure(ev.result.error), ev.st)
                  else LetPairs(bs[k + 2..], State(Set(ev.st.envs, c, bs[k].name, ev.result.value), ev.st.next), c, fuel)))
  {
    assert bs == bs[..k] + bs[k..];
    LetPairsSplit(bs[..k], bs[k..], st, c, fuel);
    assert bs[k..][0] == bs[k] && bs[k..][1] == bs[k + 1];
    assert bs[k..][2..] == bs[k + 2..];
  }

  /** A symbol in `let*` sees the pairs bound before it: the value form of
      the second pair is evaluated with the first pair already bound in the
      child frame, and the body with both. */
  lemma LetSequential(a: string, x: Value, b: string, y: Value, body: Value, st: State, f: nat, fuel: nat)
    requires fuel > 0
    requires Eval(x, State(NewChild(st.envs, f).0, st.next), |st.envs.frames|, fuel - 1).result.Success?
    ensures var (e1, c) := NewChild(st.envs, f);
      var ex := Eval(x, State(e1, st.next), c, fuel - 1);
      var s2 := State(Set(ex.st.envs, c, a, ex.result.value), ex.st.next);
      Eval(List([Symbol("let*"), List([Symbol(a), x, Symbol(b), y]), body]), st, f, fuel)
        == (var ey := Eval(y, s2, c, fuel - 1);
            if ey.result.Failure? then Evaluated(Failure(ey.result.error), ey.st)
            else Eval(body, State(Set(ey.st.envs, c, b, ey.result.value), ey.st.next), c, fuel - 1))
  {
    var bs := [Symbol(a), x, Symbol(b), y];
    var xs := [Symbol("let*"), List(bs), body];
    var (e1, c) := NewChild(st.envs, f);
    LetEvaluatesBody(xs, st, f, fuel);
    var ex := Eval(x, State(e1, st.next), c, fuel - 1);
    var s2 := State(Set(ex.st.envs, c, a, ex.result.value), ex.st.next);
    assert bs[2..] == [Symbol(b), y];
    assert bs[2..][2..] == [];
    assert LetPairs(bs, State(e1, st.next), c, fuel) == LetPairs([Symbol(b), y], s2, c, fuel);
    var ey := Eval(y, s2, c, fuel - 1);
    if ey.result.Success? {
      assert LetPairs([Symbol(b), y], s2, c, fuel)
        == Evaluated(Success(()), State(Set(ey.st.envs, c, b, ey.result.value), ey.st.next));
    }
  }
}

=== FILE: types.dfy ===
/** The closed set of runtime values of kmal (`MalTypes`): their equality,
    sequence accessors, truthiness, printers, and the conversion between a map
    and its flat key/value element list. */
module Types {
  import opened Wrappers
  import opened Errors
  import opened Numbers

  /** The character a keyword's stored text starts with, keeping keywords
      apart from strings. */
  const KEYWORD_MARK: char := '\U{029E}'

  /** A keyword's stored text: the mark followed by the keyword's name. */
  type KeywordText = s: string | |s| > 0 && s[0] == KEYWORD_MARK witness [KEYWORD_MARK]

  /** The native functions of the root namespace. */
  datatype Builtin =
    | Add | Subtract | Multiply | Divide
    | Println | Prn | PrStr | Str
    | MakeList | IsList | IsEmpty | Count
    | Equals | Greater | GreaterEqual | Less | LessEqual
    | Not | And | Or

  /** A callable value. A closure records the index of the environment frame
      it was created in, and an identity: functions are equal only to
      themselves. */
  datatype Function =
    | Native(op: Builtin)
    | Closure(id: nat, params: seq<string>, body: Value, env: nat)

  datatype Value =
    | Nil
    | Boolean(b: bool)
    | Number(n: Long)
    | String(s: string)
    | Symbol(name: string)
    | Keyword(text: KeywordText)
    | List(elems: seq<Value>)
    | Vector(elems: seq<Value>)
    | HashMap(entries: seq<Entry>)
    | Func(fn: Function)
    | Comment

  /** One map entry; a map keeps its entries in insertion order. */
  datatype Entry = Entry(key: Value, val: Value)

  /** `KMalKeyword(name)`: the name is stored behind the keyword mark. */
  function MakeKeyword(name: string): (v: Value)
    ensures v.Keyword? && v.text[1..] == name
  {
    Keyword([KEYWORD_MARK] + name)
  }

  predicate IsSequence(v: Value) {
    v.List? || v.Vector?
  }

  // ---------------------------------------------------------------------------
  // Equality

  /** Identity of functions: natives by which builtin they are, closures by
      the identity they were created with. */
  predicate SameFunction(f: Function, g: Function) {
    match f
    case Native(op) => g.Native? && g.op == op
    case Closure(id, _, _, _) => g.Closure? && g.id == id
  }

  /** Structural equality (`equals` of each kind). A List equals any sequence,
      List or Vector, with equal elements; a map equals a map with the same
      key-to-value association; every other kind equals only its own kind. */
  predicate Equal(a: Value, b: Value)
    decreases a, 2
  {
    match a
    case Nil => b.Nil?
    case Boolean(x) => b.Boolean? && b.b == x
    case Number(x) => b.Number? && b.n == x
    case String(x) => b.String? && b.s == x
    case Symbol(x) => b.Symbol? && b.name == x
    case Keyword(x) => b.Keyword? && b.text == x
    case List(_) => ElementsEqual(a, b)
    case Vector(_) => ElementsEqual(a, b)
    case HashMap(_) => EntriesEqual(a, b)
    case Func(f) => b.Func? && SameFunction(f, b.fn)
    case Comment => b.Comment?
  }

  /** `other is KMalSequence && other.elements == elements`. */
  predicate ElementsEqual(a: Value, b: Value)
    requires IsSequence(a)
    decreases a, 1
  {
    IsSequence(b) && |a.elems| == |b.elems| && forall i | 0 <= i < |a.elems| :: Equal(a.elems[i], b.elems[i])
  }

  /** `other is KMalHashMap && other.elements == elements`: as many entries,
      and every entry of each map has an equal entry in the other. */
  predicate EntriesEqual(a: Value, b: Value)
    requires a.HashMap?
    decreases a, 1
  {
    && b.HashMap?
    && |a.entries| == |b.entries|
    && (forall i | 0 <= i < |a.entries| :: MatchedIn(a, i, b))
    && (forall j | 0 <= j < |b.entries| :: MatchedBy(a, b, j))
  }

  /** Entry `i` of map `a` has an entry of `b` with equal key and value. */
  predicate MatchedIn(a: Value, i: int, b: Value)
    requires a.HashMap? && b.HashMap? && 0 <= i < |a.entries|
    decreases a, 0
  {
    exists j | 0 <= j < |b.entries| ::
      Equal(a.entries[i].key, b.entries[j].key) && Equal(a.entries[i].val, b.entries[j].val)
  }

  /** Entry `j` of map `b` has an entry of `a` with equal key and value. */
  predicate MatchedBy(a: Value, b: Value, j: int)
    requires a.HashMap? && b.HashMap? && 0 <= j < |b.entries|
    decreases a, 0
  {
    exists i | 0 <= i < |a.entries| ::
      Equal(a.entries[i].key, b.entries[j].key) && Equal(a.entries[i].val, b.entries[j].val)
  }

  lemma {:induction false} EqualReflexive(a: Value)
    ensures Equal(a, a)
    decreases a, 1
  {
    if IsSequence(a) {
      forall i | 0 <= i < |a.elems| ensures Equal(a.elems[i], a.elems[i]) { EqualReflexive(a.elems[i]); }
      assert ElementsEqual(a, a);
    } else if a.HashMap? {
      EntriesReflexive(a);
    }
  }

  lemma {:induction false} EntriesReflexive(a: Value)
    requires a.HashMap?
    ensures EntriesEqual(a, a)
    decreases a, 0
  {
    var es := a.entries;
    forall i | 0 <= i < |es| ensures MatchedIn(a, i, a) && MatchedBy(a, a, i) {
      EqualReflexive(es[i].key);
      EqualReflexive(es[i].val);
      assert Equal(es[i].key, es[i].key) && Equal(es[i].val, es[i].val);
    }
  }

  lemma {:induction false} EqualSymmetric(a: Value, b: Value)
    requires Equal(a, b)
    ensures Equal(b, a)
    decreases a, 1
  {
    if IsSequence(a) {
      assert ElementsEqual(a, b);
      forall i | 0 <= i < |a.elems| ensures Equal(b.elems[i], a.elems[i]) {
        EqualSymmetric(a.elems[i], b.elems[i]);
      }
      assert ElementsEqual(b, a);
    } else if a.HashMap? {
      EntriesSymmetric(a, b);
    }
  }

  lemma {:induction false} EntriesSymmetric(a: Value, b: Value)
    requires a.HashMap? && EntriesEqual(a, b)
    ensures EntriesEqual(b, a)
    decreases a, 0
  {
    var es, fs := a.entries, b.entries;
    forall j | 0 <= j < |fs| ensures MatchedIn(b, j, a) {
      assert MatchedBy(a, b, j);
      var i :| 0 <= i < |es| && Equal(es[i].key, fs[j].key) && Equal(es[i].val, fs[j].val);
      EqualSymmetric(es[i].key, fs[j].key);
      EqualSymmetric(es[i].val, fs[j].val);
      assert Equal(fs[j].key, es[i].key) && Equal(fs[j].val, es[i].val);
    }
    forall i | 0 <= i < |es| ensures MatchedBy(b, a, i) {
      assert MatchedIn(a, i, b);
      var j :| 0 <= j < |fs| && Equal(es[i].key, fs[j].key) && Equal(es[i].val, fs[j].val);
      EqualSymmetric(es[i].key, fs[j].key);
      EqualSymmetric(es[i].val, fs[j].val);
      assert Equal(fs[j].key, es[i].key) && Equal(fs[j].val, es[i].val);
    }
  }

  lemma {:induction false} EqualTransitive(a: Value, b: Value, c: Value)
    requires Equal(a, b) && Equal(b, c)
    ensures Equal(a, c)
    decreases a, 1
  {
    if IsSequence(a) {
      assert ElementsEqual(a, b) && ElementsEqual(b, c);
      forall i | 0 <= i < |a.elems| ensures Equal(a.elems[i], c.elems[i]) {
        EqualTransitive(a.elems[i], b.elems[i], c.elems[i]);
      }
      assert ElementsEqual(a, c);
    } else if a.HashMap? {
      EntriesTransitive(a, b, c);
    }
  }

  lemma {:induction false} EntriesTransitive(a: Value, b: Value, c: Value)
    requires a.HashMap? && EntriesEqual(a, b) && b.HashMap? && EntriesEqual(b, c)
    ensures EntriesEqual(a, c)
    decreases a, 0
  {
    var es, fs, gs := a.entries, b.entries, c.entries;
    forall i | 0 <= i < |es| ensures MatchedIn(a, i, c) {
      assert MatchedIn(a, i, b);
      var j :| 0 <= j < |fs| && Equal(es[i].key, fs[j].key) && Equal(es[i].val, fs[j].val);
      assert MatchedIn(b, j, c);
      var l :| 0 <= l < |gs| && Equal(fs[j].key, gs[l].key) && Equal(fs[j].val, gs[l].val);
      EqualTransitive(es[i].key, fs[j].key, gs[l].key);
      EqualTransitive(es[i].val, fs[j].val, gs[l].val);
    }
    forall l | 0 <= l < |gs| ensures MatchedBy(a, c, l) {
      assert MatchedBy(b, c, l);
      var j :| 0 <= j < |fs| && Equal(fs[j].key, gs[l].key) && Equal(fs[j].val, gs[l].val);
      assert MatchedBy(a, b, j);
      var i :| 0 <= i < |es| && Equal(es[i].key, fs[j].key) && Equal(es[i].val, fs[j].val);
      EqualTransitive(es[i].key, fs[j].key, gs[l].key);
      EqualTransitive(es[i].val, fs[j].val, gs[l].val);
    }
  }

  /** A List and a Vector are equal, in either order, exactly when their
      elements are pairwise equal; the kind of sequence does not matter. */
  lemma SequenceKindsEqual(xs: seq<Value>, ys: seq<Value>)
    ensures Equal(List(xs), Vector(ys)) <==> (|xs| == |ys| && forall i | 0 <= i < |xs| :: Equal(xs[i], ys[i]))
    ensures Equal(List(xs), Vector(ys)) <==> Equal(Vector(ys), List(xs))
    ensures Equal(List(xs), Vector(ys)) <==> Equal(List(xs), List(ys))
  {
    if Equal(List(xs), Vector(ys)) { EqualSymmetric(List(xs), Vector(ys)); }
    if Equal(Vector(ys), List(xs)) { EqualSymmetric(Vector(ys), List(xs)); }
  }

  /** A map never equals a sequence, in either order. */
  lemma MapIsNotSequence(m: Value, s: Value)
    requires m.HashMap? && IsSequence(s)
    ensures !Equal(m, s) && !Equal(s, m)
  {
  }

  // ---------------------------------------------------------------------------
  // Sequence accessors and truthiness

  /** `KMalSequence.first`: absent for an empty sequence. */
  function First(v: Value): (r: Option<Value>)
    requires IsSequence(v)
    ensures r.None? <==> |v.elems| == 0
    ensures r.Some? ==> r.value == v.elems[0]
  {
    if |v.elems| == 0 then None else Some(v.elems[0])
  }

  /** `KMalSequence.rest`: absent unless there are at least two elements. */
  function Rest(v: Value): (r: Option<seq<Value>>)
    requires IsSequence(v)
    ensures r.None? <==> |v.elems| < 2
    ensures r.Some? ==> [v.elems[0]] + r.value == v.elems && |r.value| == |v.elems| - 1
  {
    if |v.elems| >= 2 then Some(v.elems[1..]) else None
  }

  function Size(v: Value): (n: nat)
    requires IsSequence(v)
    ensures n == |v.elems|
  {
    |v.elems|
  }

  /** Everything is truthy except Nil and the Boolean false. */
  predicate IsTruthy(v: Value) {
    match v
    case Nil => false
    case Boolean(b) => b
    case _ => true
  }

  lemma TruthinessCases(v: Value)
    ensures !IsTruthy(v) <==> v == Nil || v == Boolean(false)
  {
  }

  // ---------------------------------------------------------------------------
  // Maps

  /** No two entries have equal keys. Every map the interpreter builds has
      this shape. */
  predicate DistinctKeys(es: seq<Entry>) {
    forall i, j | 0 <= i < j < |es| :: !Equal(es[j].key, es[i].key)
  }

  /** The position of the first entry whose key equals `k`. */
  function FindKey(es: seq<Entry>, k: Value): (r: Option<nat>)
    ensures r.Some? ==> r.value < |es| && Equal(k, es[r.value].key)
    ensures r.Some? ==> forall i | 0 <= i < r.value :: !Equal(k, es[i].key)
    ensures r.None? ==> forall i | 0 <= i < |es| :: !Equal(k, es[i].key)
    decreases |es|
  {
    if |es| == 0 then None
    else if Equal(k, es[0].key) then Some(0)
    else match FindKey(es[1..], k)
      case None => None
      case Some(j) => Some(j + 1)
  }

  /** `Map.get`: the value stored under a key equal to `k`. */
  function Lookup(es: seq<Entry>, k: Value): Option<Value> {
    match FindKey(es, k)
    case None => None
    case Some(j) => Some(es[j].val)
  }

  /** `MutableMap.set` on a linked hash map: an entry with an equal key keeps
      its key and position and takes the new value; otherwise the pair is
      appended. */
  function Put(es: seq<Entry>, k: Value, v: Value): (r: seq<Entry>)
    ensures |r| == |es| || |r| == |es| + 1
    ensures Lookup(r, k) == Some(v)
  {
    match FindKey(es, k)
    case Some(j) =>
      var r := es[j := Entry(es[j].key, v)];
      assert FindKey(r, k) == Some(j) by { FindKeySameKeys(es, r, k); }
      r
    case None =>
      var r := es + [Entry(k, v)];
      EqualReflexive(k);
      assert FindKey(r, k) == Some(|es|) by { FindKeyAppend(es, Entry(k, v), k); }
      r
  }

  lemma FindKeySameKeys(es: seq<Entry>, fs: seq<Entry>, k: Value)
    requires |es| == |fs| && forall i | 0 <= i < |es| :: es[i].key == fs[i].key
    ensures FindKey(es, k) == FindKey(fs, k)
    decreases |es|
  {
    if |es| > 0 { FindKeySameKeys(es[1..], fs[1..], k); }
  }

  lemma FindKeyAppend(es: seq<Entry>, e: Entry, k: Value)
    requires forall i | 0 <= i < |es| :: !Equal(k, es[i].key)
    requires Equal(k, e.key)
    ensures FindKey(es + [e], k) == Some(|es|)
    decreases |es|
  {
    if |es| > 0 {
      assert (es + [e])[1..] == es[1..] + [e];
      FindKeyAppend(es[1..], e, k);
    }
  }

  /** Puts the (even index, next) pairs of `kvs` into `es`, left to right. */
  function PutPairs(es: seq<Entry>, kvs: seq<Value>): seq<Entry>
    requires |kvs| % 2 == 0
    decreases |kvs|
  {
    if |kvs| == 0 then es else PutPairs(Put(es, kvs[0], kvs[1]), kvs[2..])
  }

  /** `List<KMalType>.toKMalMap`: fails on an odd number of forms; otherwise
      each (even index, next) pair becomes an entry, a later pair overwriting
      an earlier one with an equal key. */
  function ToMap(kvs: seq<Value>): (r: Result<Value, Error>)
    ensures r.Failure? <==> |kvs| % 2 != 0
    ensures r.Failure? ==> r.error == OddMapForms
    ensures r.Success? ==> r.value.HashMap? && DistinctKeys(r.value.entries)
  {
    if |kvs| % 2 != 0 then Failure(OddMapForms)
    else
      PutPairsDistinct([], kvs);
      Success(HashMap(PutPairs([], kvs)))
  }

  /** `KMalHashMap.toList`: key, value, key, value, … in entry order. */
  function ToList(es: seq<Entry>): (r: seq<Value>)
    ensures |r| == 2 * |es|
    ensures forall i | 0 <= i < |es| :: r[2 * i] == es[i].key && r[2 * i + 1] == es[i].val
    decreases |es|
  {
    if |es| == 0 then [] else [es[0].key, es[0].val] + ToList(es[1..])
  }

  // ---------------------------------------------------------------------------
  // Map lemmas

  lemma PutDistinct(es: seq<Entry>, k: Value, v: Value)
    requires DistinctKeys(es)
    ensures DistinctKeys(Put(es, k, v))
  {
    var r := Put(es, k, v);
    match FindKey(es, k)
    case Some(j) =>
      assert forall i | 0 <= i < |es| :: r[i].key == es[i].key;
    case None =>
      forall i, j | 0 <= i < j < |r| ensures !Equal(r[j].key, r[i].key) {
        if j == |es| {
          assert r[j].key == k && r[i].key == es[i].key;
        }
      }
  }

  lemma {:induction false} PutPairsDistinct(es: seq<Entry>, kvs: seq<Value>)
    requires |kvs| % 2 == 0 && DistinctKeys(es)
    ensures DistinctKeys(PutPairs(es, kvs))
    decreases |kvs|
  {
    if |kvs| > 0 {
      var es' := Put(es, kvs[0], kvs[1]);
      PutDistinct(es, kvs[0], kvs[1]);
      PutPairsDistinct(es', kvs[2..]);
      assert PutPairs(es, kvs) == PutPairs(es', kvs[2..]);
    }
  }

  /** Flattening a map and rebuilding it gives back the same map. */
  lemma {:induction false} MapRoundTrip(es: seq<Entry>)
    requires DistinctKeys(es)
    ensures ToMap(ToList(es)) == Success(HashMap(es))
  {
    PutPairsRebuilds(es, 0);
    assert es[..0] == [];
    assert ToList(es)[0..] == ToList(es);
  }

  lemma {:induction false} PutPairsRebuilds(es: seq<Entry>, k: nat)
    requires DistinctKeys(es) && k <= |es|
    ensures PutPairs(es[..k], ToList(es)[2 * k..]) == es
    decreases |es| - k
  {
    if k < |es| {
      ToListFrom(es, k);
      PutAppends(es, k);
      PutPairsFirst(es[..k], ToList(es)[2 * k..]);
      PutPairsRebuilds(es, k + 1);
    } else {
      assert es[..k] == es;
    }
  }

  /** The flattened entries from entry `k` on: its key, its value, then the
      flattened entries after it. */
  lemma ToListFrom(es: seq<Entry>, k: nat)
    requires k < |es|
    ensures |ToList(es)[2 * k..]| == 2 * (|es| - k)
    ensures ToList(es)[2 * k..][0] == es[k].key && ToList(es)[2 * k..][1] == es[k].val
    ensures ToList(es)[2 * k..][2..] == ToList(es)[2 * (k + 1)..]
  {
    var flat := ToList(es);
    assert flat[2 * k..][0] == flat[2 * k] && flat[2 * k..][1] == flat[2 * k + 1];
  }

  /** `PutPairs` puts the first pair, then the rest. */
  lemma PutPairsFirst(es: seq<Entry>, kvs: seq<Value>)
    requires |kvs| >= 2 && |kvs| % 2 == 0
    ensures PutPairs(es, kvs) == PutPairs(Put(es, kvs[0], kvs[1]), kvs[2..])
  {
  }

  /** With distinct keys, putting entry `k` after the entries before it
      appends it. */
  lemma PutAppends(es: seq<Entry>, k: nat)
    requires DistinctKeys(es) && k < |es|
    ensures Put(es[..k], es[k].key, es[k].val) == es[..k + 1]
  {
    var prefix := es[..k];
    forall i | 0 <= i < |prefix| ensures !Equal(es[k].key, prefix[i].key) { }
    assert FindKey(prefix, es[k].key) == None;
    assert es[..k + 1] == prefix + [Entry(es[k].key, es[k].val)];
  }

  /** Reference semantics of "later pairs win": the value of the LAST pair
      whose key equals `k`. */
  function LastBinding(kvs: seq<Value>, k: Value): Option<Value>
    requires |kvs| % 2 == 0
    decreases |kvs|
  {
    if |kvs| == 0 then None
    else if Equal(k, kvs[|kvs| - 2]) then Some(kvs[|kvs| - 1])
    else LastBinding(kvs[..|kvs| - 2], k)
  }

  /** In a map with distinct keys, at most one entry's key equals `k`. */
  lemma UniqueMatch(es: seq<Entry>, k: Value, i: nat, j: nat)
    requires DistinctKeys(es) && i < |es| && j < |es|
    requires Equal(k, es[i].key) && Equal(k, es[j].key)
    ensures i == j
  {
    if i < j {
      EqualSymmetric(k, es[i].key);
      EqualTransitive(es[i].key, k, es[j].key);
      EqualSymmetric(es[i].key, es[j].key);
    } else if j < i {
      EqualSymmetric(k, es[j].key);
      EqualTransitive(es[j].key, k, es[i].key);
      EqualSymmetric(es[j].key, es[i].key);
    }
  }

  lemma LookupPutReplace(es: seq<Entry>, k2: Value, v: Value, k: Value, j: nat)
    requires DistinctKeys(es) && FindKey(es, k2) == Some(j)
    ensures Lookup(Put(es, k2, v), k) == if Equal(k, k2) then Some(v) else Lookup(es, k)
  {
    var r := Put(es, k2, v);
    FindKeySameKeys(es, r, k);
    if Equal(k, k2) {
      EqualTransitive(k, k2, es[j].key);
      var l := FindKey(es, k).value;
      UniqueMatch(es, k, l, j);
    } else {
      match FindKey(es, k)
      case Some(l) =>
        if l == j {
          EqualSymmetric(k2, es[j].key);
          EqualTransitive(k, es[j].key, k2);
        }
      case None =>
    }
  }

  lemma LookupPutAppend(es: seq<Entry>, k2: Value, v: Value, k: Value)
    requires DistinctKeys(es) && FindKey(es, k2) == None
    ensures Lookup(Put(es, k2, v), k) == if Equal(k, k2) then Some(v) else Lookup(es, k)
  {
    if Equal(k, k2) {
      match FindKey(es, k)
      case Some(l) =>
        EqualSymmetric(k, k2);
        EqualTransitive(k2, k, es[l].key);
      case None =>
        FindKeyAppend(es, Entry(k2, v), k);
    } else {
      FindKeyPrefix(es, Entry(k2, v), k);
    }
  }

  /** Looking a key up after a `Put`: the new value if the keys are equal,
      the old association otherwise. */
  lemma LookupPut(es: seq<Entry>, k2: Value, v: Value, k: Value)
    requires DistinctKeys(es)
    ensures Lookup(Put(es, k2, v), k) == if Equal(k, k2) then Some(v) else Lookup(es, k)
  {
    match FindKey(es, k2)
    case Some(j) => LookupPutReplace(es, k2, v, k, j);
    case None => LookupPutAppend(es, k2, v, k);
  }

  lemma FindKeyPrefix(es: seq<Entry>, e: Entry, k: Value)
    requires !Equal(k, e.key)
    ensures FindKey(es + [e], k) == FindKey(es, k)
    decreases |es|
  {
    if |es| > 0 {
      assert (es + [e])[1..] == es[1..] + [e];
      FindKeyPrefix(es[1..], e, k);
    }
  }

  lemma {:induction false} PutPairsSnoc(es: seq<Entry>, kvs: seq<Value>, k: Value, v: Value)
    requires |kvs| % 2 == 0
    ensures PutPairs(es, kvs + [k, v]) == Put(PutPairs(es, kvs), k, v)
    decreases |kvs|
  {
    if |kvs| == 0 {
      assert (kvs + [k, v])[2..] == [];
    } else {
      assert (kvs + [k, v])[2..] == kvs[2..] + [k, v];
      PutPairsSnoc(Put(es, kvs[0], kvs[1]), kvs[2..], k, v);
    }
  }

  /** In the map built from `kvs`, a key is associated with the value of the
      last pair whose key equals it, and with nothing if there is none. */
  lemma {:induction false} ToMapLookup(kvs: seq<Value>, k: Value)
    requires |kvs| % 2 == 0
    ensures Lookup(ToMap(kvs).value.entries, k) == LastBinding(kvs, k)
    decreases |kvs|
  {
    if |kvs| > 0 {
      var n := |kvs|;
      var init := kvs[..n - 2];
      assert kvs == init + [kvs[n - 2], kvs[n - 1]];
      PutPairsSnoc([], init, kvs[n - 2], kvs[n - 1]);
      PutPairsDistinct([], init);
      LookupPut(PutPairs([], init), kvs[n - 2], kvs[n - 1], k);
      ToMapLookup(init, k);
    }
  }

  // ---------------------------------------------------------------------------
  // Printers

  /** `joinToString(separator)`. */
  function Join(sep: string, parts: seq<string>): string
    decreases |parts|
  {
    if |parts| == 0 then ""
    else if |parts| == 1 then parts[0]
    else parts[0] + sep + Join(sep, parts[1..])
  }

  /** `asString`: the textual form of a value. Printing readably wraps string
      contents in double quotes; otherwise strings print raw. */
  function AsString(v: Value, readably: bool): string
    decreases v
  {
    match v
    case Func(_) => "#<function>"
    case List(xs) => "(" + Join(" ", seq(|xs|, i requires 0 <= i < |xs| => AsString(xs[i], readably))) + ")"
    case Vector(xs) => "[" + Join(" ", seq(|xs|, i requires 0 <= i < |xs| => AsString(xs[i], readably))) + "]"
    case HashMap(es) =>
      "{" + Join(" ", seq(|es|, i requires 0 <= i < |es| =>
        AsString(es[i].key, readably) + " " + AsString(es[i].val, readably))) + "}"
    case String(s) => if readably then "\"" + s + "\"" else s
    case Symbol(name) => name
    case Keyword(text) => ":" + text[1..]
    case Number(n) => IntToString(n)
    case Boolean(b) => if b then "true" else "false"
    case Nil => "nil"
    case Comment => ""
  }

  /** The string printer wraps the raw contents in quotes exactly when
      printing readably. */
  lemma StringPrinting(s: string)
    ensures AsString(String(s), true) == "\"" + s + "\""
    ensures AsString(String(s), false) == s
  {
  }

  /** A keyword prints as ':' and the name it was made from, so reading that
      text back (dropping the ':') recovers the name. */
  lemma KeywordPrinting(name: string)
    ensures AsString(MakeKeyword(name), true) == ":" + name
    ensures AsString(MakeKeyword(name), true)[1..] == name
    ensures AsString(MakeKeyword(name), false) == AsString(MakeKeyword(name), true)
  {
  }

  /** `asTypeString`: a description of a value's kind, spelling out the kinds
      of the elements of a collection. */
  function AsTypeString(v: Value): string
    decreases v
  {
    match v
    case Func(_) => "Function"
    case List(xs) => "List (" + Join(" ", seq(|xs|, i requires 0 <= i < |xs| => AsTypeString(xs[i]))) + ")"
    case Vector(xs) => "Vector [" + Join(" ", seq(|xs|, i requires 0 <= i < |xs| => AsTypeString(xs[i]))) + "]"
    case HashMap(es) =>
      "Map {" + Join(" ", seq(|es|, i requires 0 <= i < |es| =>
        AsTypeString(es[i].key) + " " + AsTypeString(es[i].val))) + "}"
    case String(_) => "String"
    case Symbol(_) => "Symbol"
    case Keyword(_) => "Keyword"
    case Number(_) => "Number"
    case Boolean(_) => "Boolean"
    case Nil => "Nil"
    case Comment => "Comment"
  }
}

=== FILE: wrappers.dfy ===
/** Failure-compatible wrappers used throughout the model: an optional value,
    a value-or-error result, and a pass-or-fail check. */
module Wrappers {

  datatype Option<+T> = None | Some(value: T) {
    predicate IsFailure() {
      None?
    }

    function PropagateFailure<U>(): Option<U>
      requires None?
    {
      None
    }

    function Extract(): T
      requires Some?
    {
      value
    }
  }

  datatype Result<+R, +E> = Success(value: R) | Failure(error: E) {
    predicate IsFailure() {
      Failure?
    }

    function PropagateFailure<U>(): Result<U, E>
      requires Failure?
    {
      Failure(error)
    }

    function Extract(): R
      requires Success?
    {
      value
    }
  }

  /** A check that either passes or carries the error it raised. */
  datatype Outcome<+E> = Pass | Fail(error: E) {
    predicate IsFailure() {
      Fail?
    }

    function PropagateFailure<U>(): Result<U, E>
      requires Fail?
    {
      Failure(error)
    }
  }
}
